=== FILE: README.md ===
# A verified model of a news site's request handlers

The system is the back end of a Telugu news and entertainment site. It is an
Express application on MongoDB. Its controllers let readers and staff do the
following:

- register and log in;
- post, edit, search and delete news articles, photo galleries and YouTube videos;
- comment on articles and react to them;
- curate the home page (grid, top nine, trends, movie lists, posters and ads);
- turn article HTML into SSML for text-to-speech.

This project models those handlers in Dafny. Each handler is a pure
function:

- It takes the documents it reads, the request fields and the calling
  principal (the decoded JWT payload).
- It returns the documents it leaves behind, together with the HTTP status it
  answers with, and the message or body where that matters.

The modules follow the controllers:

| module | file | models |
|---|---|---|
| `Common` | common.dfy | request fields (`Option<string>`, JavaScript truthiness), roles, the 24-hex-digit ObjectId check, `Result` |
| `Store` | store.dfy | the Mongoose models as datatypes, the assets singleton, natural order, newest-first queries, the `$pull` of a deleted post |
| `Js` | js.dfy | `toLowerCase` on ASCII, ECMAScript white space, `parseInt` (section 19.2.5 of ECMA-262), `parseInt(x) \|\| d`, and whether `Number` reads a string as a number (section 7.1.4.1.1 of ECMA-262) |
| `Ordering` | ordering.dfy | order-preserving filters, `$pull`, the stable `Array.prototype.sort`, `skip`/`limit` windows, `reverse` |
| `Accounts` | accounts.dfy | controllers/userController.js |
| `Auth` | auth.dfy | controllers/authController.js |
| `NewsPosts` | news.dfy | controllers/newsController.js |
| `Galleries` | gallery.dfy | controllers/galleryController.js |
| `Videos` | videos.dfy | controllers/videosController.js, except the keyword extraction |
| `Keywords` | keywords.dfy | the keyword expression of getVideo, with `String.prototype.match` and the `g` flag |
| `Comments` | comments.dfy | controllers/commentController.js |
| `Dashboard` | dashboard.dfy | controllers/dashboardController.js |
| `Speech` | speech.dfy | `htmlToSsml` of controllers/speechController.js, with a small backtracking engine for its eleven expressions |

Some things the handlers depend on cannot be computed here. Each one becomes
a parameter:

| dependency | parameter |
|---|---|
| the new document's ObjectId or uuid | `freshId` |
| the bcrypt hash of a new password | `hashed` |
| `bcrypt.compare` | `matches` |
| the JWT verdicts | `holder`, `verifies` |
| the clock | `now`, and `cutoff(span)` for "the start of the last day/week/month/half year" |
| the result of an S3 upload | `upload`, `uploads` (`None` when the upload throws); `hasFile` says whether the request carries a file at all |
| the collection's natural (insertion) order | `order`, constrained by `Store.IsNaturalOrder` |
| a case-insensitive `$regex` test built from user text | `hit` |

## Model

| member | source | states |
|---|---|---|
| Store.NewUser | models/userModel.js:4-38 | a new account is active, has the default profile picture, and has role "user" unless the request names one |
| Store.ListNewest | controllers/newsController.js:170-185 | a newest-first listing holds exactly the documents that pass the query, each once, with creation times non-increasing |
| Store.NewestOthers | controllers/galleryController.js:184-188 | the suggestions are at most n documents other than the post itself, newest first; a short list holds every other document, and no document left out is newer than one listed |
| Store.PrefixIsNewest | controllers/galleryController.js:184-188 | the first n entries of a newest-first listing are at least as new as every entry after them |
| Store.RowsOnce | controllers/newsController.js:170-185 | a query over the whole collection visits every document exactly once |
| Store.ListedOnce | controllers/newsController.js:170-185 | a newest-first listing holds each document that passes the query exactly once, and no other |
| Store.CurrentUser | controllers/newsController.js:43-51 | `findById` on the caller finds an account exactly when there is a caller whose id is stored |
| Store.PullEverywhere | controllers/newsController.js:365-384 | after deleting a post, each of the seven plain id lists loses exactly that id; the pair lists, hot topics, the gallery and every banner stay as they were |
| Store.PullFromAssets | controllers/newsController.js:365-384 | with no assets document, the pull changes nothing; otherwise the result is `PullEverywhere` |
| Store.PullRemovesOnlyId | controllers/newsController.js:365-384 | no list mentions the deleted id afterwards, and every other id keeps its number of occurrences |
| Store.PullIdempotent | controllers/newsController.js:365-384 | pulling an id twice is the same as pulling it once |
| Store.PullLeavesUnrelated | controllers/newsController.js:365-384 | a list that never held the id is left untouched |
| Js.Lower | controllers/newsController.js:221-243 | lower-casing keeps the length and maps each character on its own |
| Js.LowerIdempotent | controllers/newsController.js:221-243 | lower-casing an already lower-cased category changes nothing |
| Js.ParseInt | controllers/commentController.js:60-66 | `parseInt` without a radix: leading white space, an optional sign, an optional `0x` prefix that switches to hexadecimal, then the longest run of digits; NaN when there is none |
| Js.TrimEnd | models/newsModel.js:34-37 | removes exactly the white space and line terminators at the end, as `Number` does before reading |
| Js.IsNumeric | models/newsModel.js:34-37 | `Number(s)` is not NaN: the trimmed text is empty or a StrNumericLiteral of section 7.1.4.1.1 of ECMA-262 |
| Js.SpacesAround | models/newsModel.js:34-37 | white space on both sides of a numeric literal does not stop it being a number |
| Js.DecimalIsNumeric | models/newsModel.js:34-37 | every decimal numeral, with or without a minus sign, casts |
| Js.NumericExamples | models/newsModel.js:34-37 | " 4.5 ", "", "0x1F", "-Infinity" and "1e3" cast |
| Js.NotNumericExamples | models/newsModel.js:34-37 | "abc", "4.5.1", "-0x1F" and "1e" do not cast |
| Js.ParseIntOr | controllers/commentController.js:47-91 | `parseInt(x) \|\| d` gives the fallback for an absent, unparsable or zero value, and the parsed number otherwise |
| Js.ParseIntDecimal | controllers/commentController.js:47-91 | `parseInt` reads back the decimal numeral of any n, whatever non-digits follow it |
| Js.ParseIntNegative | controllers/commentController.js:47-91 | a minus sign before a numeral gives the negative number |
| Ordering.Filter | controllers/newsController.js:170-185 | keeps exactly the elements that satisfy the query, with their multiplicities, as a subsequence of the input |
| Ordering.Without | controllers/newsController.js:365-384 | `$pull` removes every occurrence of the value, keeps every other element's count, and keeps their order |
| Ordering.WithoutAppend | controllers/newsController.js:365-384 | pulling from a concatenation is pulling from each part |
| Ordering.SortBy | controllers/dashboardController.js:163-165 | the result is a stable sort of the input by the key: keys ascend and, for each key, the elements keep their input order |
| Ordering.StableSortUnique | controllers/dashboardController.js:163-165 | any two stable sorts of the same input are equal, so the listing is determined by the stored order |
| Ordering.SortBySorted | controllers/dashboardController.js:163-165 | sorting a list that is already in key order returns it unchanged |
| Ordering.Window | controllers/commentController.js:47-91 | `.skip(k).limit(n)` returns at most n elements, namely the ones at k, k+1, … of the input |
| Ordering.WindowsTile | controllers/commentController.js:47-91 | the page at k of size a, followed by the page at k+a of size b, is the page at k of size a+b |
| Ordering.LastN | controllers/dashboardController.js:431-444 | `slice(-n)` keeps the last n elements, in order |
| Ordering.Reverse | controllers/dashboardController.js:539-558 | the i-th element of the reversal is the i-th from the end |
| Ordering.ReverseInvolution | controllers/dashboardController.js:539-558 | reversing twice gives the list back |
| Accounts.GetUser | controllers/userController.js:6-35 | success exactly for a stored, well-formed 24-character id; otherwise 404 for a well-formed id that is not stored and 500 for any other id |
| Accounts.GetCurrentUser | controllers/userController.js:37-86 | 404 without a caller or an account, 400 for a malformed caller id; on success, the six public fields of the caller's own account |
| Accounts.ProfileHidesOnlySecrets | controllers/userController.js:56-77 | the profile returned determines every field of the stored account except the password hash and the phone number |
| Accounts.GetAdminsWriters | controllers/userController.js:201-222 | the list holds exactly the admins and writers other than the caller, in stored order |
| Accounts.StaffListExcludesCaller | controllers/userController.js:201-222 | the caller never appears, and every other staff account does |
| Accounts.UserActive | controllers/userController.js:224-267 | only an admin, naming a stored account, succeeds; that account's active flag flips and no other account changes; otherwise nothing changes |
| Accounts.UserActiveTwice | controllers/userController.js:224-267 | toggling twice restores the collection exactly |
| Accounts.Updated | controllers/userController.js:385-388 | exactly the truthy supplied fields are written; every other field is kept |
| Accounts.EmailTaken | controllers/userController.js:303 | `findOne({ email })` finds an account: one with that email, or, with no email in the body, any account at all, because Mongoose drops a filter key whose value is undefined |
| Accounts.ApplyUpdate | controllers/userController.js:275-327 | a missing name gives 400 and a taken email gives 404, so a request without an email succeeds only on an empty collection; otherwise only the named account changes |
| Accounts.UpdateDetails | controllers/userController.js:269-340 | the id must have 24 characters and belong to the caller; the name must be given and the email must be free (an absent email counts as taken once any account exists); on success, only the caller's own name and email change, never the role |
| Accounts.NameOnlyUpdateRefused | controllers/userController.js:303-310 | an update that leaves the email out never succeeds; for the caller's own stored account it is 404 in both update handlers |
| Accounts.OwnEmailRejected | controllers/userController.js:269-340 | re-sending one's own current email is refused as a duplicate (404) by both update handlers |
| Accounts.UpdateUserDetails | controllers/userController.js:342-414 | the same update with role and the same email lookup (controllers/userController.js:376); an admin, or any caller on their own account, succeeds |
| Accounts.SelfPromotion | controllers/userController.js:342-414 | a plain user who updates their own account with role "admin" becomes an admin |
| Accounts.DetailsCheck | controllers/userController.js:416-440 | the comma operator makes the message the only field that is checked |
| Accounts.ContactUsMail | controllers/userController.js:416-440 | accepted exactly when the message is truthy; otherwise 404 "Enter all details." |
| Accounts.OnlyMessageRequired | controllers/userController.js:416-440 | a form that has only a message is accepted |
| Accounts.AdMail | controllers/userController.js:442-480 | an empty page, then an empty ad size, are refused in that order; acceptance also needs a message |
| Accounts.AbsentPageAccepted | controllers/userController.js:442-480 | leaving page and size out altogether is accepted, because only `""` is refused |
| Auth.FindByEmail | controllers/authController.js:21 | `findOne({email})` returns the first account in natural order with that email, and returns nothing exactly when no account has it |
| Auth.Create | controllers/authController.js:11-62 | a missing field gives 404 "Provide all fields!", as does a taken email; otherwise the fresh account is added with the hash and nothing else changes |
| Auth.Register | controllers/authController.js:11-62 | an account is created exactly when all fields are present and the email is free; the stored password is the hash, and every other account is kept unchanged |
| Auth.AnyoneRegistersAsAdmin | controllers/authController.js:30-37 | the role comes from the request unchecked, so anyone can register an admin account |
| Auth.RegisterByAdmin | controllers/authController.js:95-153 | a caller who is not an admin is refused before anything else is looked at; an admin gets the same creation as register |
| Auth.NonAdminRefusedFirst | controllers/authController.js:101 | a non-admin is told only "You can't add account!", and nothing changes |
| Auth.Login | controllers/authController.js:155-206 | 201 exactly for present credentials whose email is stored and whose password matches; every failure is 404; success returns the account |
| Auth.LoginHidesPassword | controllers/authController.js:195-197 | the account a successful login returns carries no password hash |
| Auth.RefreshToken | controllers/authController.js:219-259 | 201 exactly when the cookie is present, belongs to an account and verifies; every failure is 403 |
| Auth.NoCookieNoToken | controllers/authController.js:219-259 | a request without the cookie is refused, whatever the token checks would say |
| Auth.PasswordCheck | controllers/authController.js:266-278 | accepted exactly for a password of at least six characters that equals its confirmation; a short one gives 400 and a mismatch 401 |
| Auth.SetPassword | controllers/authController.js:282-296 | only the named account's password changes; if the account is gone the result is 401 |
| Auth.ResetPassword | controllers/authController.js:261-304 | the password checks come first; on success only the caller's own password changes |
| Auth.SixCharactersSuffice | controllers/authController.js:266-271 | a six-character password is accepted and a five-character one refused |
| Auth.ResetUserPassword | controllers/authController.js:306-371 | id present, id length, password checks, then admin: each failure leaves the collection as it was; success changes only the named account's password |
| Auth.PasswordCheckedBeforeAdmin | controllers/authController.js:326-345 | a non-admin with a short password hears about the password (400), not about the role |
| Common.FirstMissing | controllers/newsController.js:15-39 | with one prompt per required field, the answer is the prompt of the first falsy field, then "User not found!" without a caller, and nothing exactly when every field is truthy and there is a caller |
| NewsPosts.AddNewsAsksInOrder | controllers/newsController.js:15-39 | a missing title, description, category, tags and then caller is reported in that order, each with its own message and 404 |
| NewsPosts.RatingCasts | models/newsModel.js:34-37 | a `movieRating` casts to the schema's Number when it is absent or `Number` does not read it as NaN |
| NewsPosts.AddNews | controllers/newsController.js:9-95 | corrected: a missing item or inactive staff gives 404; a missing upload or a rating that does not cast gives 500 and stores nothing; on success exactly one article is added, with the request's fields, the upload and the caller as author |
| NewsPosts.AddNewsAsWritten | models/newsModel.js:14-18 | as written: the unique `newsId` index, with `newsId` never set, lets a post succeed only into an empty collection; every other answer is the corrected one, and a failure stores nothing |
| NewsPosts.SecondArticleRefused | controllers/newsController.js:56-66 | a valid post to a collection that already holds an article gets 500 as written, and 200 from the corrected handler |
| NewsPosts.TwoPostsBothStored | controllers/newsController.js:56-66 | corrected: two valid posts in a row both succeed, and both articles are stored under their own ids |
| NewsPosts.RatingMustCast | models/newsModel.js:34-37 | a rating of "abc" fails the save with 500; " 4.5 " is accepted and stored as sent |
| NewsPosts.OnlyInactiveStaffTurnedAway | controllers/newsController.js:43-51 | a reader account may post news; only an inactive admin or writer is refused; as written, this holds for the first article, since later ones hit the duplicate key |
| NewsPosts.GetNewsById | controllers/newsController.js:115-163 | success exactly for a stored well-formed id; otherwise 500 for 24 non-hex characters and 404 for everything else |
| NewsPosts.WrongLengthIsNotFound | controllers/newsController.js:119 | an id of any other length is 404 without a lookup |
| NewsPosts.GetFilteredNews | controllers/newsController.js:165-192 | exactly the articles matching the category and subcategory that are given, each once, newest first |
| NewsPosts.UnfilteredListsAll | controllers/newsController.js:165-192 | with no filter, every article is listed once |
| NewsPosts.Bucket | controllers/newsController.js:221-243 | a group holds exactly the found articles whose lower-cased category is the key, in query order |
| NewsPosts.NewsHits | controllers/newsController.js:204-218 | the articles whose title or description matches the search |
| NewsPosts.GalleryHits | controllers/newsController.js:204-218 | the galleries whose name, title or description matches the search |
| NewsPosts.GetSearchedNews | controllers/newsController.js:194-253 | 400 without `q`; otherwise one group per category key except "gallery", each holding exactly its matching articles, plus the matching galleries |
| NewsPosts.UngroupedArticlesVanish | controllers/newsController.js:221-243 | an article filed under "gallery", or under a category outside the ten keys, appears in no group |
| NewsPosts.GroupsKeepQueryOrder | controllers/newsController.js:221-243 | each group is a subsequence of the query's result |
| NewsPosts.StaffCheck | controllers/newsController.js:297-307 | passes exactly when the caller's stored account is an active admin or writer |
| NewsPosts.LookupStatus | controllers/newsController.js:261-273 | found exactly for a well-formed id that is stored |
| NewsPosts.Edited | controllers/newsController.js:309-314 | only the five editable fields change |
| NewsPosts.EditNews | controllers/newsController.js:255-326 | the post is looked up before the fields are checked; on success only that article changes, by exactly the edit |
| NewsPosts.EditNewsIdempotent | controllers/newsController.js:255-326 | sending the same edit twice leaves the article as one edit does |
| NewsPosts.DeleteNews | controllers/newsController.js:328-394 | success removes exactly that article and pulls its id from the assets lists; any failure changes nothing |
| NewsPosts.DeleteBreaksHomeGrid | controllers/newsController.js:365-384 | a home-grid entry that names the deleted article survives, left dangling, because the pair lists are not pulled |
| Store.PresetBound | controllers/newsController.js:400-444 | the five date presets of a listing ("1day", "1week", "1month", "6month", "older" for news) mean, in order, posted within the last day, week, month and half year, and posted before the last half year; only the last one is a "before" bound, and any other value adds no condition |
| NewsPosts.FilterNews | controllers/newsController.js:396-461 | 500 for a truthy malformed writer id; otherwise exactly the articles that pass every given condition, each once, newest first |
| NewsPosts.SixMonthsAndOlderPartition | controllers/newsController.js:400-444 | every otherwise-matching article is listed by exactly one of "6month" and "older" |
| NewsPosts.HalfYearSplits | controllers/newsController.js:400-444 | the two half-year bounds are complementary |
| NewsPosts.Listed | controllers/newsController.js:396-461 | an article is listed exactly when it is stored and passes the query |
| NewsPosts.UnknownTimeIgnored | controllers/newsController.js:400-444 | an unknown `time` value filters exactly as no `time` at all |
| Galleries.AddGalleryAsksInOrder | controllers/galleryController.js:10-34 | a missing title, name, description, category and then caller is reported in that order, each with its own message and 404 |
| Galleries.Pictures | controllers/galleryController.js:48-55 | one URL per uploaded file, in upload order, or a failure if any upload failed |
| Galleries.AddGallery | controllers/galleryController.js:5-76 | a missing item or inactive staff gives 404; on success exactly one gallery is added, holding the uploaded pictures |
| Galleries.PicturesInUploadOrder | controllers/galleryController.js:48-66 | the stored gallery keeps every uploaded picture, in upload order |
| Galleries.HalfYearPresets | controllers/galleryController.js:102-143 | the gallery presets "last6months" and "above6months" mean within, and before, the last half year |
| Galleries.GetGalleryByQuery | controllers/galleryController.js:96-160 | exactly the galleries that pass every given condition, each once, newest first |
| Galleries.HalfYearPartition | controllers/galleryController.js:102-143 | every otherwise-matching gallery is listed by exactly one of the two half-year presets |
| Galleries.HalfYearSplits | controllers/galleryController.js:102-143 | the two half-year bounds are complementary |
| Galleries.Listed | controllers/galleryController.js:96-160 | a gallery is listed exactly when it is stored and passes the query |
| Galleries.UnknownPresetIgnored | controllers/galleryController.js:102-143 | an unknown `postedTime` filters exactly as none at all |
| Galleries.GetGalleryById | controllers/galleryController.js:162-203 | success exactly for a stored well-formed id; the suggestions are the 16 newest other galleries, newest first: none left out is newer than one listed, and a short list holds every other gallery |
| Galleries.OwnerCheck | controllers/galleryController.js:233-252 | passes exactly for a stored account that is not inactive staff, a stored gallery with a poster, and a caller who posted it or is an admin or writer; 403 exactly for any other reader |
| Galleries.EditGallery | controllers/galleryController.js:219-270 | all four fields are required first; a refusal by the shared checks has their status and the message that goes with its cause; on success only that gallery's four fields change |
| Galleries.OwnerMessage | controllers/galleryController.js:233-268 | the thrown error's text for a missing account, a malformed id or a gallery without a poster; "Gallery not found!" and "Unauthorized action!" after the lookup; the handler's own text for inactive staff |
| Galleries.EditGalleryExplainsRefusal | controllers/galleryController.js:246-253 | for an active caller, a missing gallery gives 404 "Gallery not found!" and a reader editing someone else's gallery 403 "Unauthorized action!", changing nothing |
| Galleries.StaffEditsAnyGallery | controllers/galleryController.js:251-252 | an active admin or writer may edit a gallery someone else posted |
| Galleries.DeleteGallery | controllers/galleryController.js:272-313 | success removes exactly that gallery and nothing else |
| Galleries.DeleteKeepsAssetsReference | controllers/galleryController.js:272-313 | the home page's reference to a deleted gallery is left in place |
| Videos.EmbedUrl | controllers/videosController.js:35 | the player URL is `https://www.youtube.com/embed/` followed by the YouTube id |
| Videos.ThumbnailUrl | controllers/videosController.js:36 | the thumbnail URL is `https://img.youtube.com/vi/`, the YouTube id, then `/mqdefault.jpg` |
| Videos.EmbedId | controllers/videosController.js:20-30 | any id read from a player URL rebuilds that URL |
| Videos.ThumbnailId | controllers/videosController.js:20-30 | any id read from a thumbnail URL rebuilds that URL |
| Videos.UrlsRoundTrip | controllers/videosController.js:20-30 | both stored URLs give back the YouTube id they were built from |
| Videos.NewVideo | controllers/videosController.js:20-30 | the stored video names the caller as poster, has category "videos", and both URLs encode the YouTube id |
| Videos.AddVideo | controllers/videosController.js:5-50 | a missing title and then a missing YouTube id give 500; inactive staff gives 404; on success exactly that one video is added |
| Videos.ReadersMayPost | controllers/videosController.js:20-38 | a reader account may post a video |
| Videos.OnShelf | controllers/videosController.js:55-91 | the query of each shelf: category "videos" and the shelf's subcategory, with the latest shelf taking a missing or empty one |
| Videos.Similar | controllers/videosController.js:132-139 | a title matches when, ignoring case, it contains one of the keywords |
| Videos.RelatedTo | controllers/videosController.js:143-146 | another video with the same subcategory, or any other video when there is none |
| Videos.First | controllers/videosController.js:143-157 | `.find(q).limit(n)` returns at most n matching videos, in stored order; a short answer holds them all |
| Videos.GetCategoryVideos | controllers/videosController.js:52-110 | every shelf is present, holds exactly the videos of its query, each once, and is sorted newest first |
| Videos.ShelvesPartition | controllers/videosController.js:52-110 | no video is on two shelves; a video is on some shelf exactly when its category is "videos" and its subcategory is known or missing |
| Videos.SimilarPosts | controllers/videosController.js:132-140 | at most six other videos whose titles contain a keyword; none without keywords; a short list holds them all |
| Videos.RelatedPosts | controllers/videosController.js:143-146 | at most six other videos with the same subcategory, or any other videos when the video has none (the undefined filter key is dropped); a short list holds them all |
| Videos.SongPosts | controllers/videosController.js:154-157 | at most six other videos that are songs; a short list holds them all |
| Videos.GetVideo | controllers/videosController.js:112-174 | success exactly for a stored well-formed id; no list holds the video itself; the four lists are the similar, related, six newest and song posts, so each is complete when short, and the suggestions are the six newest other videos, newest first |
| Videos.DeleteVideo | controllers/videosController.js:191-237 | success removes the id from the videos and pulls it from the assets lists; inactive staff gives 404; any failure changes nothing |
| Videos.ReaderDeletesAnything | controllers/videosController.js:196-227 | a reader account gets 200 even for an id no video has |
| Keywords.LongestAt | controllers/videosController.js:129 | the greedy match at a position is the longest run of capitalised words between word boundaries, or nothing matches there |
| Keywords.Matches | controllers/videosController.js:129 | the global search returns the leftmost-longest matches, in order, without overlap, skipping every position where nothing matches |
| Keywords.Extract | controllers/videosController.js:129 | the keywords are exactly the texts of those matches |
| Keywords.KeywordsCapitalised | controllers/videosController.js:129 | every keyword starts with a capital and ends with a small letter |
| Keywords.NoCapitalNoKeywords | controllers/videosController.js:129-140 | a title without a capital followed by a small letter yields no keywords, so there are no similar posts |
| Keywords.ExampleTitle | controllers/videosController.js:129 | "Kalki AD Trailer" gives "Kalki" and "Trailer"; the all-capitals "AD" is no keyword |
| Comments.Like | controllers/commentController.js:362-375 | a user who liked takes the like back; otherwise the user's dislike is removed and the user is appended to the likes; other users are untouched |
| Comments.Dislike | controllers/commentController.js:414-427 | the same with likes and dislikes exchanged |
| Comments.DislikeMirrorsLike | controllers/commentController.js:414-427 | disliking is liking with the two lists exchanged |
| Comments.LikePreservesValid | controllers/commentController.js:362-375 | liking keeps both lists free of duplicates and disjoint |
| Comments.DislikePreservesValid | controllers/commentController.js:414-427 | so does disliking |
| Comments.LikeTwiceFromNeutral | controllers/commentController.js:362-375 | liking twice from neither list gives back exactly the original comment |
| Comments.LikeTwiceFromLiked | controllers/commentController.js:362-375 | liking twice from liked restores who likes and dislikes the comment |
| Comments.LikeTwiceFromDisliked | controllers/commentController.js:362-375 | liking twice from disliked leaves the user with neither reaction |
| Comments.FindStatus | controllers/commentController.js:352-359 | `findById` finds the comment exactly for a well-formed stored id; a malformed one fails the cast |
| Comments.LikeComment | controllers/commentController.js:340-390 | 200 exactly for a stored well-formed id, and then only that comment changes; otherwise nothing changes |
| Comments.DislikeComment | controllers/commentController.js:392-443 | the same for dislikes |
| Comments.Upsert | controllers/commentController.js:123-131 | the user's reaction gets the new type, or one is appended; all other reactions stay; one reaction per user is kept |
| Comments.UpsertIdempotent | controllers/commentController.js:123-131 | reacting again with the same type changes nothing |
| Comments.UpsertSetsKind | controllers/commentController.js:123-131 | after the upsert every reaction by the user has the new type |
| Comments.AddReaction | controllers/commentController.js:93-146 | 404 for missing fields or a missing post; on success only that post's reactions change, by the upsert |
| Comments.AddGalleryReactionAsWritten | controllers/commentController.js:148-201 | the handler as written never records a reaction to a gallery |
| Comments.GalleryReactionNeverRecorded | controllers/commentController.js:178-186 | for an existing gallery and complete fields, the answer is 500 and nothing changes |
| Comments.AddGalleryReaction | controllers/commentController.js:148-201 | corrected: the same upsert as for news, on the gallery's reactions |
| Comments.GalleryReactionRecorded | controllers/commentController.js:178-186 | corrected: a well-formed reaction is recorded, and each user still has one reaction |
| Comments.AddComment | controllers/commentController.js:203-244 | 400 without a news id or text; 500 without a caller or for a caller id that `postedBy` cannot cast; 201 otherwise, adding exactly one top-level comment by that caller |
| Comments.AddThenListComment | controllers/commentController.js:47-244 | a posted comment becomes the last top-level comment of its post in natural order, and the total the listing reports grows by one |
| Comments.AddCommentKeepsLinks | controllers/commentController.js:203-244 | a top-level comment is nobody's reply, so every reply stays listed by its parent |
| Comments.AddReplyComment | controllers/commentController.js:246-291 | 400 without a parent or text; 500 without a caller or when the caller's id or the parent id is not an ObjectId; on success the reply is added and its id is appended to the parent's replies |
| Comments.AddReplyKeepsLinks | controllers/commentController.js:246-291 | every reply whose parent exists stays listed among the parent's replies |
| Comments.DeleteComment | controllers/commentController.js:293-338 | only the author may delete; the comment and its listed replies go, and every other comment is kept unchanged |
| Comments.DeleteKeepsLinks | controllers/commentController.js:293-338 | every surviving reply is still listed by its surviving parent |
| Comments.DeleteIsOneLevel | controllers/commentController.js:293-338 | a reply to a reply survives when the top comment is deleted |
| Comments.DeleteLeavesDanglingReply | controllers/commentController.js:293-338 | deleting a reply leaves its id in the parent's replies |
| Comments.TopLevel | controllers/commentController.js:47-91 | exactly the comments on the post that have no parent, in stored order |
| Comments.PageSize | controllers/commentController.js:47-91 | `parseInt(limit) \|\| 4`: four for an absent, unparsable or zero limit |
| Comments.GetNewsComments | controllers/commentController.js:47-91 | 400 without a post id and 500 for a negative skip; otherwise the requested page of the newest-first top-level comments, with their total, each comment carrying at most `parseInt(replyCommentsLimit) \|\| 4` of its surviving replies, newest first, none left out newer than one shown |
| Comments.LatestReplies | controllers/commentController.js:63-73 | the populated replies of one comment: at most the reply limit, only its listed replies that still exist, newest first, and complete when short |
| Comments.NewestFirstSorted | controllers/commentController.js:63-73 | sorting the replies by `createdAt` descending keeps the same replies and lists them newest first |
| Comments.RepliesOf | controllers/commentController.js:63-73 | each comment of the page gets its own populated replies |
| Comments.PagesTile | controllers/commentController.js:47-91 | consecutive pages join up, without gaps or overlap, into the longer page |
| Comments.DecimalQuery | controllers/commentController.js:47-91 | `?skip=n` in decimal skips n comments, and a positive limit n gives pages of n |
| Comments.DefaultPageIsFourNewest | controllers/commentController.js:47-91 | without paging parameters, the four newest top-level comments are returned, each with its four newest replies |
| Comments.Populate | controllers/commentController.js:5-45 | `populate("replies")` yields exactly the listed replies that still exist |
| Comments.GetComments | controllers/commentController.js:5-45 | 400 without a post id; otherwise one thread for every comment on the post (a permutation of them), newest first, each with its surviving replies sorted newest first |
| Comments.ThreadComments | controllers/commentController.js:5-45 | the comments of a list of threads, one per thread, in thread order |
| Comments.ThreadsOfSorted | controllers/commentController.js:5-45 | the threads of a newest-first sort are a permutation of the post's comments, ordered newest first, and carry their replies stably sorted |
| Dashboard.WithPlacements | controllers/dashboardController.js:92-100 | replacing one curated list leaves the other two as they were |
| Dashboard.SavePlacements | controllers/dashboardController.js:92-100 | the saved list is the request's, and nothing else in the assets document changes |
| Dashboard.AllCast | models/assetsModel.js:51-87 | every entry's news id is an ObjectId, so the save casts it |
| Dashboard.SetHomeGrid | controllers/dashboardController.js:76-110 | exactly five items (400) are checked before the role (403); an entry whose news id is not an ObjectId makes the save fail (500); on success the grid is the request's items |
| Dashboard.SetTopNine | controllers/dashboardController.js:226-264 | exactly nine items (400), then a caller (404), then staff (403), then the cast of every news id (500); on success the list is the request's items |
| Dashboard.SetTrends | controllers/dashboardController.js:333-379 | at least one item with no upper bound; 404 for no items or no caller, 403 for a reader, 500 when a news id does not cast |
| Dashboard.SetTrendsAcceptsAnyPositions | controllers/dashboardController.js:333-379 | any number of items with well-formed news ids and any positions is accepted and stored as sent |
| Dashboard.Resolve | controllers/dashboardController.js:153-161 | each entry is paired with the news post it names |
| Dashboard.ResolveForget | controllers/dashboardController.js:153-161 | populating and then forgetting the posts gives the entries back |
| Dashboard.ShowSorted | controllers/dashboardController.js:153-165 | 500 when some entry names a deleted post; otherwise the entries stably sorted by position, each with its post |
| Dashboard.GetPlacements | controllers/dashboardController.js:146-176 | a read creates an empty assets document if there is none, and answers with the sorted, populated list |
| Dashboard.SortedResolves | controllers/dashboardController.js:153-165 | sorting does not change which posts a list names |
| Dashboard.SetThenGetHomeGrid | controllers/dashboardController.js:76-176 | writing five entries and reading them back gives the written entries sorted by position |
| Dashboard.SetThenGetTopNine | controllers/dashboardController.js:226-330 | the same round trip for the top nine |
| Dashboard.DuplicatePositionsKeepWriteOrder | controllers/dashboardController.js:163-165 | two entries at the same position are read back in the order they were written |
| Dashboard.PushRecent | controllers/dashboardController.js:431-444 | the new URL is last, and the ten most recent URLs are kept in order |
| Dashboard.SetFilesLink | controllers/dashboardController.js:415-454 | 404 without a file; 500 without a caller or when the storage upload fails after the role check; 403 for a reader; on success only the file log changes, by the returned URL |
| Dashboard.FilesLogIsRecentHistory | controllers/dashboardController.js:431-444 | the log is always the ten most recent uploads of the whole history |
| Dashboard.GetFilesLinks | controllers/dashboardController.js:456-475 | 404 only while no assets document exists; otherwise the stored log |
| Dashboard.WithEntries | controllers/dashboardController.js:477-537 | replacing one movie list leaves the other as it was |
| Dashboard.AddMovie | controllers/dashboardController.js:477-537 | every field and a staff caller are required; on success one entry with the fresh id is appended and nothing else changes |
| Dashboard.AddMovieKeepsIdsUnique | controllers/dashboardController.js:477-537 | with a fresh id, the ids of the list stay distinct |
| Dashboard.GetMovies | controllers/dashboardController.js:539-558 | 404 while no document exists; otherwise the list newest first, i.e. reversed |
| Dashboard.AddThenGetMovies | controllers/dashboardController.js:477-558 | an added entry is the first one the next read returns |
| Dashboard.EditMovieKeepsIdsUnique | controllers/dashboardController.js:560-618 | an edit never changes an id, so a list with distinct ids keeps them distinct |
| Dashboard.EditThenGetMovies | controllers/dashboardController.js:539-618 | after a staff edit of a stored entry, the next read shows that entry with exactly its truthy fields replaced, and nothing else new |
| Dashboard.GetMoviesStoredOrder | controllers/dashboardController.js:539-558 | reversing the answer gives the stored order back |
| Dashboard.FirstWithId | controllers/dashboardController.js:583-599 | `find` returns the first entry with the id, or reports that none has it |
| Dashboard.EditMovie | controllers/dashboardController.js:560-618 | 400 when no field is given; 404 without a caller, without a document, for an empty list or an absent id; 403 for a reader; 500 for a missing id on a non-empty list; on success only the first entry with the id changes, in its truthy fields |
| Dashboard.RemoveId | controllers/dashboardController.js:645-654 | the entries without the id, in their original order |
| Dashboard.RemoveFreshId | controllers/dashboardController.js:645-654 | removing a freshly appended id undoes the append |
| Dashboard.WithEntriesRestore | controllers/dashboardController.js:645-654 | writing a list back restores the document |
| Dashboard.DeleteMovie | controllers/dashboardController.js:620-666 | 404 without a caller, without a document or when no entry has the id; a reader gets 403; on success every entry with the id goes and nothing else changes |
| Dashboard.AddThenDeleteMovie | controllers/dashboardController.js:620-666 | deleting the id just added restores the document as it was |
| Dashboard.WithPoster | controllers/dashboardController.js:890-925 | setting one poster slot leaves the other slots as they were |
| Dashboard.SetPoster | controllers/dashboardController.js:890-925 | img and link are required (400); with no assets document the answer is 404, because posters are not upserted |
| Dashboard.GetPoster | controllers/dashboardController.js:863-888 | 404 only while no assets document exists |
| Dashboard.SetThenGetPoster | controllers/dashboardController.js:890-952 | a poster that was set is read back, and the other slots keep theirs |
| Dashboard.WithAd | controllers/dashboardController.js:1083-1112 | setting one ad slot leaves the others as they were |
| Dashboard.SetAd | controllers/dashboardController.js:1083-1112 | img and link are required (400); otherwise the ad is upserted, creating the document if needed |
| Dashboard.GetAd | controllers/dashboardController.js:1058-1081 | 404 only while no assets document exists |
| Dashboard.SetThenGetAd | controllers/dashboardController.js:1058-1112 | an ad that was set is the one the matching getter returns, on any database; the other five slots are read back as stored, or as the defaults of a new document |
| Dashboard.AdsUpsertPostersDoNot | controllers/dashboardController.js:1083-1112 | on an empty database a set ad is read back, while a set poster is refused and stays unreadable |
| Speech.Run | controllers/speechController.js:9-56 | the length of the longest run of characters in the class from a position |
| Speech.PastGt | controllers/speechController.js:56 | the position just past the first `>` at or after j, or the end of the text |
| Speech.HtmlToSsml | controllers/speechController.js:4-62 | the output is clean, meaning no `<` is left that opens a tag, and it keeps the characters of the rewritten text in order |
| Speech.CleanupMeaning | controllers/speechController.js:56 | the clean-up expression deletes exactly each `<`, with an optional `/`, then characters up to and including the next `>` or the end of the text |
| Speech.StripMatch | controllers/speechController.js:56 | the clean-up expression matches at i exactly when a tag opens there, and ends just past the next `>` |
| Speech.StripClean | controllers/speechController.js:56 | what the clean-up leaves is clean |
| Speech.StripKeepsClean | controllers/speechController.js:56 | a clean text passes the clean-up unchanged |
| Speech.StripIdempotent | controllers/speechController.js:56 | the clean-up is idempotent |
| Speech.StripSubseq | controllers/speechController.js:56 | the clean-up only deletes characters |
| Speech.PlainTextUnchanged | controllers/speechController.js:4-62 | input without a `<` comes out unchanged |
| Speech.FormattingSkipsListTags | controllers/speechController.js:9-36 | none of the bold, italic and underline expressions can match at `<l` or `</` |
| Speech.LineBreakMissesBreak | controllers/speechController.js:51 | the line-break expression does not match the `<break` tags produced earlier |
| Speech.ListItemReplaced | controllers/speechController.js:45-48 | `<li>X</li>` becomes a bullet with a 300 ms pause on each side |
| Speech.ListItemRewritten | controllers/speechController.js:9-53 | among the rewrites, only the list-item rule changes `<li>X</li>` |
| Speech.ListItemSpoken | controllers/speechController.js:4-62 | the whole transformation reads `<li>X</li>` as "• X": the clean-up deletes the pauses again |

## Left out

- Galleries.DeleteGallery: answers the status, not the message. Its messages are those of `Galleries.OwnerMessage`, with "You don't have permission to delete!" as the inactive-staff text.
- getDashboardData: it only counts documents in each collection.
- getTrends: it populates with `$in`, which returns posts in an order the database does not promise.
- textToAudio: it calls a speech-synthesis service.
- addProfilePic, editProfilePic: they upload the picture to S3 and store the URL. The upload is an external service, and nothing else in these handlers is checked.
- Mail sending in addNews, contactUsMail and adMail: only the handlers' checks and statuses are modelled.
- joinWithGoogle, googleCallback: they delegate to passport's Google OAuth.
- logout: it only clears a cookie.
- getNews, getGallery, getAllVideos: each is a single newest-first listing with no checks. `Store.ListNewest` states what such a listing returns.
- fileLink: it reads four body fields, uses none of them, and always answers 200 with "Gallery added successfully". It uploads nothing and stores nothing.
- Commented-out handlers are not modelled.
- getNewsById picks its suggestions with `$sample`, which is random. Only the lookup is modelled.
- The order of documents with equal `createdAt` in a newest-first query is the order the sort produces, which is stable over natural order. MongoDB does not promise this.
- Comments.GetNewsComments: gives each comment of the page its own newest replies, up to `parseInt(replyCommentsLimit) || 4`. Mongoose documents that a populate `limit` is applied to the single query it runs for the whole page, not per comment (its separate `perDocumentLimit` option is the per-comment form). So when several comments on a page have replies, the source can return fewer replies for the later ones. The model does not follow that library detail.
- NewsPosts.AddNews: `tags` arrives as a string and Mongoose wraps it into an array; the model keeps it as the request sent it. `movieRating` is stored as sent once `NewsPosts.RatingCasts` holds; the number it becomes is not modelled.
- NewsPosts.AddNews, NewsPosts.AddNewsAsWritten: the 500 messages of a failed save are shortened to their first words ("Cast to Number failed", "E11000 duplicate key error"); the statuses are exact.
- NewsPosts.AddNewsAsWritten: the duplicate key needs the unique index to exist, which Mongoose builds by default at start-up; a deployment that turns index building off does not hit it.
- The `$pull` on subdocument arrays depends on Mongoose's casting. The model pulls the seven plain id lists only.
- Case folding is ASCII only. JavaScript's `.length` counts UTF-16 code units, while a Dafny string counts characters.
- Caller ids in the JWT payload are taken as strings. An id that is not an ObjectId is modelled by Accounts.GetCurrentUser (400) and by Comments.AddComment and Comments.AddReplyComment, whose `postedBy` cast fails (500). Elsewhere a lookup of the caller's account by such an id finds no account, where Mongoose's cast would throw and the handler answer 500; the ids a login signs are always ObjectIds.
- Videos.RelatedPosts: for a video with no subcategory, the model follows Mongoose's documented treatment of `undefined` in a filter: the key is dropped, so every other video matches. This rests on Mongoose's documentation, not on the source.
- NewsPosts.FilterNews, Galleries.GetGalleryByQuery: a `searchText` that is not a valid regular expression makes the database answer 500. Matching is the `hit` oracle, so that error is not modelled.
- NewsPosts.GetSearchedNews: a `q` that is not a valid regular expression makes the `$regex` queries fail, and the handler answers 500. Matching is the `hit` oracle, so that error is not modelled.
- Auth.Register, Auth.Login: a bcrypt failure gives the catch path (504 in register, 404 in login). The hash and the comparison are parameters, so that path is not modelled.
- Auth.RefreshToken: `refreshToken` is not a field of the user schema, so whether an account holds the cookie is the `holder` parameter.
- Js.ParseInt: magnitudes beyond double precision are not modelled; the model returns the exact integer, where JavaScript rounds to the nearest double.
- Accounts.GetUser, NewsPosts.GetNewsById, NewsPosts.LookupStatus, NewsPosts.DeleteNews, Galleries.GetGalleryById, Galleries.OwnerCheck, Videos.GetVideo, Videos.DeleteVideo, Accounts.UserActive, Accounts.ApplyUpdate, Comments.FindStatus, Comments.AddReaction, Comments.DeleteComment and the Dashboard setters compare ids as exact strings. Mongoose casts a 24-digit hex id regardless of case, so an upper-case spelling of a stored id finds the document in the source and is not found (or not pulled) in the model. Stored ids are lower-case, and every well-formed lower-case id behaves as in the source.
- Dashboard.SetHomeGrid, Dashboard.SetTopNine, Dashboard.SetTrends: `position` is an `int`, so a position that does not cast to the schema's Number (such as "first"), which fails the save with 500, cannot be written down in the model.
- Speech.ListItemSpoken: proved only for item text without `<` or line breaks.

## Findings

| source | as written | input that shows it | evidently intended | confidence | as-written member | corrected member |
|---|---|---|---|---|---|---|
| controllers/commentController.js:178-186 | reads `gallery.reactions`, which models/galleryModel.js does not declare, so `findIndex` throws and the handler answers 500 | any existing gallery id, with `userId` and `type` present | record or update the user's reaction, as addReaction does for news | not executed | Comments.AddGalleryReactionAsWritten | Comments.AddGalleryReaction |
| models/newsModel.js:14-18 | declares `newsId` unique, and addNews (controllers/newsController.js:56-66) never sets it, so every article is indexed under a null `newsId` | a second valid addNews request once one article is stored: the save fails with E11000 and the handler answers 500 | every valid post is stored | not executed | NewsPosts.AddNewsAsWritten | NewsPosts.AddNews |

=== FILE: accounts.dfy ===
/** The account handlers of controllers/userController.js: reading users,
    the admin's active-flag toggle, the two profile updates with their
    surprising checks, and the validation of the two mail forms. */
module Accounts {
  import opened Common
  import opened Store
  import opened Ordering

  /** The user collection a handler leaves behind, with the status and
      message of its response. */
  datatype Reply = Reply(users: map<Id, User>, status: int, message: string)

  // ---------------------------------------------------------------------------
  // Reads

  /** getUser: 500 unless the id has 24 characters, 500 again when those are
      not hexadecimal (the cast fails), 404 when there is no such user. The
      whole document is returned, password hash included. */
  function GetUser(users: map<Id, User>, id: Field): (r: Result<User>)
    ensures r.Ok? <==> id.Some? && IsObjectId(id.value) && id.value in users
    ensures r.Ok? ==> r.value == users[id.value]
    ensures r.Fail? ==> r.status == (if id.Some? && IsObjectId(id.value) then 404 else 500)
  {
    if !Truthy(id) || |id.value| != 24 then Fail(500)
    else if !IsObjectId(id.value) then Fail(500)
    else if id.value !in users then Fail(404)
    else Ok(users[id.value])
  }

  /** The six fields getCurrentUser answers with: no password. */
  datatype Profile = Profile(id: Id, fullName: string, email: string, profileUrl: string, role: string, isActive: bool)

  /** getCurrentUser: 404 without a caller, 400 when the caller's id is not
      an ObjectId, 404 when the account is gone; otherwise the six public
      fields of the stored account. */
  function GetCurrentUser(users: map<Id, User>, caller: Option<Principal>): (r: Result<Profile>)
    ensures r.Ok? <==> caller.Some? && IsObjectId(caller.value.id) && caller.value.id in users
    ensures r.Fail? ==> r.status == (if caller.Some? && !IsObjectId(caller.value.id) then 400 else 404)
    ensures r.Ok? ==>
      var u := users[caller.value.id];
      r.value == Profile(caller.value.id, u.fullName, u.email, u.profileUrl, u.role, u.isActive)
  {
    if caller.None? then Fail(404)
    else if !IsObjectId(caller.value.id) then Fail(400)
    else if caller.value.id !in users then Fail(404)
    else
      var u := users[caller.value.id];
      Ok(Profile(caller.value.id, u.fullName, u.email, u.profileUrl, u.role, u.isActive))
  }

  /** The profile determines every field of the account but the password
      and phone number: two accounts with the same profile differ at most
      there. */
  lemma ProfileHidesOnlySecrets(users: map<Id, User>, caller: Principal)
    requires IsObjectId(caller.id) && caller.id in users
    ensures var p := GetCurrentUser(users, Some(caller)).value;
            var u := users[caller.id];
            u == User(p.fullName, p.email, u.number, p.role, u.password, p.profileUrl, p.isActive)
  {
  }

  /** getAdminsWriters: the admins and writers other than the caller, in
      natural order. */
  function GetAdminsWriters(users: map<Id, User>, order: seq<Id>, caller: Option<Principal>): (r: seq<Doc<User>>)
    requires IsNaturalOrder(order, users)
    ensures forall d :: d in r <==>
      d in Rows(order, users) && IsStaff(d.body.role) && (caller.Some? ==> d.id != caller.value.id)
    ensures Subseq(r, Rows(order, users))
  {
    Filter(Rows(order, users), (d: Doc<User>) => IsStaff(d.body.role) && (caller.Some? ==> d.id != caller.value.id))
  }

  /** The caller never sees their own account in the staff list, and every
      other admin or writer is there. */
  lemma StaffListExcludesCaller(users: map<Id, User>, order: seq<Id>, caller: Principal)
    requires IsNaturalOrder(order, users)
    ensures forall d :: d in GetAdminsWriters(users, order, Some(caller)) ==> d.id != caller.id
    ensures forall id :: id in users && id != caller.id && IsStaff(users[id].role) ==>
      Doc(id, users[id]) in GetAdminsWriters(users, order, Some(caller))
  {
    var rows := Rows(order, users);
    forall id | id in users && id != caller.id && IsStaff(users[id].role)
      ensures Doc(id, users[id]) in GetAdminsWriters(users, order, Some(caller))
    {
      var i :| 0 <= i < |order| && order[i] == id;
      assert rows[i] == Doc(id, users[id]);
    }
  }

  // ---------------------------------------------------------------------------
  // userActive

  /** userActive: 400 without a user id, 400 unless the caller is an admin,
      500 for a malformed id, 400 when there is no such user; otherwise the
      user's active flag is flipped and nothing else changes. */
  function UserActive(users: map<Id, User>, userId: Field, caller: Option<Principal>): (r: Reply)
    ensures r.status == 200 <==> Truthy(userId) && CallerIsAdmin(caller) && IsObjectId(userId.value) && userId.value in users
    ensures !Truthy(userId) || !CallerIsAdmin(caller) ==> r.status == 400
    ensures r.status != 200 ==> r.users == users
    ensures r.status == 200 ==>
      && r.users.Keys == users.Keys
      && r.users[userId.value] == users[userId.value].(isActive := !users[userId.value].isActive)
      && forall id :: id in users && id != userId.value ==> r.users[id] == users[id]
  {
    if !Truthy(userId) then Reply(users, 400, "Provide UserId!")
    else if !CallerIsAdmin(caller) then Reply(users, 400, "You don't have access to change!")
    else if !IsObjectId(userId.value) then Reply(users, 500, "Server Error!")
    else if userId.value !in users then Reply(users, 400, "User not found!")
    else
      var u := users[userId.value];
      Reply(users[userId.value := u.(isActive := !u.isActive)], 200, "Active status updated successfully")
  }

  /** Toggling twice restores the collection exactly. */
  lemma UserActiveTwice(users: map<Id, User>, userId: Field, caller: Option<Principal>)
    ensures UserActive(UserActive(users, userId, caller).users, userId, caller).users == users
  {
    var once := UserActive(users, userId, caller);
    if once.status == 200 {
      var twice := UserActive(once.users, userId, caller);
      assert twice.users[userId.value] == users[userId.value];
    }
  }

  // ---------------------------------------------------------------------------
  // updateDetails and updateUserDetails

  /** `Users.findOne({ email })` finds a user. With no email in the body the
      filter holds `undefined`, and Mongoose drops a key whose value is
      `undefined` from a filter: the query is then `findOne({})`, which finds
      a user whenever there is one. */
  predicate EmailTaken(users: map<Id, User>, email: Field)
  {
    if email.Some? then exists id :: id in users && users[id].email == email.value
    else |users| > 0
  }

  /** The account with the truthy supplied fields written over it. */
  function Updated(u: User, fullName: Field, email: Field, role: Field): (r: User)
    ensures r.fullName == (if Truthy(fullName) then fullName.value else u.fullName)
    ensures r.email == (if Truthy(email) then email.value else u.email)
    ensures r.role == (if Truthy(role) then role.value else u.role)
    ensures r.(fullName := u.fullName, email := u.email, role := u.role) == u
  {
    u.(fullName := if Truthy(fullName) then fullName.value else u.fullName,
       email := if Truthy(email) then email.value else u.email,
       role := if Truthy(role) then role.value else u.role)
  }

  /** The tail both update handlers share once the caller is allowed: the
      name is required (the "no data" check after it can never fire), an
      email any user already has is refused (404), a malformed id fails the
      cast (500), a missing user is a 400; otherwise the update is stored. */
  function ApplyUpdate(users: map<Id, User>, userId: Id, fullName: Field, email: Field, role: Field): (r: Reply)
    ensures r.status == 200 <==>
      Truthy(fullName) && !EmailTaken(users, email) && IsObjectId(userId) && userId in users
    ensures !Truthy(fullName) ==> r.status == 400 && r.message == "Name is required!"
    ensures Truthy(fullName) && EmailTaken(users, email) ==> r.status == 404
    ensures r.status != 200 ==> r.users == users
    ensures r.status == 200 ==> r.users == users[userId := Updated(users[userId], fullName, email, role)]
  {
    if !Truthy(fullName) then Reply(users, 400, "Name is required!")
    else if EmailTaken(users, email) then Reply(users, 404, "User already exists with this email.")
    else if !IsObjectId(userId) then Reply(users, 500, "Internal Server Error!")
    else if userId !in users then Reply(users, 400, "User not found!")
    else Reply(users[userId := Updated(users[userId], fullName, email, role)], 200, "Details updated successfully")
  }

  /** updateDetails: the id must have 24 characters and be the caller's own
      (400 each); then the shared tail, which writes name and email only. */
  function UpdateDetails(users: map<Id, User>, userId: Field, fullName: Field, email: Field, caller: Option<Principal>): (r: Reply)
    ensures !HasIdLength(userId) ==> r.status == 400 && r.message == "UserId not found!"
    ensures HasIdLength(userId) && !(caller.Some? && caller.value.id == userId.value) ==> r.status == 400 && r.message == "You can't update!"
    ensures r.status == 200 <==>
      && HasIdLength(userId) && caller.Some? && caller.value.id == userId.value
      && ApplyUpdate(users, userId.value, fullName, email, None).status == 200
    ensures r.status != 200 ==> r.users == users
    ensures r.status == 200 ==> r.users == users[userId.value := Updated(users[userId.value], fullName, email, None)]
  {
    if !HasIdLength(userId) then Reply(users, 400, "UserId not found!")
    else if !(caller.Some? && caller.value.id == userId.value) then Reply(users, 400, "You can't update!")
    else ApplyUpdate(users, userId.value, fullName, email, None)
  }

  /** Re-sending one's own current email is refused as a duplicate. */
  lemma OwnEmailRejected(users: map<Id, User>, fullName: string, caller: Principal)
    requires |caller.id| == 24 && caller.id in users && fullName != ""
    ensures UpdateDetails(users, Some(caller.id), Some(fullName), Some(users[caller.id].email), Some(caller)).status == 404
    ensures UpdateUserDetails(users, Some(caller.id), Some(fullName), Some(users[caller.id].email), None, Some(caller)).status == 404
  {
    assert EmailTaken(users, Some(users[caller.id].email));
  }

  /** updateUserDetails: the id must have 24 characters (400); the caller
      must be that user or an admin (400); then the shared tail, which also
      writes the role. */
  function UpdateUserDetails(users: map<Id, User>, userId: Field, fullName: Field, email: Field, role: Field,
                             caller: Option<Principal>): (r: Reply)
    ensures !HasIdLength(userId) ==> r.status == 400 && r.message == "UserId not found!"
    ensures r.status == 200 <==>
      && HasIdLength(userId) && caller.Some? && (caller.value.id == userId.value || caller.value.role == "admin")
      && ApplyUpdate(users, userId.value, fullName, email, role).status == 200
    ensures r.status != 200 ==> r.users == users
    ensures r.status == 200 ==> r.users == users[userId.value := Updated(users[userId.value], fullName, email, role)]
  {
    if !HasIdLength(userId) then Reply(users, 400, "UserId not found!")
    else if !(caller.Some? && (caller.value.id == userId.value || caller.value.role == "admin")) then
      Reply(users, 400, "You can't update!")
    else ApplyUpdate(users, userId.value, fullName, email, role)
  }

  /** A request without an email can never succeed: the lookup of the
      undefined email finds some account whenever the target account exists,
      so both handlers answer 404 for a stored account and 400 otherwise. */
  lemma NameOnlyUpdateRefused(users: map<Id, User>, userId: Id, fullName: Field, role: Field, caller: Principal)
    ensures UpdateDetails(users, Some(userId), fullName, None, Some(caller)).status != 200
    ensures UpdateUserDetails(users, Some(userId), fullName, None, role, Some(caller)).status != 200
    ensures Truthy(fullName) && |userId| == 24 && userId in users && caller.id == userId ==>
      && UpdateDetails(users, Some(userId), fullName, None, Some(caller)).status == 404
      && UpdateUserDetails(users, Some(userId), fullName, None, role, Some(caller)).status == 404
  {
    if userId in users {
      assert |users| > 0 by {
        assert userId in users.Keys;
      }
    }
  }

  /** A plain user may make themselves an admin: the role is taken from the
      body whenever the caller updates their own account. */
  lemma SelfPromotion(users: map<Id, User>, fullName: string, newEmail: string, caller: Principal)
    requires IsObjectId(caller.id) && caller.id in users && caller.role == "user" && fullName != ""
    requires newEmail != "" && forall id :: id in users ==> users[id].email != newEmail
    ensures var r := UpdateUserDetails(users, Some(caller.id), Some(fullName), Some(newEmail), Some("admin"), Some(caller));
            r.status == 200 && r.users[caller.id].role == "admin"
  {
  }

  // ---------------------------------------------------------------------------
  // contactUsMail and adMail

  /** `(!email, !fullName, !subject, !message)`: the comma operator discards
      all but the last operand, so only the message is checked. */
  function DetailsCheck(email: Field, fullName: Field, subject: Field, message: Field): (s: int)
    ensures s == 200 <==> Truthy(message)
    ensures s != 200 ==> s == 404
  {
    if !Truthy(message) then 404 else 200
  }

  /** contactUsMail: 404 "Enter all details." when the message is missing;
      the mail is sent otherwise (sending is not modelled). */
  function ContactUsMail(email: Field, fullName: Field, subject: Field, message: Field): (r: (int, string))
    ensures r.0 == 200 <==> Truthy(message)
    ensures r.0 != 200 ==> r == (404, "Enter all details.")
  {
    if DetailsCheck(email, fullName, subject, message) != 200 then (404, "Enter all details.")
    else (200, "Message sent successfully :)")
  }

  /** A contact form with nothing but a message is accepted. */
  lemma OnlyMessageRequired(message: string)
    requires message != ""
    ensures ContactUsMail(None, None, None, Some(message)).0 == 200
  {
  }

  /** adMail: `page == ""` and `adSize == ""` are refused in that order (404),
      an absent page or size passes; then the contact form's check. */
  function AdMail(email: Field, fullName: Field, subject: Field, message: Field, page: Field, adSize: Field): (r: (int, string))
    ensures page == Some("") ==> r == (404, "Select page.")
    ensures page != Some("") && adSize == Some("") ==> r == (404, "Select Ad Size.")
    ensures r.0 == 200 <==> page != Some("") && adSize != Some("") && Truthy(message)
  {
    if page == Some("") then (404, "Select page.")
    else if adSize == Some("") then (404, "Select Ad Size.")
    else ContactUsMail(email, fullName, subject, message)
  }

  /** Leaving out the page and size entirely is accepted. */
  lemma AbsentPageAccepted(message: string)
    requires message != ""
    ensures AdMail(None, None, None, Some(message), None, None).0 == 200
  {
  }
}

=== FILE: auth.dfy ===
/** The authentication handlers of controllers/authController.js: the two
    registrations, login, token refresh and the two password resets. Hashing
    and token signing are opaque: a handler is given the hash it would
    compute and the verdicts of the comparisons it would make. */
module Auth {
  import opened Common
  import opened Store

  /** The user collection a handler leaves behind, with the status and
      message of its response. */
  datatype Reply = Reply(users: map<Id, User>, status: int, message: string)

  /** `Users.findOne({ email })`: the first account in natural order with
      that email. */
  function FindByEmail(users: map<Id, User>, order: seq<Id>, email: string): (r: Option<Id>)
    requires IsNaturalOrder(order, users)
    ensures r.Some? ==> r.value in users && users[r.value].email == email
    ensures r.None? <==> forall id :: id in users ==> users[id].email != email
    ensures r.Some? ==> exists k :: 0 <= k < |order| && order[k] == r.value && forall i :: 0 <= i < k ==> users[order[i]].email != email
  {
    FindIn(users, order, email)
  }

  function FindIn(users: map<Id, User>, ids: seq<Id>, email: string): (r: Option<Id>)
    requires forall i :: 0 <= i < |ids| ==> ids[i] in users
    ensures r.Some? ==> r.value in ids && users[r.value].email == email
    ensures r.None? <==> forall i :: 0 <= i < |ids| ==> users[ids[i]].email != email
    ensures r.Some? ==> exists k :: 0 <= k < |ids| && ids[k] == r.value && forall i :: 0 <= i < k ==> users[ids[i]].email != email
  {
    if |ids| == 0 then None
    else if users[ids[0]].email == email then Some(ids[0])
    else
      var r := FindIn(users, ids[1..], email);
      assert forall i :: 1 <= i < |ids| ==> ids[i] == ids[1..][i - 1];
      assert r.Some? ==> exists k :: 0 <= k < |ids| && ids[k] == r.value && forall i :: 0 <= i < k ==> users[ids[i]].email != email by {
        if r.Some? {
          var k :| 0 <= k < |ids[1..]| && ids[1..][k] == r.value && forall i :: 0 <= i < k ==> users[ids[1..][i]].email != email;
          assert ids[k + 1] == r.value;
        }
      }
      r
  }

  // ---------------------------------------------------------------------------
  // register and registerByAdmin

  /** The part both registrations share: full name, email and password are
      required (404), an email already in use is refused (404), and the
      account is created with the role the body names ("user" when it names
      none) and the hash of the password. */
  function Create(users: map<Id, User>, order: seq<Id>, fullName: Field, email: Field, password: Field, role: Field,
                  hashed: string, freshId: Id): (r: Reply)
    requires IsNaturalOrder(order, users) && freshId !in users
    ensures !(Truthy(fullName) && Truthy(email) && Truthy(password)) ==> r.status == 404 && r.message == "Provide all fields!"
    ensures r.status == 201 <==>
      Truthy(fullName) && Truthy(email) && Truthy(password) && forall id :: id in users ==> users[id].email != email.value
    ensures r.status != 201 ==> r.users == users && r.status == 404
    ensures r.status == 201 ==> r.users == users[freshId := NewUser(fullName.value, email.value, role, hashed)]
  {
    if !(Truthy(fullName) && Truthy(email) && Truthy(password)) then Reply(users, 404, "Provide all fields!")
    else if FindByEmail(users, order, email.value).Some? then
      Reply(users, 404, "User already exists with this email, Please login.")
    else Reply(users[freshId := NewUser(fullName.value, email.value, role, hashed)], 201, "Registered successfully")
  }

  /** register: anyone may create an account. */
  function Register(users: map<Id, User>, order: seq<Id>, fullName: Field, email: Field, password: Field, role: Field,
                    hashed: string, freshId: Id): (r: Reply)
    requires IsNaturalOrder(order, users) && freshId !in users
    ensures r.status == 201 <==>
      Truthy(fullName) && Truthy(email) && Truthy(password) && forall id :: id in users ==> users[id].email != email.value
    ensures r.status != 201 ==> r.users == users
    ensures r.status == 201 ==> freshId in r.users && r.users[freshId].password == Some(hashed)
                                && r.users[freshId].role == ValueOr(role, "user")
    ensures r.status == 201 ==>
      r.users.Keys == users.Keys + {freshId} && forall id :: id in users ==> r.users[id] == users[id]
  {
    Create(users, order, fullName, email, password, role, hashed, freshId)
  }

  /** The role comes from the request body unchecked: anyone can register
      as an admin. */
  lemma AnyoneRegistersAsAdmin(users: map<Id, User>, order: seq<Id>, fullName: string, email: string, password: string,
                               hashed: string, freshId: Id)
    requires IsNaturalOrder(order, users) && freshId !in users
    requires fullName != "" && email != "" && password != ""
    requires forall id :: id in users ==> users[id].email != email
    ensures var r := Register(users, order, Some(fullName), Some(email), Some(password), Some("admin"), hashed, freshId);
            r.status == 201 && r.users[freshId].role == "admin" && r.users[freshId].isActive
  {
  }

  /** registerByAdmin: the caller must be an admin (404), checked before the
      fields; then as register. */
  function RegisterByAdmin(users: map<Id, User>, order: seq<Id>, fullName: Field, email: Field, password: Field,
                           role: Field, caller: Option<Principal>, hashed: string, freshId: Id): (r: Reply)
    requires IsNaturalOrder(order, users) && freshId !in users
    ensures !CallerIsAdmin(caller) ==> r == Reply(users, 404, "You can't add account!")
    ensures CallerIsAdmin(caller) ==> r == Create(users, order, fullName, email, password, role, hashed, freshId)
  {
    if !CallerIsAdmin(caller) then Reply(users, 404, "You can't add account!")
    else Create(users, order, fullName, email, password, role, hashed, freshId)
  }

  /** A non-admin learns nothing about the fields or the emails in use. */
  lemma NonAdminRefusedFirst(users: map<Id, User>, order: seq<Id>, fullName: Field, email: Field, password: Field,
                             role: Field, caller: Option<Principal>, hashed: string, freshId: Id)
    requires IsNaturalOrder(order, users) && freshId !in users
    requires !CallerIsAdmin(caller)
    ensures RegisterByAdmin(users, order, fullName, email, password, role, caller, hashed, freshId).message == "You can't add account!"
    ensures RegisterByAdmin(users, order, fullName, email, password, role, caller, hashed, freshId).users == users
  {
  }

  // ---------------------------------------------------------------------------
  // login

  /** What login answers with: status, message and, on success, the account
      without its password. */
  datatype LoginReply = LoginReply(status: int, message: string, user: Option<User>)

  /** login: email and password are required, the email must belong to an
      account, and the password must match its hash (`matches(password, hash)`
      is bcrypt's verdict). An account without a password hash makes the
      comparison throw. Every failure is a 404; success is a 201. */
  function Login(users: map<Id, User>, order: seq<Id>, email: Field, password: Field,
                 matches: (string, string) -> bool): (r: LoginReply)
    requires IsNaturalOrder(order, users)
    ensures !(Truthy(email) && Truthy(password)) ==> r == LoginReply(404, "Please provide user credentials.", None)
    ensures Truthy(email) && Truthy(password) && FindByEmail(users, order, email.value).None? ==>
      r == LoginReply(404, "User not found!", None)
    ensures r.status == 201 <==>
      && Truthy(email) && Truthy(password) && FindByEmail(users, order, email.value).Some?
      && var u := users[FindByEmail(users, order, email.value).value];
         u.password.Some? && matches(password.value, u.password.value)
    ensures r.status != 201 ==> r.status == 404 && r.user.None?
    ensures r.status == 201 ==>
      r.user == Some(users[FindByEmail(users, order, email.value).value].(password := None))
  {
    if !(Truthy(email) && Truthy(password)) then LoginReply(404, "Please provide user credentials.", None)
    else match FindByEmail(users, order, email.value)
      case None => LoginReply(404, "User not found!", None)
      case Some(id) =>
        var u := users[id];
        if u.password.None? then LoginReply(404, "Illegal arguments: string, undefined", None)
        else if !matches(password.value, u.password.value) then LoginReply(404, "Invalid credentials.", None)
        else LoginReply(201, "Login successful", Some(u.(password := None)))
  }

  /** A successful login never returns a password hash. */
  lemma LoginHidesPassword(users: map<Id, User>, order: seq<Id>, email: Field, password: Field,
                           matches: (string, string) -> bool)
    requires IsNaturalOrder(order, users)
    ensures var r := Login(users, order, email, password, matches);
            r.user.Some? ==> r.user.value.password.None?
  {
  }

  // ---------------------------------------------------------------------------
  // refreshToken

  /** refreshToken: 403 without the cookie, 403 when no account holds the
      token (`holder`, the database's answer), 403 when the signature does not
      verify (`verifies`); otherwise a new access token (201). */
  function RefreshToken(cookie: Field, holder: bool, verifies: bool): (r: (int, string))
    ensures r.0 == 201 <==> Truthy(cookie) && holder && verifies
    ensures r.0 != 201 ==> r.0 == 403
    ensures !Truthy(cookie) ==> r.1 == "No token provided!"
  {
    if !Truthy(cookie) then (403, "No token provided!")
    else if !holder then (403, "Invalid token!")
    else if !verifies then (403, "Invalid token!")
    else (201, "success")
  }

  /** However the token checks out, a request without the cookie is refused. */
  lemma NoCookieNoToken(holder: bool, verifies: bool)
    ensures RefreshToken(None, holder, verifies) == RefreshToken(Some(""), holder, verifies) == (403, "No token provided!")
  {
  }

  // ---------------------------------------------------------------------------
  // resetPassword and resetUserPassword

  /** The minimum password length. */
  const MinPassword: nat := 6

  /** The password checks both resets make: an absent password makes
      `newPassword.length` throw (501), a shorter one than six characters is
      refused (400), and the confirmation must be identical (401). */
  function PasswordCheck(newPassword: Field, confirm: Field): (s: int)
    ensures s == 200 <==> newPassword.Some? && |newPassword.value| >= MinPassword && confirm == newPassword
    ensures newPassword.Some? && |newPassword.value| < MinPassword ==> s == 400
    ensures newPassword.Some? && |newPassword.value| >= MinPassword && confirm != newPassword ==> s == 401
  {
    if newPassword.None? then 501
    else if |newPassword.value| < MinPassword then 400
    else if confirm != newPassword then 401
    else 200
  }

  /** The stored account with its password replaced, or 401 when it is gone. */
  function SetPassword(users: map<Id, User>, id: Id, hashed: string): (r: Reply)
    ensures r.status == 200 <==> id in users
    ensures r.status != 200 ==> r == Reply(users, 401, "Invalid or expired reset token")
    ensures r.status == 200 ==> r.users == users[id := users[id].(password := Some(hashed))]
  {
    if id !in users then Reply(users, 401, "Invalid or expired reset token")
    else Reply(users[id := users[id].(password := Some(hashed))], 200, "Password updated successfully")
  }

  /** resetPassword: the password checks, then the caller's own account
      gets the new hash (`hashed`); a caller whose account is gone gets 401. */
  function ResetPassword(users: map<Id, User>, newPassword: Field, confirm: Field, caller: Option<Principal>,
                         hashed: string): (r: Reply)
    ensures PasswordCheck(newPassword, confirm) != 200 ==> r.status == PasswordCheck(newPassword, confirm) && r.users == users
    ensures r.status == 200 <==> PasswordCheck(newPassword, confirm) == 200 && caller.Some? && caller.value.id in users
    ensures r.status == 200 ==> r.users == users[caller.value.id := users[caller.value.id].(password := Some(hashed))]
    ensures r.status != 200 ==> r.users == users
  {
    if PasswordCheck(newPassword, confirm) != 200 then
      Reply(users, PasswordCheck(newPassword, confirm),
            if PasswordCheck(newPassword, confirm) == 400 then "Password must be more than 6 charecters!"
            else if PasswordCheck(newPassword, confirm) == 401 then "Password and Confirm password not mached!"
            else "Password reset error!")
    else if caller.None? then Reply(users, 401, "Invalid or expired reset token")
    else SetPassword(users, caller.value.id, hashed)
  }

  /** Despite the message, a password of exactly six characters is accepted,
      and one of five is not. */
  lemma SixCharactersSuffice(users: map<Id, User>, caller: Principal, six: string, five: string, hashed: string)
    requires caller.id in users && |six| == 6 && |five| == 5
    ensures ResetPassword(users, Some(six), Some(six), Some(caller), hashed).status == 200
    ensures ResetPassword(users, Some(five), Some(five), Some(caller), hashed).status == 400
  {
  }

  /** resetUserPassword: user id present (400), 24 characters (400), the
      password checks, then the admin check (401), then a malformed id fails
      the cast (501) and a missing account is a 401. */
  function ResetUserPassword(users: map<Id, User>, userId: Field, newPassword: Field, confirm: Field,
                             caller: Option<Principal>, hashed: string): (r: Reply)
    ensures !Truthy(userId) ==> r == Reply(users, 400, "Provide user id!")
    ensures Truthy(userId) && |userId.value| != 24 ==> r == Reply(users, 400, "Invalid user id!")
    ensures HasIdLength(userId) && PasswordCheck(newPassword, confirm) != 200 ==>
      r.status == PasswordCheck(newPassword, confirm)
    ensures HasIdLength(userId) && PasswordCheck(newPassword, confirm) == 200 && !CallerIsAdmin(caller) ==>
      r.status == 401 && r.message == "You are not authorized to change password!  "
    ensures r.status == 200 <==>
      HasIdLength(userId) && PasswordCheck(newPassword, confirm) == 200 && CallerIsAdmin(caller)
      && IsObjectId(userId.value) && userId.value in users
    ensures r.status != 200 ==> r.users == users
    ensures r.status == 200 ==> r.users == users[userId.value := users[userId.value].(password := Some(hashed))]
  {
    if !Truthy(userId) then Reply(users, 400, "Provide user id!")
    else if |userId.value| != 24 then Reply(users, 400, "Invalid user id!")
    else if PasswordCheck(newPassword, confirm) != 200 then
      Reply(users, PasswordCheck(newPassword, confirm),
            if PasswordCheck(newPassword, confirm) == 400 then "Password must be more than 6 charecters!"
            else if PasswordCheck(newPassword, confirm) == 401 then "Password and Confirm password not mached!"
            else "Password reset error!")
    else if !CallerIsAdmin(caller) then Reply(users, 401, "You are not authorized to change password!  ")
    else if !IsObjectId(userId.value) then Reply(users, 501, "Password reset error!")
    else SetPassword(users, userId.value, hashed)
  }

  /** A non-admin with a short password is told about the password, not
      about the missing rights: the admin check comes last. */
  lemma PasswordCheckedBeforeAdmin(users: map<Id, User>, userId: Id, short: string, caller: Option<Principal>, hashed: string)
    requires |userId| == 24 && |short| < MinPassword && !CallerIsAdmin(caller)
    ensures ResetUserPassword(users, Some(userId), Some(short), Some(short), caller, hashed).status == 400
  {
  }
}

=== FILE: comments.dfy ===
/** The comment and reaction handlers of controllers/commentController.js:
    the like/dislike toggles, the one-reaction-per-user upsert on posts,
    comments and replies, the owner-only delete with its one-level cascade,
    and the two comment listings with their paging defaults. */
module Comments {
  import opened Common
  import opened Store
  import opened Ordering
  import Js

  /** The comments collection a handler leaves behind, and its HTTP status. */
  datatype Change = Change(comments: map<Id, Comment>, status: int)

  // ---------------------------------------------------------------------------
  // Like / dislike toggles

  /** The two lists hold no duplicates and no user is in both. */
  ghost predicate Valid(c: Comment)
  {
    && NoDup(c.likes)
    && NoDup(c.dislikes)
    && forall v :: v in c.likes ==> v !in c.dislikes
  }

  /** likeComment on one comment: a user who has liked it takes the like back;
      anyone else loses a dislike, if they had one, and is appended to likes. */
  function Like(c: Comment, u: Id): (r: Comment)
    ensures r.(likes := c.likes, dislikes := c.dislikes) == c
    ensures u in c.likes ==> u !in r.likes && r.dislikes == c.dislikes
    ensures u !in c.likes ==> u in r.likes && u !in r.dislikes && r.likes[|r.likes| - 1] == u
    ensures forall v :: v != u ==>
      multiset(r.likes)[v] == multiset(c.likes)[v] && multiset(r.dislikes)[v] == multiset(c.dislikes)[v]
  {
    if u in c.likes then c.(likes := Without(c.likes, u))
    else
      var dislikes := if u in c.dislikes then Without(c.dislikes, u) else c.dislikes;
      c.(likes := c.likes + [u], dislikes := dislikes)
  }

  /** dislikeComment on one comment, written out as the handler does it. */
  function Dislike(c: Comment, u: Id): (r: Comment)
    ensures r.(likes := c.likes, dislikes := c.dislikes) == c
    ensures u in c.dislikes ==> u !in r.dislikes && r.likes == c.likes
    ensures u !in c.dislikes ==> u in r.dislikes && u !in r.likes
  {
    if u in c.dislikes then c.(dislikes := Without(c.dislikes, u))
    else
      var likes := if u in c.likes then Without(c.likes, u) else c.likes;
      c.(dislikes := c.dislikes + [u], likes := likes)
  }

  /** The comment with its likes and dislikes exchanged. */
  function Swap(c: Comment): Comment
  {
    c.(likes := c.dislikes, dislikes := c.likes)
  }

  /** Disliking is liking with the two lists exchanged. */
  lemma DislikeMirrorsLike(c: Comment, u: Id)
    ensures Dislike(c, u) == Swap(Like(Swap(c), u))
  {
  }

  lemma NoDupAppend(s: seq<Id>, u: Id)
    requires NoDup(s) && u !in s
    ensures NoDup(s + [u])
  {
    assert multiset(s + [u]) == multiset(s) + multiset{u};
  }

  lemma NoDupWithout(s: seq<Id>, u: Id)
    requires NoDup(s)
    ensures NoDup(Without(s, u))
  {
  }

  /** Liking keeps the lists duplicate-free and disjoint. */
  lemma LikePreservesValid(c: Comment, u: Id)
    requires Valid(c)
    ensures Valid(Like(c, u))
  {
    var r := Like(c, u);
    if u in c.likes {
      NoDupWithout(c.likes, u);
      forall v | v in r.likes
        ensures v !in r.dislikes
      {
        assert multiset(r.likes)[v] > 0;
      }
    } else {
      NoDupAppend(c.likes, u);
      if u in c.dislikes {
        NoDupWithout(c.dislikes, u);
      }
      forall v | v in r.likes
        ensures v !in r.dislikes
      {
        if v != u {
          assert multiset(r.likes)[v] > 0;
        }
      }
    }
  }

  /** So does disliking, by the mirror image. */
  lemma DislikePreservesValid(c: Comment, u: Id)
    requires Valid(c)
    ensures Valid(Dislike(c, u))
  {
    DislikeMirrorsLike(c, u);
    LikePreservesValid(Swap(c), u);
  }

  /** Liking twice from neutral gives back exactly the original comment. */
  lemma LikeTwiceFromNeutral(c: Comment, u: Id)
    requires u !in c.likes && u !in c.dislikes
    ensures Like(Like(c, u), u) == c
  {
    WithoutAppend(c.likes, [u], u);
    assert Without([u], u) == [];
  }

  /** Liking twice from liked restores who likes and dislikes the comment;
      the caller's like moves to the end of the list. */
  lemma LikeTwiceFromLiked(c: Comment, u: Id)
    requires Valid(c) && u in c.likes
    ensures var r := Like(Like(c, u), u);
            && r.dislikes == c.dislikes
            && r.likes == Without(c.likes, u) + [u]
            && multiset(r.likes) == multiset(c.likes)
  {
    var w := Without(c.likes, u);
    assert multiset(w + [u])[u] == 1;
    assert multiset(w + [u]) == multiset(w) + multiset{u};
  }

  /** Liking twice from disliked leaves the caller with neither. */
  lemma LikeTwiceFromDisliked(c: Comment, u: Id)
    requires Valid(c) && u in c.dislikes
    ensures Like(Like(c, u), u) == c.(dislikes := Without(c.dislikes, u))
  {
    WithoutAppend(c.likes, [u], u);
    assert Without([u], u) == [];
  }

  /** Looks a comment up by a route id: a malformed id makes `findById`
      throw (500), an unknown one is "not found" (404). */
  function FindStatus(m: map<Id, Comment>, id: string): (s: int)
    ensures s == 200 <==> IsObjectId(id) && id in m
  {
    if !IsObjectId(id) then 500 else if id !in m then 404 else 200
  }

  /** likeComment: 404 without an id or a comment; only the comment changes. */
  function LikeComment(m: map<Id, Comment>, commentId: string, u: Id): (r: Change)
    ensures r.status == 200 <==> commentId != "" && IsObjectId(commentId) && commentId in m
    ensures r.status == 200 ==> r.comments == m[commentId := Like(m[commentId], u)]
    ensures r.status != 200 ==> r.comments == m
  {
    if commentId == "" then Change(m, 404)
    else if FindStatus(m, commentId) != 200 then Change(m, FindStatus(m, commentId))
    else Change(m[commentId := Like(m[commentId], u)], 200)
  }

  /** dislikeComment: the same checks as likeComment. */
  function DislikeComment(m: map<Id, Comment>, commentId: string, u: Id): (r: Change)
    ensures r.status == 200 <==> commentId != "" && IsObjectId(commentId) && commentId in m
    ensures r.status == 200 ==> r.comments == m[commentId := Dislike(m[commentId], u)]
    ensures r.status != 200 ==> r.comments == m
  {
    if commentId == "" then Change(m, 404)
    else if FindStatus(m, commentId) != 200 then Change(m, FindStatus(m, commentId))
    else Change(m[commentId := Dislike(m[commentId], u)], 200)
  }

  // ---------------------------------------------------------------------------
  // One reaction per user

  /** No user has two reactions. */
  ghost predicate UniqueUsers(rs: seq<Reaction>)
  {
    forall i, j :: 0 <= i < j < |rs| ==> rs[i].userId != rs[j].userId
  }

  /** `findIndex` of the user's reaction. */
  function ReactionIndex(rs: seq<Reaction>, u: Id): (r: Option<nat>)
    ensures r.Some? ==> r.value < |rs| && rs[r.value].userId == u && forall j :: 0 <= j < r.value ==> rs[j].userId != u
    ensures r.None? ==> forall j :: 0 <= j < |rs| ==> rs[j].userId != u
  {
    if |rs| == 0 then None
    else if rs[0].userId == u then Some(0)
    else
      var k := ReactionIndex(rs[1..], u);
      if k.Some? then Some(k.value + 1) else None
  }

  /** The reaction update of addReaction: the user's existing reaction (the
      first one) gets the new type, otherwise a reaction is appended. */
  function Upsert(rs: seq<Reaction>, u: Id, kind: string): (r: seq<Reaction>)
    ensures Reaction(u, kind) in r
    ensures forall i :: 0 <= i < |rs| && rs[i].userId != u ==> rs[i] in r
    ensures forall x :: x in r ==> x == Reaction(u, kind) || x in rs
    ensures |r| == if exists i :: 0 <= i < |rs| && rs[i].userId == u then |rs| else |rs| + 1
    ensures UniqueUsers(rs) ==> UniqueUsers(r)
  {
    match ReactionIndex(rs, u)
    case Some(k) =>
      var r := rs[k := Reaction(u, kind)];
      assert r[k] == Reaction(u, kind);
      assert forall i :: 0 <= i < |rs| && i != k ==> r[i] == rs[i];
      r
    case None =>
      var r := rs + [Reaction(u, kind)];
      assert r[|rs|] == Reaction(u, kind);
      r
  }

  /** Reacting again with the same type changes nothing: the upsert is idempotent. */
  lemma UpsertIdempotent(rs: seq<Reaction>, u: Id, kind: string)
    ensures Upsert(Upsert(rs, u, kind), u, kind) == Upsert(rs, u, kind)
  {
    var r := Upsert(rs, u, kind);
    match ReactionIndex(rs, u)
    case Some(k) =>
      ReactionIndexIs(r, u, k);
    case None =>
      ReactionIndexIs(r, u, |rs|);
  }

  /** The first reaction by `u` is the one `findIndex` finds. */
  lemma {:induction false} ReactionIndexIs(rs: seq<Reaction>, u: Id, k: nat)
    requires k < |rs| && rs[k].userId == u
    requires forall j :: 0 <= j < k ==> rs[j].userId != u
    ensures ReactionIndex(rs, u) == Some(k)
    decreases k
  {
    if k > 0 {
      ReactionIndexIs(rs[1..], u, k - 1);
    }
  }

  /** With one reaction per user, the user's reaction after the upsert is the new type. */
  lemma UpsertSetsKind(rs: seq<Reaction>, u: Id, kind: string)
    requires UniqueUsers(rs)
    ensures forall x :: x in Upsert(rs, u, kind) && x.userId == u ==> x.kind == kind
  {
    var r := Upsert(rs, u, kind);
    forall x | x in r && x.userId == u
      ensures x.kind == kind
    {
      var i :| 0 <= i < |r| && r[i] == x;
      var j :| 0 <= j < |r| && r[j] == Reaction(u, kind);
      assert r[i].userId == r[j].userId;
      assert UniqueUsers(r);
      assert i == j;
    }
  }

  /** The checks addReaction and addGalleryReaction share: the post id, then
      the reaction type, then the user id must be truthy (404). */
  function ReactionRequestStatus(postId: string, userId: Field, kind: Field): (s: int)
    ensures s == 200 <==> postId != "" && Truthy(kind) && Truthy(userId)
    ensures s != 200 ==> s == 404
  {
    if postId == "" then 404
    else if !Truthy(kind) then 404
    else if !Truthy(userId) then 404
    else 200
  }

  /** The reaction list the save stores: `None` when a new reaction would
      carry a user id that is not an ObjectId, which the schema's cast
      rejects on save (500). An existing reaction is found by comparing ids
      as strings, so updating one never needs a cast. */
  function Reacted(rs: seq<Reaction>, u: Id, kind: string): (r: Option<seq<Reaction>>)
    ensures r.None? <==> !IsObjectId(u) && forall i :: 0 <= i < |rs| ==> rs[i].userId != u
    ensures r.Some? ==> r.value == Upsert(rs, u, kind)
  {
    if ReactionIndex(rs, u).None? && !IsObjectId(u) then None else Some(Upsert(rs, u, kind))
  }

  /** addReaction on a news post; the user id comes from the request body. */
  function AddReaction(news: map<Id, News>, newsId: string, userId: Field, kind: Field): (r: (map<Id, News>, int))
    ensures r.1 == 200 <==>
      && ReactionRequestStatus(newsId, userId, kind) == 200 && IsObjectId(newsId) && newsId in news
      && Reacted(news[newsId].reactions, userId.value, kind.value).Some?
    ensures r.1 == 404 <==>
      ReactionRequestStatus(newsId, userId, kind) == 404 || (IsObjectId(newsId) && newsId !in news)
    ensures r.1 != 200 ==> r.0 == news
    ensures r.1 == 200 ==>
      r.0 == news[newsId := news[newsId].(reactions := Upsert(news[newsId].reactions, userId.value, kind.value))]
  {
    if ReactionRequestStatus(newsId, userId, kind) != 200 then (news, 404)
    else if !IsObjectId(newsId) then (news, 500)
    else if newsId !in news then (news, 404)
    else
      var p := news[newsId];
      match Reacted(p.reactions, userId.value, kind.value)
      case None => (news, 500)
      case Some(rs) => (news[newsId := p.(reactions := rs)], 200)
  }

  /** addGalleryReaction as written: the gallery schema declares no
      `reactions`, so `gallery.reactions.findIndex` throws on every gallery
      that exists, and the handler answers 500 without recording anything. */
  function AddGalleryReactionAsWritten(galleries: map<Id, Gallery>, galleryId: string, userId: Field, kind: Field): (r: (map<Id, Gallery>, int))
    ensures r.0 == galleries
    ensures r.1 != 200
  {
    if ReactionRequestStatus(galleryId, userId, kind) != 200 then (galleries, 404)
    else if !IsObjectId(galleryId) then (galleries, 500)
    else if galleryId !in galleries then (galleries, 404)
    else (galleries, 500)
  }

  /** No reaction to a gallery is ever recorded by the handler as written. */
  lemma GalleryReactionNeverRecorded(galleries: map<Id, Gallery>, galleryId: string, userId: string, kind: string)
    requires userId != "" && kind != "" && IsObjectId(galleryId) && galleryId in galleries
    ensures AddGalleryReactionAsWritten(galleries, galleryId, Some(userId), Some(kind)) == (galleries, 500)
  {
  }

  /** addGalleryReaction as evidently intended: the same upsert as for news. */
  function AddGalleryReaction(galleries: map<Id, Gallery>, galleryId: string, userId: Field, kind: Field): (r: (map<Id, Gallery>, int))
    ensures r.1 == 200 <==>
      && ReactionRequestStatus(galleryId, userId, kind) == 200 && IsObjectId(galleryId) && galleryId in galleries
      && Reacted(galleries[galleryId].reactions, userId.value, kind.value).Some?
    ensures r.1 != 200 ==> r.0 == galleries
    ensures r.1 == 200 ==>
      r.0 == galleries[galleryId := galleries[galleryId].(reactions := Upsert(galleries[galleryId].reactions, userId.value, kind.value))]
  {
    if ReactionRequestStatus(galleryId, userId, kind) != 200 then (galleries, 404)
    else if !IsObjectId(galleryId) then (galleries, 500)
    else if galleryId !in galleries then (galleries, 404)
    else
      var g := galleries[galleryId];
      match Reacted(g.reactions, userId.value, kind.value)
      case None => (galleries, 500)
      case Some(rs) => (galleries[galleryId := g.(reactions := rs)], 200)
  }

  /** The corrected handler records a reaction by a well-formed user, one
      per user. */
  lemma GalleryReactionRecorded(galleries: map<Id, Gallery>, galleryId: string, userId: string, kind: string)
    requires kind != "" && IsObjectId(userId) && IsObjectId(galleryId) && galleryId in galleries
    requires UniqueUsers(galleries[galleryId].reactions)
    ensures var r := AddGalleryReaction(galleries, galleryId, Some(userId), Some(kind));
            && r.1 == 200
            && Reaction(userId, kind) in r.0[galleryId].reactions
            && UniqueUsers(r.0[galleryId].reactions)
  {
  }

  // ---------------------------------------------------------------------------
  // Comments and replies

  /** Every comment whose parent exists is listed among the parent's replies. */
  ghost predicate RepliesLinked(m: map<Id, Comment>)
  {
    forall id :: id in m && m[id].parent.Some? && m[id].parent.value in m ==> id in m[m[id].parent.value].replies
  }

  /** addComment: 400 without a news id or text; a request without a user
      fails the schema's required `postedBy`, and a caller id that is not an
      ObjectId fails its cast, both on save (500). `freshId` is the new
      document's id and `now` its creation time. */
  function AddComment(m: map<Id, Comment>, newsId: string, text: Field, caller: Option<Principal>, freshId: Id, now: int): (r: Change)
    requires freshId !in m
    ensures r.status == 400 <==> newsId == "" || !Truthy(text)
    ensures r.status == 201 <==> newsId != "" && Truthy(text) && caller.Some? && IsObjectId(caller.value.id)
    ensures r.status == 500 <==> newsId != "" && Truthy(text) && (caller.None? || !IsObjectId(caller.value.id))
    ensures r.status != 201 ==> r.comments == m
    ensures r.status == 201 ==>
      r.comments == m[freshId := Comment(newsId, caller.value.id, text.value, None, [], [], [], now)]
  {
    if newsId == "" || !Truthy(text) then Change(m, 400)
    else if caller.None? || !IsObjectId(caller.value.id) then Change(m, 500)
    else Change(m[freshId := Comment(newsId, caller.value.id, text.value, None, [], [], [], now)], 201)
  }

  /** Inserting a new document at the end of the natural order keeps it one. */
  lemma NaturalOrderAfterInsert(m: map<Id, Comment>, order: seq<Id>, freshId: Id, c: Comment)
    requires IsNaturalOrder(order, m) && freshId !in m
    ensures IsNaturalOrder(order + [freshId], m[freshId := c])
  {
    var order' := order + [freshId];
    assert forall i :: 0 <= i < |order| ==> order'[i] == order[i] && order[i] != freshId;
    assert order'[|order|] == freshId;
  }

  /** Rows of a collection in which one document was inserted at the end of
      the natural order: the old rows, then the new document. */
  lemma RowsAfterInsert(m: map<Id, Comment>, order: seq<Id>, freshId: Id, c: Comment)
    requires IsNaturalOrder(order, m) && freshId !in m
    ensures IsNaturalOrder(order + [freshId], m[freshId := c])
    ensures Rows(order + [freshId], m[freshId := c]) == Rows(order, m) + [Doc(freshId, c)]
  {
    NaturalOrderAfterInsert(m, order, freshId, c);
    var m', order' := m[freshId := c], order + [freshId];
    var l, r := Rows(order', m'), Rows(order, m) + [Doc(freshId, c)];
    forall i | 0 <= i < |l|
      ensures l[i] == r[i]
    {
      if i < |order| {
        assert order'[i] == order[i] && order[i] in m;
      }
    }
  }

  /** A posted comment is the last top-level comment of its post in natural
      order: the post's listing gains exactly that comment, and the total
      getNewsComments reports grows by one. */
  lemma AddThenListComment(m: map<Id, Comment>, order: seq<Id>, newsId: string, text: string,
                           caller: Principal, freshId: Id, now: int)
    requires IsNaturalOrder(order, m) && freshId !in m
    requires newsId != "" && text != "" && IsObjectId(caller.id)
    ensures var r := AddComment(m, newsId, Some(text), Some(caller), freshId, now);
            var order' := order + [freshId];
            && r.status == 201
            && IsNaturalOrder(order', r.comments)
            && TopLevel(Rows(order', r.comments), newsId)
               == TopLevel(Rows(order, m), newsId) + [Doc(freshId, Comment(newsId, caller.id, text, None, [], [], [], now))]
            && GetNewsComments(r.comments, order', newsId, None, None, None).value.total
               == GetNewsComments(m, order, newsId, None, None, None).value.total + 1
  {
    var c := Comment(newsId, caller.id, text, None, [], [], [], now);
    RowsAfterInsert(m, order, freshId, c);
    var p := (d: Doc<Comment>) => d.body.newsId == newsId && d.body.parent.None?;
    FilterAppend(Rows(order, m), [Doc(freshId, c)], p);
    assert Filter([Doc(freshId, c)], p) == [Doc(freshId, c)];
  }

  /** A top-level comment is nobody's reply, so replies stay linked. */
  lemma AddCommentKeepsLinks(m: map<Id, Comment>, newsId: string, text: Field, caller: Option<Principal>,
                             freshId: Id, now: int)
    requires freshId !in m && RepliesLinked(m)
    requires forall id :: id in m && m[id].parent.Some? ==> m[id].parent.value != freshId
    ensures RepliesLinked(AddComment(m, newsId, text, caller, freshId, now).comments)
  {
  }

  /** addReplyComment: 400 without a parent id or text; 500 without a user,
      or when the caller's id or the parent id is not an ObjectId (the reply
      fails its casts).
      The reply is saved first; then the parent, if it exists, gets the
      reply's id appended to its replies (a missing parent is not an error). */
  function AddReplyComment(m: map<Id, Comment>, newsId: string, parentId: Field, text: Field,
                           caller: Option<Principal>, freshId: Id, now: int): (r: Change)
    requires freshId !in m
    ensures r.status == 400 <==> !Truthy(parentId) || !Truthy(text)
    ensures r.status == 201 <==>
      Truthy(parentId) && Truthy(text) && caller.Some? && IsObjectId(caller.value.id) && IsObjectId(parentId.value)
    ensures r.status != 201 ==> r.comments == m
    ensures r.status == 201 ==>
      && r.comments.Keys == m.Keys + {freshId}
      && r.comments[freshId] == Comment(newsId, caller.value.id, text.value, Some(parentId.value), [], [], [], now)
      && (parentId.value in m ==> r.comments[parentId.value] == m[parentId.value].(replies := m[parentId.value].replies + [freshId]))
      && forall id :: id in m && id != parentId.value ==> r.comments[id] == m[id]
  {
    if !Truthy(parentId) || !Truthy(text) then Change(m, 400)
    else if caller.None? || !IsObjectId(caller.value.id) || !IsObjectId(parentId.value) then Change(m, 500)
    else
      var p := parentId.value;
      var saved := m[freshId := Comment(newsId, caller.value.id, text.value, Some(p), [], [], [], now)];
      if p in m then Change(saved[p := m[p].(replies := m[p].replies + [freshId])], 201)
      else Change(saved, 201)
  }

  /** Adding a comment or a reply keeps every reply listed by its parent. */
  lemma AddReplyKeepsLinks(m: map<Id, Comment>, newsId: string, parentId: Field, text: Field,
                           caller: Option<Principal>, freshId: Id, now: int)
    requires freshId !in m && RepliesLinked(m)
    requires parentId.Some? ==> parentId.value != freshId
    requires forall id :: id in m && m[id].parent.Some? ==> m[id].parent.value != freshId
    ensures RepliesLinked(AddReplyComment(m, newsId, parentId, text, caller, freshId, now).comments)
  {
    var c := AddReplyComment(m, newsId, parentId, text, caller, freshId, now);
    if c.status == 201 {
      var r := c.comments;
      var p := parentId.value;
      forall id | id in r && r[id].parent.Some? && r[id].parent.value in r
        ensures id in r[r[id].parent.value].replies
      {
        if id == freshId {
          assert r[id].parent.value == p && p in m;
          assert r[p].replies == m[p].replies + [freshId];
        } else {
          var q := r[id].parent.value;
          assert id in m;
          assert r[id].parent == m[id].parent;
          assert q in m;
          assert id in m[q].replies;
          assert m[q].replies <= r[q].replies;
        }
      }
    }
  }

  /** deleteComment: 400 without an id; 500 for a malformed id; 404 when the
      comment is missing or the caller did not post it (the ids are compared
      as JSON strings, so a request without a user never matches). The
      comment and the comments listed as its replies are deleted; nothing
      else changes, so replies of replies remain, and a parent keeps the
      deleted id in its own replies. */
  function DeleteComment(m: map<Id, Comment>, commentId: string, caller: Option<Principal>): (r: Change)
    ensures r.status == 200 <==>
      commentId != "" && IsObjectId(commentId) && commentId in m && caller.Some? && caller.value.id == m[commentId].postedBy
    ensures r.status != 200 ==> r.comments == m
    ensures r.status == 200 ==>
      && (forall id :: id in r.comments <==> id in m && id != commentId && id !in m[commentId].replies)
      && (forall id :: id in r.comments ==> r.comments[id] == m[id])
  {
    if commentId == "" then Change(m, 400)
    else if FindStatus(m, commentId) != 200 then Change(m, FindStatus(m, commentId))
    else if caller.None? || caller.value.id != m[commentId].postedBy then Change(m, 404)
    else
      var gone := {commentId} + set id | id in m[commentId].replies;
      Change(m - gone, 200)
  }

  /** Deleting keeps every surviving reply listed by its surviving parent. */
  lemma DeleteKeepsLinks(m: map<Id, Comment>, commentId: string, caller: Option<Principal>)
    requires RepliesLinked(m)
    ensures RepliesLinked(DeleteComment(m, commentId, caller).comments)
  {
  }

  /** The cascade is one level deep: a reply to a reply survives the
      deletion of the top comment. */
  lemma DeleteIsOneLevel(m: map<Id, Comment>, top: Id, reply: Id, nested: Id, caller: Principal)
    requires IsObjectId(top) && top in m && caller.id == m[top].postedBy
    requires nested in m && nested != top && nested !in m[top].replies
    requires reply in m[top].replies && m[nested].parent == Some(reply)
    ensures var r := DeleteComment(m, top, Some(caller));
            r.status == 200 && nested in r.comments && reply !in r.comments
  {
  }

  /** Deleting a reply leaves its id dangling in the parent's replies. */
  lemma DeleteLeavesDanglingReply(m: map<Id, Comment>, reply: Id, parent: Id, caller: Principal)
    requires IsObjectId(reply) && reply in m && caller.id == m[reply].postedBy
    requires parent in m && parent != reply && parent !in m[reply].replies && reply in m[parent].replies
    ensures var r := DeleteComment(m, reply, Some(caller));
            r.status == 200 && reply !in r.comments && parent in r.comments && reply in r.comments[parent].replies
  {
  }

  // ---------------------------------------------------------------------------
  // Listings

  /** The sort key of `.sort({ createdAt: -1 })`: newest first. Documents
      with equal timestamps keep the collection's natural order. */
  function NewestFirst(d: Doc<Comment>): int
  {
    -d.body.createdAt
  }

  /** The top-level comments (no `parentComment`) on a news post. */
  function TopLevel(rows: seq<Doc<Comment>>, newsId: string): (r: seq<Doc<Comment>>)
    ensures forall d :: d in r <==> d in rows && d.body.newsId == newsId && d.body.parent.None?
    ensures Subseq(r, rows)
  {
    Filter(rows, (d: Doc<Comment>) => d.body.newsId == newsId && d.body.parent.None?)
  }

  /** A page of top-level comments, the populated replies of each (the
      i-th list belongs to the i-th comment), and the total the handler
      reports. */
  datatype Page = Page(comments: seq<Doc<Comment>>, replies: seq<seq<Doc<Comment>>>, total: nat)

  /** The page size `parseInt(directCommentsLimit) || 4` gives; a negative
      limit is read by the database as its absolute value. */
  function PageSize(limit: Field): (n: nat)
    ensures limit.None? ==> n == 4
    ensures limit.Some? && Js.ParseInt(limit.value).None? ==> n == 4
    ensures limit.Some? && Js.ParseInt(limit.value) == Some(0) ==> n == 4
  {
    var l := Js.ParseIntOr(limit, 4);
    if l < 0 then -l else l
  }

  function CommentAt(c: Comment): int
  {
    c.createdAt
  }

  /** The `replies` populate of getNewsComments for one comment, with the
      options `limit: parseInt(replyCommentsLimit) || 4` and
      `sort: { createdAt: -1 }`: the newest of its listed replies that still
      exist, newest first. */
  function LatestReplies(d: Doc<Comment>, m: map<Id, Comment>, replyLimit: Field): (r: seq<Doc<Comment>>)
    ensures |r| <= PageSize(replyLimit)
    ensures forall x :: x in r ==> x.id in d.body.replies && x.id in m && x.body == m[x.id]
    ensures forall i, j :: 0 <= i < j < |r| ==> r[i].body.createdAt >= r[j].body.createdAt
    ensures |r| < PageSize(replyLimit) ==> forall x :: x in Populate(d.body.replies, m) ==> x in r
    ensures forall x, y :: x in Populate(d.body.replies, m) && x !in r && y in r ==> x.body.createdAt <= y.body.createdAt
  {
    var sorted := SortBy(Populate(d.body.replies, m), NewestFirst);
    NewestFirstSorted(Populate(d.body.replies, m));
    TakeFrom(sorted, PageSize(replyLimit));
    PrefixIsNewest(sorted, PageSize(replyLimit), CommentAt);
    Take(sorted, PageSize(replyLimit))
  }

  /** Sorting by `NewestFirst` keeps the same comments and lists them by
      creation time, newest first. */
  lemma NewestFirstSorted(all: seq<Doc<Comment>>)
    ensures forall x :: x in SortBy(all, NewestFirst) <==> x in all
    ensures var sorted := SortBy(all, NewestFirst);
      forall i, j :: 0 <= i < j < |sorted| ==> CommentAt(sorted[i].body) >= CommentAt(sorted[j].body)
  {
    var sorted := SortBy(all, NewestFirst);
    assert multiset(sorted) == multiset(all);
    forall x
      ensures x in sorted <==> x in all
    {
      assert x in sorted <==> x in multiset(sorted);
      assert x in all <==> x in multiset(all);
    }
    assert SortedBy(sorted, NewestFirst);
    forall i, j | 0 <= i < j < |sorted|
      ensures CommentAt(sorted[i].body) >= CommentAt(sorted[j].body)
    {
      assert NewestFirst(sorted[i]) <= NewestFirst(sorted[j]);
    }
  }

  /** The replies of each comment of a page. */
  function RepliesOf(page: seq<Doc<Comment>>, m: map<Id, Comment>, replyLimit: Field): (r: seq<seq<Doc<Comment>>>)
    ensures |r| == |page|
    ensures forall i :: 0 <= i < |r| ==> r[i] == LatestReplies(page[i], m, replyLimit)
  {
    if |page| == 0 then [] else [LatestReplies(page[0], m, replyLimit)] + RepliesOf(page[1..], m, replyLimit)
  }

  /** getNewsComments: the top-level comments of a post, newest first, from
      `parseInt(skip) || 0` for `PageSize(limit)` comments, each with its
      `PageSize(replyLimit)` newest replies, and the number of all top-level
      comments of the post. A negative skip is rejected by the database
      (500). `order` is the collection's natural order. */
  function GetNewsComments(m: map<Id, Comment>, order: seq<Id>, newsId: string, skip: Field, limit: Field,
                           replyLimit: Field): (r: Result<Page>)
    requires IsNaturalOrder(order, m)
    ensures r.Fail? <==> newsId == "" || Js.ParseIntOr(skip, 0) < 0
    ensures r.Fail? ==> r.status == (if newsId == "" then 400 else 500)
    ensures r.Ok? ==>
      var top := TopLevel(Rows(order, m), newsId);
      var from := Js.ParseIntOr(skip, 0);
      && r.value.total == |top|
      && |r.value.comments| <= PageSize(limit)
      && (forall d :: d in r.value.comments ==> d in top)
      && r.value.comments == Window(SortBy(top, NewestFirst), from, PageSize(limit))
    ensures r.Ok? ==>
      && |r.value.replies| == |r.value.comments|
      && forall i :: 0 <= i < |r.value.comments| ==>
           var d := r.value.comments[i];
           && |r.value.replies[i]| <= PageSize(replyLimit)
           && (forall x :: x in r.value.replies[i] ==> x.id in d.body.replies && x.id in m && x.body == m[x.id])
           && (forall j, k :: 0 <= j < k < |r.value.replies[i]| ==>
                 r.value.replies[i][j].body.createdAt >= r.value.replies[i][k].body.createdAt)
           && (forall x, y :: x in Populate(d.body.replies, m) && x !in r.value.replies[i] && y in r.value.replies[i]
                 ==> x.body.createdAt <= y.body.createdAt)
  {
    if newsId == "" then Fail(400)
    else
      var from := Js.ParseIntOr(skip, 0);
      if from < 0 then Fail(500)
      else
        var top := TopLevel(Rows(order, m), newsId);
        var sorted := SortBy(top, NewestFirst);
        var page := Window(sorted, from, PageSize(limit));
        WindowOfSorted(top, from, PageSize(limit));
        Ok(Page(page, RepliesOf(page, m, replyLimit), |top|))
  }

  /** A page of the sorted listing holds only listed comments. */
  lemma WindowOfSorted(top: seq<Doc<Comment>>, from: nat, size: nat)
    ensures forall d :: d in Window(SortBy(top, NewestFirst), from, size) ==> d in top
  {
    var sorted := SortBy(top, NewestFirst);
    var page := Window(sorted, from, size);
    assert multiset(sorted) == multiset(top);
    forall d | d in page
      ensures d in top
    {
      var i :| 0 <= i < |page| && page[i] == d;
      assert d == sorted[from + i];
      assert d in multiset(sorted);
    }
  }

  /** A comment with its replies, as getComments returns it. */
  datatype Thread = Thread(comment: Doc<Comment>, replies: seq<Doc<Comment>>)

  /** `populate("replies")`: the listed replies that still exist, in the
      order they are listed. */
  function Populate(ids: seq<Id>, m: map<Id, Comment>): (r: seq<Doc<Comment>>)
    ensures forall d :: d in r <==> d.id in ids && d.id in m && d.body == m[d.id]
  {
    if |ids| == 0 then []
    else
      var rest := Populate(ids[1..], m);
      assert forall x :: x in ids <==> x == ids[0] || x in ids[1..];
      if ids[0] in m then [Doc(ids[0], m[ids[0]])] + rest else rest
  }

  function WithSortedReplies(d: Doc<Comment>, m: map<Id, Comment>): Thread
  {
    Thread(d, SortBy(Populate(d.body.replies, m), NewestFirst))
  }

  /** The comments the threads are about, in thread order. */
  function ThreadComments(t: seq<Thread>): (r: seq<Doc<Comment>>)
    ensures |r| == |t|
    ensures forall i :: 0 <= i < |t| ==> r[i] == t[i].comment
  {
    if |t| == 0 then [] else [t[0].comment] + ThreadComments(t[1..])
  }

  function Threads(rows: seq<Doc<Comment>>, m: map<Id, Comment>): (r: seq<Thread>)
    ensures |r| == |rows|
    ensures forall i :: 0 <= i < |r| ==> r[i] == WithSortedReplies(rows[i], m)
    ensures ThreadComments(r) == rows
  {
    if |rows| == 0 then [] else [WithSortedReplies(rows[0], m)] + Threads(rows[1..], m)
  }

  /** All comments on a post (replies included, since they carry the post's
      id too). */
  function OnNews(rows: seq<Doc<Comment>>, newsId: string): (r: seq<Doc<Comment>>)
    ensures forall d :: d in r <==> d in rows && d.body.newsId == newsId
  {
    Filter(rows, (d: Doc<Comment>) => d.body.newsId == newsId)
  }

  /** getComments: every comment on the post, newest first, each with the
      replies that still exist, newest first. */
  function GetComments(m: map<Id, Comment>, order: seq<Id>, newsId: string): (r: Result<seq<Thread>>)
    requires IsNaturalOrder(order, m)
    ensures r.Fail? <==> newsId == ""
    ensures r.Fail? ==> r.status == 400
    ensures r.Ok? ==>
      var on := OnNews(Rows(order, m), newsId);
      && |r.value| == |on|
      && multiset(ThreadComments(r.value)) == multiset(on)
      && (forall i :: 0 <= i < |r.value| ==> r.value[i].comment in on)
      && (forall i, j :: 0 <= i < j < |r.value| ==> r.value[i].comment.body.createdAt >= r.value[j].comment.body.createdAt)
      && forall i :: 0 <= i < |r.value| ==>
           IsStableSortOf(r.value[i].replies, Populate(r.value[i].comment.body.replies, m), NewestFirst)
  {
    if newsId == "" then Fail(400)
    else
      var on := OnNews(Rows(order, m), newsId);
      var sorted := SortBy(on, NewestFirst);
      var t := Threads(sorted, m);
      ThreadsOfSorted(on, m);
      Ok(t)
  }

  /** The threads of a newest-first sort: one thread for each comment of
      `on`, newest first, each with its replies newest first. */
  lemma ThreadsOfSorted(on: seq<Doc<Comment>>, m: map<Id, Comment>)
    ensures var t := Threads(SortBy(on, NewestFirst), m);
      && |t| == |on|
      && multiset(ThreadComments(t)) == multiset(on)
      && (forall i :: 0 <= i < |t| ==> t[i].comment in on)
      && (forall i, j :: 0 <= i < j < |t| ==> t[i].comment.body.createdAt >= t[j].comment.body.createdAt)
      && forall i :: 0 <= i < |t| ==> IsStableSortOf(t[i].replies, Populate(t[i].comment.body.replies, m), NewestFirst)
  {
    var sorted := SortBy(on, NewestFirst);
    var t := Threads(sorted, m);
    assert SortedBy(sorted, NewestFirst);
    assert multiset(sorted) == multiset(on);
    forall i | 0 <= i < |t|
      ensures t[i].comment in on
    {
      assert t[i].comment == sorted[i];
      assert sorted[i] in multiset(on);
    }
    forall i, j | 0 <= i < j < |t|
      ensures t[i].comment.body.createdAt >= t[j].comment.body.createdAt
    {
      assert NewestFirst(sorted[i]) <= NewestFirst(sorted[j]);
    }
    forall i | 0 <= i < |t|
      ensures IsStableSortOf(t[i].replies, Populate(t[i].comment.body.replies, m), NewestFirst)
    {
      assert t[i] == WithSortedReplies(sorted[i], m);
    }
  }

  /** Pages tile the newest-first listing: the page at `skip` of size `a`
      followed by the page at `skip + a` of size `b` is the page at `skip` of
      size `a + b`, whatever strings spell those numbers. */
  lemma PagesTile(m: map<Id, Comment>, order: seq<Id>, newsId: string,
                  skip1: Field, limit1: Field, skip2: Field, limit2: Field, limit: Field, replyLimit: Field)
    requires IsNaturalOrder(order, m) && newsId != ""
    requires Js.ParseIntOr(skip1, 0) >= 0
    requires Js.ParseIntOr(skip2, 0) == Js.ParseIntOr(skip1, 0) + PageSize(limit1)
    requires PageSize(limit) == PageSize(limit1) + PageSize(limit2)
    ensures var p1 := GetNewsComments(m, order, newsId, skip1, limit1, replyLimit);
            var p2 := GetNewsComments(m, order, newsId, skip2, limit2, replyLimit);
            var p := GetNewsComments(m, order, newsId, skip1, limit, replyLimit);
            p1.Ok? && p2.Ok? && p.Ok? && p1.value.comments + p2.value.comments == p.value.comments
  {
    var p1 := GetNewsComments(m, order, newsId, skip1, limit1, replyLimit);
    var p2 := GetNewsComments(m, order, newsId, skip2, limit2, replyLimit);
    var p := GetNewsComments(m, order, newsId, skip1, limit, replyLimit);
    var w := SortBy(TopLevel(Rows(order, m), newsId), NewestFirst);
    var from, from2 := Js.ParseIntOr(skip1, 0), Js.ParseIntOr(skip2, 0);
    var a, b, c := PageSize(limit1), PageSize(limit2), PageSize(limit);
    PageAt(m, order, newsId, skip1, limit1, replyLimit, from, a, w, p1);
    PageAt(m, order, newsId, skip2, limit2, replyLimit, from2, b, w, p2);
    PageAt(m, order, newsId, skip1, limit, replyLimit, from, c, w, p);
    JoinPages(p1, p2, p, w, from, from2, a, b, c);
  }

  lemma JoinPages(r1: Result<Page>, r2: Result<Page>, r: Result<Page>, w: seq<Doc<Comment>>,
                  from: nat, from2: nat, a: nat, b: nat, c: nat)
    requires from2 == from + a && c == a + b
    requires r1.Ok? && r1.value.comments == Window(w, from, a)
    requires r2.Ok? && r2.value.comments == Window(w, from2, b)
    requires r.Ok? && r.value.comments == Window(w, from, c)
    ensures r1.value.comments + r2.value.comments == r.value.comments
  {
    WindowsTile(w, from, a, b);
  }

  /** The page a request with the given numbers gets. */
  lemma PageAt(m: map<Id, Comment>, order: seq<Id>, newsId: string, skip: Field, limit: Field, replyLimit: Field,
               from: nat, size: nat, w: seq<Doc<Comment>>, r: Result<Page>)
    requires IsNaturalOrder(order, m) && newsId != ""
    requires Js.ParseIntOr(skip, 0) == from && PageSize(limit) == size
    requires w == SortBy(TopLevel(Rows(order, m), newsId), NewestFirst)
    requires r == GetNewsComments(m, order, newsId, skip, limit, replyLimit)
    ensures r.Ok? && r.value.comments == Window(w, from, size)
  {
  }

  /** `?skip=n` written in decimal skips `n` comments, and a positive
      `?directCommentsLimit=n` asks for `n` of them. */
  lemma DecimalQuery(n: nat)
    ensures Js.ParseIntOr(Some(Js.Decimal(n)), 0) == n
    ensures n > 0 ==> PageSize(Some(Js.Decimal(n))) == n
  {
    Js.ParseIntDecimal(n, "");
    assert Js.Decimal(n) + "" == Js.Decimal(n);
  }

  /** Without paging parameters, the four newest top-level comments, each
      with its four newest replies. */
  lemma DefaultPageIsFourNewest(m: map<Id, Comment>, order: seq<Id>, newsId: string)
    requires IsNaturalOrder(order, m) && newsId != ""
    ensures var r := GetNewsComments(m, order, newsId, None, None, None);
            && r.Ok? && r.value.comments == Take(SortBy(TopLevel(Rows(order, m), newsId), NewestFirst), 4)
            && forall i :: 0 <= i < |r.value.comments| ==>
                 r.value.replies[i] == Take(SortBy(Populate(r.value.comments[i].body.replies, m), NewestFirst), 4)
  {
  }
}

=== FILE: common.dfy ===
/** Values shared by every handler: optional request fields, the authenticated
    caller, roles, and the document ids of the store. */
module Common {

  /** A value that may be absent (JavaScript `undefined` / `null`). */
  datatype Option<+T> = None | Some(value: T)

  /** A document id as it travels in URLs and JSON bodies (a 24-character
      hex string for a well-formed Mongo ObjectId). */
  type Id = string

  /** A string field of a request body, query or cookie: absent or a string. */
  type Field = Option<string>

  /** JavaScript truthiness of a string field: present and non-empty. */
  predicate Truthy(f: Field)
  {
    f.Some? && f.value != ""
  }

  /** The value of a field that is known to be present, "" otherwise. */
  function ValueOr(f: Field, default: string): string
  {
    if f.Some? then f.value else default
  }

  /** The JWT payload the authentication middleware puts in `req.user.user`. */
  datatype Principal = Principal(id: Id, role: string)

  /** The role test the handlers repeat: `role === "admin" || role === "writer"`. */
  predicate IsStaff(role: string)
  {
    role == "admin" || role == "writer"
  }

  /** `caller.role` is admin or writer, for a caller that may be absent. */
  predicate CallerIsStaff(caller: Option<Principal>)
  {
    caller.Some? && IsStaff(caller.value.role)
  }

  /** `caller?.role === "admin"`. */
  predicate CallerIsAdmin(caller: Option<Principal>)
  {
    caller.Some? && caller.value.role == "admin"
  }

  /** The prompt for the first of `fields` that is not truthy, in the order a
      posting handler checks them, then "User not found!" when there is no
      caller; `None` when everything is there. `prompts[i]` is the handler's
      message for `fields[i]`. */
  function FirstMissing(fields: seq<Field>, prompts: seq<string>, caller: Option<Principal>): (r: Option<string>)
    requires |prompts| == |fields|
    ensures r.None? <==> (forall i :: 0 <= i < |fields| ==> Truthy(fields[i])) && caller.Some?
    ensures forall i :: 0 <= i < |fields| && !Truthy(fields[i]) && (forall j :: 0 <= j < i ==> Truthy(fields[j])) ==>
      r == Some(prompts[i])
    ensures (forall i :: 0 <= i < |fields| ==> Truthy(fields[i])) && caller.None? ==> r == Some("User not found!")
    decreases |fields|
  {
    if |fields| == 0 then (if caller.None? then Some("User not found!") else None)
    else if !Truthy(fields[0]) then Some(prompts[0])
    else
      var r := FirstMissing(fields[1..], prompts[1..], caller);
      assert forall i :: 1 <= i < |fields| ==> fields[i] == fields[1..][i - 1] && prompts[i] == prompts[1..][i - 1];
      r
  }

  /** `FirstMissing` over four fields, case by case. */
  lemma FirstMissingOfFour(a: Field, b: Field, c: Field, d: Field, prompts: seq<string>, caller: Option<Principal>)
    requires |prompts| == 4
    ensures var r := FirstMissing([a, b, c, d], prompts, caller);
      && (!Truthy(a) ==> r == Some(prompts[0]))
      && (Truthy(a) && !Truthy(b) ==> r == Some(prompts[1]))
      && (Truthy(a) && Truthy(b) && !Truthy(c) ==> r == Some(prompts[2]))
      && (Truthy(a) && Truthy(b) && Truthy(c) && !Truthy(d) ==> r == Some(prompts[3]))
      && (Truthy(a) && Truthy(b) && Truthy(c) && Truthy(d) && caller.None? ==> r == Some("User not found!"))
  {
    var fields := [a, b, c, d];
    assert fields[0] == a && fields[1] == b && fields[2] == c && fields[3] == d;
  }

  /** The outcome of a read: the value, or the failure status. */
  datatype Result<T> = Ok(value: T) | Fail(status: int)

  predicate IsHexDigit(c: char)
  {
    ('0' <= c <= '9') || ('a' <= c <= 'f') || ('A' <= c <= 'F')
  }

  /** `s` is 24 hexadecimal digits, the string form Mongoose casts to an
      ObjectId; a `findById` on any other string fails with a cast error. */
  predicate IsObjectId(s: string)
  {
    |s| == 24 && forall i :: 0 <= i < |s| ==> IsHexDigit(s[i])
  }

  /** `id.length !== 24`, the shape check several handlers apply to ids. */
  predicate HasIdLength(f: Field)
  {
    f.Some? && |f.value| == 24
  }
}

=== FILE: dashboard.dfy ===
/** The home-page curation handlers of controllers/dashboardController.js.
    They all act on the single assets document: curated (news, position)
    lists, the recent-file log, the movie release and collection lists, and
    the poster and advertisement slots. Each handler maps the singleton (absent
    until first written) and the request to the new singleton and a status. */
module Dashboard {
  import opened Common
  import opened Store
  import opened Ordering

  /** The assets singleton a handler leaves behind, and its HTTP status. */
  datatype Outcome = Outcome(assets: Option<Assets>, status: int)

  // ---------------------------------------------------------------------------
  // Curated (news, position) lists

  /** The three lists the dashboard replaces wholesale. */
  datatype PlacementList = TopFiveGrid | TopNine | Trends

  function Placements(a: Assets, l: PlacementList): seq<Placement>
  {
    match l
    case TopFiveGrid => a.topFiveGrid
    case TopNine => a.topNine
    case Trends => a.trends
  }

  /** `a` with list `l` replaced by `items`. */
  function WithPlacements(a: Assets, l: PlacementList, items: seq<Placement>): (r: Assets)
    ensures Placements(r, l) == items
    ensures forall m :: m != l ==> Placements(r, m) == Placements(a, m)
  {
    match l
    case TopFiveGrid => a.(topFiveGrid := items)
    case TopNine => a.(topNine := items)
    case Trends => a.(trends := items)
  }

  /** `after` differs from `before` at most in list `l`. */
  ghost predicate OnlyPlacementsChanged(before: Assets, after: Assets, l: PlacementList)
  {
    WithPlacements(after, l, Placements(before, l)) == before
  }

  /** `findOne()`, then `new Assets({l: items})` or `homeAssets[l] = items`, then `save()`. */
  function SavePlacements(assets: Option<Assets>, l: PlacementList, items: seq<Placement>): (r: Assets)
    ensures Placements(r, l) == items
    ensures OnlyPlacementsChanged(AssetsOrEmpty(assets), r, l)
  {
    WithPlacements(AssetsOrEmpty(assets), l, items)
  }

  /** Every entry's `news` casts to the ObjectId the schema declares for it;
      otherwise `save()` rejects with a cast error and the handler answers 500. */
  predicate AllCast(items: seq<Placement>)
  {
    forall i :: 0 <= i < |items| ==> IsObjectId(items[i].news)
  }

  /** setHomeGrid: exactly five items, checked before the caller's role; then
      the save, which fails on an entry whose news id does not cast. */
  function SetHomeGrid(assets: Option<Assets>, items: Option<seq<Placement>>, caller: Option<Principal>): (r: Outcome)
    ensures r.status == 400 <==> items.None? || |items.value| != 5
    ensures r.status == 403 <==> items.Some? && |items.value| == 5 && !CallerIsStaff(caller)
    ensures r.status == 500 <==> items.Some? && |items.value| == 5 && CallerIsStaff(caller) && !AllCast(items.value)
    ensures r.status == 200 <==> items.Some? && |items.value| == 5 && CallerIsStaff(caller) && AllCast(items.value)
    ensures r.status == 200 ==>
      r.assets.Some? && Placements(r.assets.value, TopFiveGrid) == items.value
      && OnlyPlacementsChanged(AssetsOrEmpty(assets), r.assets.value, TopFiveGrid)
    ensures r.status != 200 ==> r.assets == assets
  {
    if items.None? || |items.value| != 5 then Outcome(assets, 400)
    else if !CallerIsStaff(caller) then Outcome(assets, 403)
    else if !AllCast(items.value) then Outcome(assets, 500)
    else Outcome(Some(SavePlacements(assets, TopFiveGrid, items.value)), 200)
  }

  /** setTopNine: exactly nine items, then a caller, then an admin or writer,
      then the save with its cast of every news id. */
  function SetTopNine(assets: Option<Assets>, items: Option<seq<Placement>>, caller: Option<Principal>): (r: Outcome)
    ensures r.status == 400 <==> items.None? || |items.value| != 9
    ensures r.status == 404 <==> items.Some? && |items.value| == 9 && caller.None?
    ensures r.status == 403 <==> items.Some? && |items.value| == 9 && caller.Some? && !IsStaff(caller.value.role)
    ensures r.status == 500 <==> items.Some? && |items.value| == 9 && CallerIsStaff(caller) && !AllCast(items.value)
    ensures r.status == 200 <==> items.Some? && |items.value| == 9 && CallerIsStaff(caller) && AllCast(items.value)
    ensures r.status == 200 ==>
      r.assets.Some? && Placements(r.assets.value, TopNine) == items.value
      && OnlyPlacementsChanged(AssetsOrEmpty(assets), r.assets.value, TopNine)
    ensures r.status != 200 ==> r.assets == assets
  {
    if items.None? || |items.value| != 9 then Outcome(assets, 400)
    else if caller.None? then Outcome(assets, 404)
    else if !IsStaff(caller.value.role) then Outcome(assets, 403)
    else if !AllCast(items.value) then Outcome(assets, 500)
    else Outcome(Some(SavePlacements(assets, TopNine, items.value)), 200)
  }

  /** setTrends: at least one item (404 otherwise), no upper bound and no check
      of the positions; then a caller (404), an admin or writer (403), and the
      save with its cast of every news id (500). */
  function SetTrends(assets: Option<Assets>, items: Option<seq<Placement>>, caller: Option<Principal>): (r: Outcome)
    ensures r.status == 200 <==> items.Some? && |items.value| > 0 && CallerIsStaff(caller) && AllCast(items.value)
    ensures r.status == 500 <==> items.Some? && |items.value| > 0 && CallerIsStaff(caller) && !AllCast(items.value)
    ensures r.status == 403 <==> items.Some? && |items.value| > 0 && caller.Some? && !IsStaff(caller.value.role)
    ensures r.status == 404 <==> items.None? || |items.value| == 0 || caller.None?
    ensures r.status == 200 ==>
      r.assets.Some? && Placements(r.assets.value, Trends) == items.value
      && OnlyPlacementsChanged(AssetsOrEmpty(assets), r.assets.value, Trends)
    ensures r.status != 200 ==> r.assets == assets
  {
    if items.None? || |items.value| == 0 then Outcome(assets, 404)
    else if caller.None? then Outcome(assets, 404)
    else if !IsStaff(caller.value.role) then Outcome(assets, 403)
    else if !AllCast(items.value) then Outcome(assets, 500)
    else Outcome(Some(SavePlacements(assets, Trends, items.value)), 200)
  }

  /** Any number of trend items with well-formed news ids is accepted from a
      staff caller, with any positions, repeated or not. */
  lemma SetTrendsAcceptsAnyPositions(assets: Option<Assets>, items: seq<Placement>, caller: Principal)
    requires |items| > 0 && IsStaff(caller.role) && AllCast(items)
    ensures SetTrends(assets, Some(items), Some(caller)).status == 200
    ensures Placements(SetTrends(assets, Some(items), Some(caller)).assets.value, Trends) == items
  {
  }

  /** A curated entry as the read handlers return it: the news document
      spread out and tagged with its position. */
  datatype Shown = Shown(id: Id, article: News, position: int)

  function PositionOf(p: Placement): int
  {
    p.position
  }

  function AsPlacement(s: Shown): Placement
  {
    Placement(s.id, s.position)
  }

  /** Every entry of `items` names a news post that still exists. */
  predicate AllResolve(items: seq<Placement>, news: map<Id, News>)
  {
    forall i :: 0 <= i < |items| ==> items[i].news in news
  }

  /** Populates each entry with its news post. */
  function Resolve(items: seq<Placement>, news: map<Id, News>): (r: seq<Shown>)
    requires AllResolve(items, news)
    ensures |r| == |items|
    ensures forall i :: 0 <= i < |r| ==> AsPlacement(r[i]) == items[i] && r[i].article == news[items[i].news]
  {
    if |items| == 0 then []
    else [Shown(items[0].news, news[items[0].news], items[0].position)] + Resolve(items[1..], news)
  }

  function AsPlacements(s: seq<Shown>): (r: seq<Placement>)
    ensures |r| == |s|
    ensures forall i :: 0 <= i < |s| ==> r[i] == AsPlacement(s[i])
  {
    if |s| == 0 then [] else [AsPlacement(s[0])] + AsPlacements(s[1..])
  }

  /** Populating and then forgetting the posts gives the entries back. */
  lemma ResolveForget(items: seq<Placement>, news: map<Id, News>)
    requires AllResolve(items, news)
    ensures AsPlacements(Resolve(items, news)) == items
  {
  }

  /** The entries sorted by ascending position (stable, as JavaScript's
      `Array.prototype.sort`) and populated; 500 when a post is missing. */
  function ShowSorted(items: seq<Placement>, news: map<Id, News>): (r: Result<seq<Shown>>)
    ensures r.Fail? <==> !AllResolve(items, news)
    ensures r.Fail? ==> r.status == 500
    ensures r.Ok? ==>
      IsStableSortOf(AsPlacements(r.value), items, PositionOf)
      && forall i :: 0 <= i < |r.value| ==> r.value[i].id in news && r.value[i].article == news[r.value[i].id]
  {
    var sorted := SortBy(items, PositionOf);
    SortedResolves(items, sorted, news);
    if AllResolve(sorted, news) then
      ResolveForget(sorted, news);
      Ok(Resolve(sorted, news))
    else
      Fail(500)
  }

  /** A read of a curated list: the singleton afterwards (a read creates it
      when absent) and the result. */
  datatype Read = Read(assets: Option<Assets>, result: Result<seq<Shown>>)

  /** getHomeGrid (l = TopFiveGrid) and getTopNine (l = TopNine): the entries
      stably sorted by ascending position, each with its news post; any entry
      whose news no longer exists makes the whole read fail with 500. */
  function GetPlacements(assets: Option<Assets>, l: PlacementList, news: map<Id, News>): (r: Read)
    requires l != Trends
    ensures r.assets == Some(AssetsOrEmpty(assets))
    ensures assets.None? ==> r.result == Ok([])
    ensures r.result == ShowSorted(Placements(AssetsOrEmpty(assets), l), news)
  {
    if assets.None? then
      assert ShowSorted([], news) == Ok([]);
      Read(Some(EmptyAssets), Ok([]))
    else Read(assets, ShowSorted(Placements(assets.value, l), news))
  }

  /** Sorting does not change which news ids a list names. */
  lemma SortedResolves(items: seq<Placement>, sorted: seq<Placement>, news: map<Id, News>)
    requires multiset(sorted) == multiset(items)
    ensures AllResolve(sorted, news) <==> AllResolve(items, news)
  {
    if AllResolve(sorted, news) {
      forall i | 0 <= i < |items|
        ensures items[i].news in news
      {
        assert items[i] in multiset(sorted);
      }
    }
    if AllResolve(items, news) {
      forall i | 0 <= i < |sorted|
        ensures sorted[i].news in news
      {
        assert sorted[i] in multiset(items);
      }
    }
  }

  /** Writing the grid and reading it back gives the written entries in
      position order (ties in the order they were written), provided every
      news post exists. */
  lemma SetThenGetHomeGrid(assets: Option<Assets>, items: seq<Placement>, caller: Principal, news: map<Id, News>)
    requires |items| == 5 && IsStaff(caller.role)
    requires AllCast(items) && AllResolve(items, news)
    ensures var w := SetHomeGrid(assets, Some(items), Some(caller));
            var g := GetPlacements(w.assets, TopFiveGrid, news);
            g.result.Ok? && IsStableSortOf(AsPlacements(g.result.value), items, PositionOf)
  {
  }

  /** The same round trip for the top nine. */
  lemma SetThenGetTopNine(assets: Option<Assets>, items: seq<Placement>, caller: Principal, news: map<Id, News>)
    requires |items| == 9 && IsStaff(caller.role)
    requires AllCast(items) && AllResolve(items, news)
    ensures var w := SetTopNine(assets, Some(items), Some(caller));
            var g := GetPlacements(w.assets, TopNine, news);
            g.result.Ok? && IsStableSortOf(AsPlacements(g.result.value), items, PositionOf)
  {
  }

  /** Positions are never validated, so two entries may share one; the read
      then keeps them in the order they were written. */
  lemma DuplicatePositionsKeepWriteOrder(a: Assets, news: map<Id, News>, x: Id, y: Id)
    requires x in news && y in news
    requires a.topFiveGrid == [Placement(x, 1), Placement(y, 1)]
    ensures GetPlacements(Some(a), TopFiveGrid, news).result == Ok([Shown(x, news[x], 1), Shown(y, news[y], 1)])
  {
    var items := a.topFiveGrid;
    SortBySorted(items, PositionOf);
    assert AllResolve(items, news);
    assert items[1..] == [Placement(y, 1)];
    assert Resolve(items, news) == [Shown(x, news[x], 1), Shown(y, news[y], 1)];
  }

  // ---------------------------------------------------------------------------
  // Recent file links

  /** The file log after `url` is pushed and all but the ten most recent
      links are dropped (`slice(-10)`). */
  function PushRecent(log: seq<string>, url: string): (r: seq<string>)
    ensures |r| == if |log| < 10 then |log| + 1 else 10
    ensures r[|r| - 1] == url
    ensures forall i :: 0 <= i < |r| - 1 ==> r[i] == log[|log| - (|r| - 1) + i]
  {
    var r := LastN(log + [url], 10);
    assert forall i :: 0 <= i < |r| - 1 ==> r[i] == (log + [url])[|log| + 1 - |r| + i];
    r
  }

  /** setFilesLink: without an uploaded file (`hasFile`) the answer is 404;
      `user.role` is then read without a guard, so a request without a user
      fails with 500; a reader gets 403. Only then does the storage service
      run: `upload` is the URL it returns, `None` when it throws (500). The URL
      is pushed, creating the singleton if needed, and only the ten most
      recent links are kept. */
  function SetFilesLink(assets: Option<Assets>, hasFile: bool, upload: Option<string>,
                        caller: Option<Principal>): (r: Outcome)
    ensures r.status == 404 <==> !hasFile
    ensures r.status == 500 <==> hasFile && (caller.None? || (CallerIsStaff(caller) && upload.None?))
    ensures r.status == 403 <==> hasFile && caller.Some? && !IsStaff(caller.value.role)
    ensures r.status == 200 <==> hasFile && CallerIsStaff(caller) && upload.Some?
    ensures r.status != 200 ==> r.assets == assets
    ensures r.status == 200 ==>
      var a := AssetsOrEmpty(assets);
      r.assets == Some(a.(filesLinks := PushRecent(a.filesLinks, upload.value)))
  {
    if !hasFile then Outcome(assets, 404)
    else if caller.None? then Outcome(assets, 500)
    else if !IsStaff(caller.value.role) then Outcome(assets, 403)
    else if upload.None? then Outcome(assets, 500)
    else
      var a := AssetsOrEmpty(assets);
      Outcome(Some(a.(filesLinks := PushRecent(a.filesLinks, upload.value))), 200)
  }

  /** The log is always the ten most recent uploads of the whole history:
      trimming after every push is the same as trimming once at the end. */
  lemma FilesLogIsRecentHistory(history: seq<string>, url: string)
    ensures PushRecent(LastN(history, 10), url) == LastN(history + [url], 10)
  {
    var a, b := PushRecent(LastN(history, 10), url), LastN(history + [url], 10);
    assert |a| == |b|;
    forall i | 0 <= i < |a|
      ensures a[i] == b[i]
    {
    }
  }

  /** getFilesLinks: 404 only while no assets document exists. */
  function GetFilesLinks(assets: Option<Assets>): (r: Result<seq<string>>)
    ensures r.Fail? <==> assets.None?
    ensures r.Fail? ==> r.status == 404
    ensures r.Ok? ==> r.value == assets.value.filesLinks
  {
    if assets.None? then Fail(404) else Ok(assets.value.filesLinks)
  }

  // ---------------------------------------------------------------------------
  // Movie releases and movie collections

  /** The two append/edit/delete-by-id lists. */
  datatype MovieList = Releases | Collections

  function Entries(a: Assets, l: MovieList): seq<MovieEntry>
  {
    match l
    case Releases => a.movieReleases
    case Collections => a.movieCollections
  }

  function WithEntries(a: Assets, l: MovieList, s: seq<MovieEntry>): (r: Assets)
    ensures Entries(r, l) == s
    ensures forall m :: m != l ==> Entries(r, m) == Entries(a, m)
  {
    match l
    case Releases => a.(movieReleases := s)
    case Collections => a.(movieCollections := s)
  }

  /** `after` differs from `before` at most in movie list `l`. */
  ghost predicate OnlyEntriesChanged(before: Assets, after: Assets, l: MovieList)
  {
    WithEntries(after, l, Entries(before, l)) == before
  }

  /** No two entries share an id. */
  ghost predicate UniqueIds(s: seq<MovieEntry>)
  {
    forall i, j :: 0 <= i < j < |s| ==> s[i].id != s[j].id
  }

  /** addMovieReleases (`movie`, `date`, `category`) and addMovieCollections
      (`movie2`, `amount`, `category2`): each field must be truthy, in that
      order (404), then a caller (404) who is an admin or writer (403); the new
      entry gets the fresh id `freshId` and goes at the end. */
  function AddMovie(assets: Option<Assets>, l: MovieList, movie: Field, detail: Field, category: Field,
                    caller: Option<Principal>, freshId: string): (r: Outcome)
    ensures r.status == 200 <==> Truthy(movie) && Truthy(detail) && Truthy(category) && CallerIsStaff(caller)
    ensures r.status == 404 <==> !Truthy(movie) || !Truthy(detail) || !Truthy(category) || caller.None?
    ensures r.status != 200 ==> r.assets == assets
    ensures r.status == 200 ==>
      r.assets.Some?
      && Entries(r.assets.value, l) == Entries(AssetsOrEmpty(assets), l) + [MovieEntry(freshId, movie.value, detail.value, category.value)]
      && OnlyEntriesChanged(AssetsOrEmpty(assets), r.assets.value, l)
  {
    if !Truthy(movie) then Outcome(assets, 404)
    else if !Truthy(detail) then Outcome(assets, 404)
    else if !Truthy(category) then Outcome(assets, 404)
    else if caller.None? then Outcome(assets, 404)
    else if !IsStaff(caller.value.role) then Outcome(assets, 403)
    else
      var a := AssetsOrEmpty(assets);
      var entry := MovieEntry(freshId, movie.value, detail.value, category.value);
      Outcome(Some(WithEntries(a, l, Entries(a, l) + [entry])), 200)
  }

  /** With a fresh id, adding keeps the ids of a list distinct. */
  lemma AddMovieKeepsIdsUnique(assets: Option<Assets>, l: MovieList, movie: Field, detail: Field, category: Field,
                               caller: Option<Principal>, freshId: string)
    requires UniqueIds(Entries(AssetsOrEmpty(assets), l))
    requires forall e :: e in Entries(AssetsOrEmpty(assets), l) ==> e.id != freshId
    ensures var r := AddMovie(assets, l, movie, detail, category, caller, freshId);
            r.assets.Some? ==> UniqueIds(Entries(r.assets.value, l))
  {
    var r := AddMovie(assets, l, movie, detail, category, caller, freshId);
    if r.status == 200 {
      var s := Entries(r.assets.value, l);
      forall i, j | 0 <= i < j < |s|
        ensures s[i].id != s[j].id
      {
        if j == |s| - 1 {
          assert s[i] in Entries(AssetsOrEmpty(assets), l);
        }
      }
    }
  }

  /** getMovieReleases / getMovieCollections: the list newest first, i.e.
      reversed, leaving the stored order alone; 404 without a document. */
  function GetMovies(assets: Option<Assets>, l: MovieList): (r: Result<seq<MovieEntry>>)
    ensures r.Fail? <==> assets.None?
    ensures r.Fail? ==> r.status == 404
    ensures r.Ok? ==>
      var s := Entries(assets.value, l);
      |r.value| == |s| && forall i :: 0 <= i < |s| ==> r.value[i] == s[|s| - 1 - i]
  {
    if assets.None? then Fail(404) else Ok(Reverse(Entries(assets.value, l)))
  }

  /** An added entry is the first one the next read returns. */
  lemma AddThenGetMovies(assets: Option<Assets>, l: MovieList, movie: string, detail: string, category: string,
                         caller: Principal, freshId: string)
    requires movie != "" && detail != "" && category != "" && IsStaff(caller.role)
    ensures var w := AddMovie(assets, l, Some(movie), Some(detail), Some(category), Some(caller), freshId);
            var g := GetMovies(w.assets, l);
            g.Ok? && |g.value| > 0 && g.value[0] == MovieEntry(freshId, movie, detail, category)
  {
  }

  /** Reading the reversed list in reverse gives the stored order back. */
  lemma GetMoviesStoredOrder(a: Assets, l: MovieList)
    ensures Reverse(GetMovies(Some(a), l).value) == Entries(a, l)
  {
    ReverseInvolution(Entries(a, l));
  }

  /** The index of the first entry with id `id` (`Array.prototype.find`). */
  function FirstWithId(s: seq<MovieEntry>, id: string): (r: Option<nat>)
    ensures r.Some? ==> r.value < |s| && s[r.value].id == id && forall j :: 0 <= j < r.value ==> s[j].id != id
    ensures r.None? ==> forall j :: 0 <= j < |s| ==> s[j].id != id
  {
    if |s| == 0 then None
    else if s[0].id == id then Some(0)
    else
      var k := FirstWithId(s[1..], id);
      if k.Some? then Some(k.value + 1) else None
  }

  /** The entry with each truthy field replaced. */
  function Patch(e: MovieEntry, movie: Field, detail: Field, category: Field): MovieEntry
  {
    MovieEntry(
      e.id,
      if Truthy(movie) then movie.value else e.movie,
      if Truthy(detail) then detail.value else e.detail,
      if Truthy(category) then category.value else e.category)
  }

  /** editMovieRelease / editMovieCollection. Checks, in order: some field to
      change (400), a caller (404), admin or writer (403), the document (404).
      The id is compared with `id.toString()` inside the search callback, so a
      missing id fails with 500 exactly when the list is non-empty, and an
      empty list is "not found" (404). Only the first entry with that id
      changes, and only in its truthy fields. */
  function EditMovie(assets: Option<Assets>, l: MovieList, movie: Field, detail: Field, category: Field,
                     id: Field, caller: Option<Principal>): (r: Outcome)
    ensures r.status == 400 <==> !Truthy(movie) && !Truthy(detail) && !Truthy(category)
    ensures r.status == 200 <==>
      (Truthy(movie) || Truthy(detail) || Truthy(category)) && CallerIsStaff(caller) && assets.Some?
      && id.Some? && exists e :: e in Entries(assets.value, l) && e.id == id.value
    ensures r.status == 403 <==> (Truthy(movie) || Truthy(detail) || Truthy(category)) && caller.Some? && !IsStaff(caller.value.role)
    ensures r.status == 404 <==>
      (Truthy(movie) || Truthy(detail) || Truthy(category)) &&
      (caller.None? ||
       (CallerIsStaff(caller) &&
        (assets.None? || |Entries(assets.value, l)| == 0 ||
         (id.Some? && forall e :: e in Entries(assets.value, l) ==> e.id != id.value))))
    ensures r.status == 500 <==>
      (Truthy(movie) || Truthy(detail) || Truthy(category)) && CallerIsStaff(caller)
      && assets.Some? && |Entries(assets.value, l)| > 0 && id.None?
    ensures r.status != 200 ==> r.assets == assets
    ensures r.status == 200 ==> (assets.Some? && r.assets.Some? &&
      var before := Entries(assets.value, l);
      var after := Entries(r.assets.value, l);
      && OnlyEntriesChanged(assets.value, r.assets.value, l)
      && |after| == |before|
      && exists k :: 0 <= k < |before| && before[k].id == id.value
           && (forall j :: 0 <= j < k ==> before[j].id != id.value)
           && after[k].id == id.value
           && after[k].movie == (if Truthy(movie) then movie.value else before[k].movie)
           && after[k].detail == (if Truthy(detail) then detail.value else before[k].detail)
           && after[k].category == (if Truthy(category) then category.value else before[k].category)
           && forall j :: 0 <= j < |before| && j != k ==> after[j] == before[j])
  {
    if !Truthy(movie) && !Truthy(detail) && !Truthy(category) then Outcome(assets, 400)
    else if caller.None? then Outcome(assets, 404)
    else if !IsStaff(caller.value.role) then Outcome(assets, 403)
    else if assets.None? then Outcome(assets, 404)
    else
      var s := Entries(assets.value, l);
      if |s| == 0 then Outcome(assets, 404)
      else if id.None? then Outcome(assets, 500)
      else
        var k := FirstWithId(s, id.value);
        if k.None? then Outcome(assets, 404)
        else
          var s' := s[k.value := Patch(s[k.value], movie, detail, category)];
          Outcome(Some(WithEntries(assets.value, l, s')), 200)
  }

  /** An edit never changes an id, so distinct ids stay distinct. */
  lemma EditMovieKeepsIdsUnique(assets: Option<Assets>, l: MovieList, movie: Field, detail: Field, category: Field,
                                id: Field, caller: Option<Principal>)
    requires assets.Some? ==> UniqueIds(Entries(assets.value, l))
    ensures var r := EditMovie(assets, l, movie, detail, category, id, caller);
            r.assets.Some? ==> UniqueIds(Entries(r.assets.value, l))
  {
    var r := EditMovie(assets, l, movie, detail, category, id, caller);
    if r.status == 200 {
      var before, after := Entries(assets.value, l), Entries(r.assets.value, l);
      var k :| 0 <= k < |before| && before[k].id == id.value && after[k].id == id.value
               && forall j :: 0 <= j < |before| && j != k ==> after[j] == before[j];
      assert forall j :: 0 <= j < |after| ==> after[j].id == before[j].id;
    }
  }

  /** A staff edit of an id that is present replaces the first entry with
      that id by its patched copy. */
  lemma EditMoviePatchesFirst(a: Assets, l: MovieList, movie: Field, detail: Field, category: Field,
                              id: string, caller: Principal)
    requires IsStaff(caller.role)
    requires Truthy(movie) || Truthy(detail) || Truthy(category)
    requires FirstWithId(Entries(a, l), id).Some?
    ensures var s, k := Entries(a, l), FirstWithId(Entries(a, l), id).value;
            EditMovie(Some(a), l, movie, detail, category, Some(id), Some(caller))
              == Outcome(Some(WithEntries(a, l, s[k := Patch(s[k], movie, detail, category)])), 200)
  {
  }

  /** The reversed read of a list with one entry replaced holds the new entry,
      and nothing else that was not there before. */
  lemma ReadAfterReplace(s: seq<MovieEntry>, k: nat, p: MovieEntry)
    requires k < |s|
    ensures p in Reverse(s[k := p])
    ensures forall x :: x in Reverse(s[k := p]) && x != p ==> x in s
  {
    var t := s[k := p];
    var g := Reverse(t);
    assert g[|t| - 1 - k] == p;
    forall x | x in g && x != p
      ensures x in s
    {
      var m :| 0 <= m < |g| && g[m] == x;
      assert x == t[|t| - 1 - m];
    }
  }

  /** The first entry with the id of a member of a list whose ids are unique is
      that member. */
  lemma FirstWithUniqueId(s: seq<MovieEntry>, e: MovieEntry)
    requires e in s && UniqueIds(s)
    ensures FirstWithId(s, e.id).Some? && s[FirstWithId(s, e.id).value] == e
  {
    var i :| 0 <= i < |s| && s[i] == e;
    var found := FirstWithId(s, e.id);
    assert found.Some?;
    assert found.value == i;
  }

  /** After a staff edit of a stored entry (ids unique), the next read shows
      the entry with exactly its truthy fields replaced, and every other entry
      it shows was already stored. */
  lemma EditThenGetMovies(a: Assets, l: MovieList, e: MovieEntry, movie: Field, detail: Field, category: Field,
                          caller: Principal)
    requires IsStaff(caller.role)
    requires Truthy(movie) || Truthy(detail) || Truthy(category)
    requires e in Entries(a, l) && UniqueIds(Entries(a, l))
    ensures var w := EditMovie(Some(a), l, movie, detail, category, Some(e.id), Some(caller));
            var g := GetMovies(w.assets, l);
            w.status == 200 && g.Ok? && Patch(e, movie, detail, category) in g.value
            && forall x :: x in g.value && x.id != e.id ==> x in Entries(a, l)
  {
    var before := Entries(a, l);
    FirstWithUniqueId(before, e);
    EditMoviePatchesFirst(a, l, movie, detail, category, e.id, caller);
    ReadAfterReplace(before, FirstWithId(before, e.id).value, Patch(e, movie, detail, category));
  }

  /** The entries whose id is not `id`, in their original order. */
  function RemoveId(s: seq<MovieEntry>, id: string): (r: seq<MovieEntry>)
    ensures forall e :: e in r <==> e in s && e.id != id
    ensures Subseq(r, s)
    ensures |r| == |s| <==> forall e :: e in s ==> e.id != id
  {
    var p := (e: MovieEntry) => e.id != id;
    FilterDropsRejected(s, p);
    if forall e :: e in s ==> e.id != id then
      FilterKeepsAll(s, p);
      Filter(s, p)
    else
      Filter(s, p)
  }

  /** Removing the id of an entry appended with a fresh id undoes the append. */
  lemma RemoveFreshId(s: seq<MovieEntry>, e: MovieEntry)
    requires forall x :: x in s ==> x.id != e.id
    ensures RemoveId(s + [e], e.id) == s
  {
    var p := (x: MovieEntry) => x.id != e.id;
    FilterAppend(s, [e], p);
    FilterKeepsAll(s, p);
    assert Filter([e], p) == [];
  }

  lemma WithEntriesRestore(a: Assets, l: MovieList, s: seq<MovieEntry>)
    ensures WithEntries(WithEntries(a, l, s), l, Entries(a, l)) == a
  {
  }

  /** deleteMovieRelease / deleteMovieCollection: every entry with the id is
      removed; when none is, the handler answers 404 and saves nothing. */
  function DeleteMovie(assets: Option<Assets>, l: MovieList, id: string, caller: Option<Principal>): (r: Outcome)
    ensures r.status == 200 <==>
      CallerIsStaff(caller) && assets.Some? && exists e :: e in Entries(assets.value, l) && e.id == id
    ensures r.status == 403 <==> caller.Some? && !IsStaff(caller.value.role)
    ensures r.status == 404 <==>
      caller.None? || (CallerIsStaff(caller) && (assets.None? || forall e :: e in Entries(assets.value, l) ==> e.id != id))
    ensures r.status != 200 ==> r.assets == assets
    ensures r.status == 200 ==>
      r.assets == Some(WithEntries(assets.value, l, RemoveId(Entries(assets.value, l), id)))
  {
    if caller.None? then Outcome(assets, 404)
    else if !IsStaff(caller.value.role) then Outcome(assets, 403)
    else if assets.None? then Outcome(assets, 404)
    else
      var s := Entries(assets.value, l);
      var kept := RemoveId(s, id);
      if |kept| == |s| then Outcome(assets, 404)
      else Outcome(Some(WithEntries(assets.value, l, kept)), 200)
  }

  /** Deleting an id after adding it with that (fresh) id removes exactly the
      added entry. */
  lemma AddThenDeleteMovie(a: Assets, l: MovieList, movie: string, detail: string, category: string,
                           caller: Principal, freshId: string)
    requires movie != "" && detail != "" && category != "" && IsStaff(caller.role)
    requires forall e :: e in Entries(a, l) ==> e.id != freshId
    ensures var w := AddMovie(Some(a), l, Some(movie), Some(detail), Some(category), Some(caller), freshId);
            var d := DeleteMovie(w.assets, l, freshId, Some(caller));
            d.status == 200 && d.assets == Some(a)
  {
    var e := MovieEntry(freshId, movie, detail, category);
    var s := Entries(a, l);
    var w := WithEntries(a, l, s + [e]);
    assert AddMovie(Some(a), l, Some(movie), Some(detail), Some(category), Some(caller), freshId).assets == Some(w);
    RemoveFreshId(s, e);
    WithEntriesRestore(a, l, s + [e]);
    assert e in Entries(w, l);
  }

  // ---------------------------------------------------------------------------
  // Posters and advertisement slots (no authentication on these routes)

  datatype PosterSlot = PopupPoster | MoviePoster | NavbarAd

  function PosterIn(p: Posters, slot: PosterSlot): Banner
  {
    match slot
    case PopupPoster => p.popupPoster
    case MoviePoster => p.moviePoster
    case NavbarAd => p.navbarAd
  }

  function WithPoster(p: Posters, slot: PosterSlot, b: Banner): (r: Posters)
    ensures PosterIn(r, slot) == b
    ensures forall s :: s != slot ==> PosterIn(r, s) == PosterIn(p, s)
  {
    match slot
    case PopupPoster => p.(popupPoster := b)
    case MoviePoster => p.(moviePoster := b)
    case NavbarAd => p.(navbarAd := b)
  }

  /** setPopupPoster / setMoviePoster / setNavbarAd: both img and link must be
      truthy (400); the update does not upsert, so without a document the
      handler answers 404 and creates nothing. */
  function SetPoster(assets: Option<Assets>, slot: PosterSlot, img: Field, link: Field): (r: Outcome)
    ensures r.status == 400 <==> !Truthy(img) || !Truthy(link)
    ensures r.status == 404 <==> Truthy(img) && Truthy(link) && assets.None?
    ensures r.status == 200 <==> Truthy(img) && Truthy(link) && assets.Some?
    ensures r.status != 200 ==> r.assets == assets
    ensures r.status == 200 ==>
      r.assets == Some(assets.value.(posters := WithPoster(assets.value.posters, slot, Banner(img.value, link.value))))
  {
    if !Truthy(img) || !Truthy(link) then Outcome(assets, 400)
    else if assets.None? then Outcome(assets, 404)
    else Outcome(Some(assets.value.(posters := WithPoster(assets.value.posters, slot, Banner(img.value, link.value)))), 200)
  }

  /** getPopupPoster / getMoviePoster / getNavbarAd. */
  function GetPoster(assets: Option<Assets>, slot: PosterSlot): (r: Result<Banner>)
    ensures r.Fail? <==> assets.None?
    ensures r.Fail? ==> r.status == 404
  {
    if assets.None? then Fail(404) else Ok(PosterIn(assets.value.posters, slot))
  }

  /** A poster that was set is read back, and the other slots keep theirs. */
  lemma SetThenGetPoster(a: Assets, slot: PosterSlot, other: PosterSlot, img: string, link: string)
    requires img != "" && link != ""
    ensures var w := SetPoster(Some(a), slot, Some(img), Some(link));
            GetPoster(w.assets, slot) == Ok(Banner(img, link))
            && (other != slot ==> GetPoster(w.assets, other) == GetPoster(Some(a), other))
  {
  }

  datatype AdSlot = HomeLongAd | HomeShortAd | CategoryLongAd | CategoryShortAd | NewsLongAd | NewsShortAd

  function AdIn(ads: Ads, slot: AdSlot): Banner
  {
    match slot
    case HomeLongAd => ads.homeLongAd
    case HomeShortAd => ads.homeShortAd
    case CategoryLongAd => ads.categoryLongAd
    case CategoryShortAd => ads.categoryShortAd
    case NewsLongAd => ads.newsLongAd
    case NewsShortAd => ads.newsShortAd
  }

  function WithAd(ads: Ads, slot: AdSlot, b: Banner): (r: Ads)
    ensures AdIn(r, slot) == b
    ensures forall s :: s != slot ==> AdIn(r, s) == AdIn(ads, s)
  {
    match slot
    case HomeLongAd => ads.(homeLongAd := b)
    case HomeShortAd => ads.(homeShortAd := b)
    case CategoryLongAd => ads.(categoryLongAd := b)
    case CategoryShortAd => ads.(categoryShortAd := b)
    case NewsLongAd => ads.(newsLongAd := b)
    case NewsShortAd => ads.(newsShortAd := b)
  }

  /** The six ad setters: both img and link must be truthy (400); the update
      upserts, so it never fails for want of a document. */
  function SetAd(assets: Option<Assets>, slot: AdSlot, img: Field, link: Field): (r: Outcome)
    ensures r.status == 400 <==> !Truthy(img) || !Truthy(link)
    ensures r.status == 200 <==> Truthy(img) && Truthy(link)
    ensures r.status != 200 ==> r.assets == assets
    ensures r.status == 200 ==>
      var a := AssetsOrEmpty(assets);
      r.assets == Some(a.(ads := WithAd(a.ads, slot, Banner(img.value, link.value))))
  {
    if !Truthy(img) || !Truthy(link) then Outcome(assets, 400)
    else
      var a := AssetsOrEmpty(assets);
      Outcome(Some(a.(ads := WithAd(a.ads, slot, Banner(img.value, link.value)))), 200)
  }

  /** The six ad getters: 404 only while no document exists. */
  function GetAd(assets: Option<Assets>, slot: AdSlot): (r: Result<Banner>)
    ensures r.Fail? <==> assets.None?
    ensures r.Fail? ==> r.status == 404
  {
    if assets.None? then Fail(404) else Ok(AdIn(assets.value.ads, slot))
  }

  /** An ad that was set is read back whatever was stored before, even
      nothing, and the other five slots keep what the stored document (or the
      fresh, defaulted one) holds. */
  lemma SetThenGetAd(assets: Option<Assets>, slot: AdSlot, other: AdSlot, img: string, link: string)
    requires img != "" && link != ""
    ensures var w := SetAd(assets, slot, Some(img), Some(link));
            GetAd(w.assets, slot) == Ok(Banner(img, link))
            && (other != slot ==> GetAd(w.assets, other) == Ok(AdIn(AssetsOrEmpty(assets).ads, other)))
  {
  }

  /** An ad that was set is read back, even on an empty database; a poster
      set on an empty database fails instead. */
  lemma AdsUpsertPostersDoNot(slot: AdSlot, pslot: PosterSlot, img: string, link: string)
    requires img != "" && link != ""
    ensures GetAd(SetAd(None, slot, Some(img), Some(link)).assets, slot) == Ok(Banner(img, link))
    ensures SetPoster(None, pslot, Some(img), Some(link)).status == 404
    ensures GetPoster(SetPoster(None, pslot, Some(img), Some(link)).assets, pslot).Fail?
  {
  }
}

=== FILE: gallery.dfy ===
/** The gallery handlers of controllers/galleryController.js: posting a
    gallery with its uploaded pictures, the filtered listing, one gallery with
    suggestions, and editing and deleting with their authorisation rules. */
module Galleries {
  import opened Common
  import opened Store
  import opened Ordering

  /** The gallery collection a handler leaves behind, with the status and
      message of its response. */
  datatype Reply = Reply(galleries: map<Id, Gallery>, status: int, message: string)

  /** A gallery's creation time, the key of the newest-first listings. */
  function GalleryAt(g: Gallery): int
  {
    g.createdAt
  }

  // ---------------------------------------------------------------------------
  // addGallery

  /** What addGallery answers, in order, for each missing field. */
  const AddGalleryPrompts: seq<string> := ["Write title!", "Write name!", "Write something in description!", "Select category!"]

  /** The picture URLs of the uploads, one per file in upload order, or
      `None` when some upload fails (`uploads[i]` is what uploading the
      `i`-th file returns). */
  function Pictures(uploads: seq<Option<string>>): (r: Option<seq<string>>)
    ensures r.Some? <==> forall i :: 0 <= i < |uploads| ==> uploads[i].Some?
    ensures r.Some? ==> |r.value| == |uploads| && forall i :: 0 <= i < |uploads| ==> r.value[i] == uploads[i].value
  {
    if |uploads| == 0 then Some([])
    else if uploads[0].None? then None
    else match Pictures(uploads[1..])
      case None => None
      case Some(rest) => Some([uploads[0].value] + rest)
  }

  /** addGallery: title, name, description, category and the caller are
      checked in that order (404 each); a caller whose account is gone makes
      `currentUser.role` throw (500); an inactive admin or writer is turned
      away (404). Then every file is uploaded (a failed upload is a 500) and
      the gallery stored. */
  function AddGallery(galleries: map<Id, Gallery>, users: map<Id, User>, title: Field, name: Field, description: Field,
                      category: Field, caller: Option<Principal>, uploads: seq<Option<string>>,
                      freshId: Id, now: int): (r: Reply)
    requires freshId !in galleries
    ensures FirstMissing([title, name, description, category], AddGalleryPrompts, caller).Some? ==>
      r.status == 404 && r.message == FirstMissing([title, name, description, category], AddGalleryPrompts, caller).value
    ensures r.status == 404 <==>
      FirstMissing([title, name, description, category], AddGalleryPrompts, caller).Some? || InactiveStaff(CurrentUser(users, caller))
    ensures r.status == 200 <==>
      && FirstMissing([title, name, description, category], AddGalleryPrompts, caller).None?
      && CurrentUser(users, caller).Some? && !InactiveStaff(CurrentUser(users, caller))
      && Pictures(uploads).Some?
    ensures r.status == 200 ==> Truthy(title) && Truthy(name) && Truthy(description) && Truthy(category) && caller.Some?
    ensures r.status != 200 ==> r.galleries == galleries
    ensures r.status == 200 ==>
      r.galleries == galleries[freshId := Gallery(Some(caller.value.id), name.value, title.value, description.value,
                                                  category.value, Pictures(uploads).value, [], now)]
  {
    var fields := [title, name, description, category];
    assert fields[0] == title && fields[1] == name && fields[2] == description && fields[3] == category;
    match FirstMissing(fields, AddGalleryPrompts, caller)
    case Some(why) => Reply(galleries, 404, why)
    case None =>
      if CurrentUser(users, caller).None? then Reply(galleries, 500, NullRole)
      else if InactiveStaff(CurrentUser(users, caller)) then Reply(galleries, 404, "You don't have permission to post!")
      else match Pictures(uploads)
        case None => Reply(galleries, 500, "upload failed")
        case Some(pics) =>
          Reply(galleries[freshId := Gallery(Some(caller.value.id), name.value, title.value, description.value,
                                             category.value, pics, [], now)], 200, "Gallery added successfully")
  }

  /** A missing item is refused with its prompt and 404, storing nothing. */
  lemma AddGalleryRefusesMissing(galleries: map<Id, Gallery>, users: map<Id, User>, title: Field, name: Field,
                        description: Field, category: Field, caller: Option<Principal>,
                        uploads: seq<Option<string>>, freshId: Id, now: int, why: string)
    requires freshId !in galleries
    requires FirstMissing([title, name, description, category], AddGalleryPrompts, caller) == Some(why)
    ensures AddGallery(galleries, users, title, name, description, category, caller, uploads, freshId, now) == Reply(galleries, 404, why)
  {
  }

  /** addGallery asks for the missing fields in the order title, name,
      description, category, then for the caller, each with its own
      message. */
  lemma AddGalleryAsksInOrder(galleries: map<Id, Gallery>, users: map<Id, User>, title: Field, name: Field,
                              description: Field, category: Field, caller: Option<Principal>,
                              uploads: seq<Option<string>>, freshId: Id, now: int)
    requires freshId !in galleries
    ensures var r := AddGallery(galleries, users, title, name, description, category, caller, uploads, freshId, now);
      && (!Truthy(title) ==> r.status == 404 && r.message == "Write title!")
      && (Truthy(title) && !Truthy(name) ==> r.status == 404 && r.message == "Write name!")
      && (Truthy(title) && Truthy(name) && !Truthy(description) ==>
            r.status == 404 && r.message == "Write something in description!")
      && (Truthy(title) && Truthy(name) && Truthy(description) && !Truthy(category) ==>
            r.status == 404 && r.message == "Select category!")
      && (Truthy(title) && Truthy(name) && Truthy(description) && Truthy(category) && caller.None? ==>
            r.status == 404 && r.message == "User not found!")
  {
    FirstMissingOfFour(title, name, description, category, AddGalleryPrompts, caller);
    var w := FirstMissing([title, name, description, category], AddGalleryPrompts, caller);
    if w.Some? {
      AddGalleryRefusesMissing(galleries, users, title, name, description, category, caller, uploads, freshId, now, w.value);
    }
    assert AddGalleryPrompts[0] == "Write title!" && AddGalleryPrompts[1] == "Write name!";
    assert AddGalleryPrompts[2] == "Write something in description!" && AddGalleryPrompts[3] == "Select category!";
  }

  /** A stored gallery keeps one picture per uploaded file, in upload order. */
  lemma PicturesInUploadOrder(galleries: map<Id, Gallery>, users: map<Id, User>, title: Field, name: Field,
                              description: Field, category: Field, caller: Option<Principal>, urls: seq<string>,
                              freshId: Id, now: int)
    requires freshId !in galleries
    ensures var uploads := seq(|urls|, i requires 0 <= i < |urls| => Some(urls[i]));
            var r := AddGallery(galleries, users, title, name, description, category, caller, uploads, freshId, now);
            r.status == 200 ==> r.galleries[freshId].galleryPics == urls
  {
    var uploads := seq(|urls|, i requires 0 <= i < |urls| => Some(urls[i]));
    var r := AddGallery(galleries, users, title, name, description, category, caller, uploads, freshId, now);
    if r.status == 200 {
      assert Pictures(uploads).value == urls;
    }
  }

  // ---------------------------------------------------------------------------
  // getGalleryByQuery

  /** The `postedTime` presets of getGalleryByQuery, in the order
      `PresetBound` reads them: "above6months" is the complement of
      "last6months". */
  const PostedPresets: seq<string> := ["last24h", "last1week", "last1month", "last6months", "above6months"]

  /** The whole getGalleryByQuery query: the category matches exactly when
      given, the search text (`hit`) matches the name, title or description,
      and the date bound holds. */
  predicate QueryMatch(d: Doc<Gallery>, category: Field, searchText: Field, bound: DateBound,
                       hit: string -> bool, cutoff: Span -> int)
  {
    && (Truthy(category) ==> d.body.category == category.value)
    && (Truthy(searchText) ==> hit(d.body.name) || hit(d.body.title) || hit(d.body.description))
    && WithinBound(d.body.createdAt, bound, cutoff)
  }

  /** getGalleryByQuery: the matching galleries, newest first. */
  function GetGalleryByQuery(galleries: map<Id, Gallery>, order: seq<Id>, category: Field, searchText: Field,
                             postedTime: Field, hit: string -> bool, cutoff: Span -> int): (r: seq<Doc<Gallery>>)
    requires IsNaturalOrder(order, galleries)
    ensures forall d :: d in r <==>
      d in Rows(order, galleries) && QueryMatch(d, category, searchText, PresetBound(postedTime, PostedPresets), hit, cutoff)
    ensures forall d ::
      multiset(r)[d] == if d in Rows(order, galleries) && QueryMatch(d, category, searchText, PresetBound(postedTime, PostedPresets), hit, cutoff) then 1 else 0
    ensures forall i, j :: 0 <= i < j < |r| ==> r[i].body.createdAt >= r[j].body.createdAt
  {
    var bound := PresetBound(postedTime, PostedPresets);
    var keep := (d: Doc<Gallery>) => QueryMatch(d, category, searchText, bound, hit, cutoff);
    ListedOnce(order, galleries, keep, GalleryAt);
    ListNewest(Rows(order, galleries), keep, GalleryAt)
  }

  /** "last6months" and "above6months" split every otherwise-matching
      gallery between them. */
  lemma HalfYearPartition(galleries: map<Id, Gallery>, order: seq<Id>, category: Field, searchText: Field,
                          hit: string -> bool, cutoff: Span -> int, d: Doc<Gallery>)
    requires IsNaturalOrder(order, galleries)
    requires d in Rows(order, galleries) && QueryMatch(d, category, searchText, NoBound, hit, cutoff)
    ensures var recent := GetGalleryByQuery(galleries, order, category, searchText, Some("last6months"), hit, cutoff);
            var older := GetGalleryByQuery(galleries, order, category, searchText, Some("above6months"), hit, cutoff);
            d in recent <==> d !in older
  {
    var recent := GetGalleryByQuery(galleries, order, category, searchText, Some("last6months"), hit, cutoff);
    var older := GetGalleryByQuery(galleries, order, category, searchText, Some("above6months"), hit, cutoff);
    HalfYearPresets();
    var six, above := AtLeast(HalfYear), Before(HalfYear);
    Listed(galleries, order, category, searchText, Some("last6months"), hit, cutoff, d, six, recent);
    Listed(galleries, order, category, searchText, Some("above6months"), hit, cutoff, d, above, older);
    HalfYearSplits(d, category, searchText, hit, cutoff, six, above);
  }

  /** The two half-year presets of getGalleryByQuery. */
  lemma HalfYearPresets()
    ensures PresetBound(Some("last6months"), PostedPresets) == AtLeast(HalfYear)
    ensures PresetBound(Some("above6months"), PostedPresets) == Before(HalfYear)
  {
    assert PostedPresets[3] == "last6months" && PostedPresets[4] == "above6months";
  }

  /** A gallery that passes every other condition passes exactly one of the
      half-year bounds. */
  lemma HalfYearSplits(d: Doc<Gallery>, category: Field, searchText: Field,
                       hit: string -> bool, cutoff: Span -> int, six: DateBound, above: DateBound)
    requires QueryMatch(d, category, searchText, NoBound, hit, cutoff)
    requires six == AtLeast(HalfYear) && above == Before(HalfYear)
    ensures QueryMatch(d, category, searchText, six, hit, cutoff)
        <==> !QueryMatch(d, category, searchText, above, hit, cutoff)
  {
  }

  /** Whether a gallery is in a getGalleryByQuery answer. */
  lemma Listed(galleries: map<Id, Gallery>, order: seq<Id>, category: Field, searchText: Field,
               postedTime: Field, hit: string -> bool, cutoff: Span -> int, d: Doc<Gallery>,
               bound: DateBound, r: seq<Doc<Gallery>>)
    requires IsNaturalOrder(order, galleries)
    requires bound == PresetBound(postedTime, PostedPresets)
    requires r == GetGalleryByQuery(galleries, order, category, searchText, postedTime, hit, cutoff)
    ensures d in r <==> d in Rows(order, galleries) && QueryMatch(d, category, searchText, bound, hit, cutoff)
  {
  }

  /** An unknown `postedTime` filters exactly as none at all. */
  lemma UnknownPresetIgnored(galleries: map<Id, Gallery>, order: seq<Id>, category: Field, searchText: Field,
                             postedTime: string, hit: string -> bool, cutoff: Span -> int)
    requires IsNaturalOrder(order, galleries)
    requires postedTime !in ["last24h", "last1week", "last1month", "last6months", "above6months"]
    ensures GetGalleryByQuery(galleries, order, category, searchText, Some(postedTime), hit, cutoff)
         == GetGalleryByQuery(galleries, order, category, searchText, None, hit, cutoff)
  {
    assert PresetBound(Some(postedTime), PostedPresets) == PresetBound(None, PostedPresets);
  }

  // ---------------------------------------------------------------------------
  // getGalleryById

  /** What getGalleryById answers with. */
  datatype GalleryPage = GalleryPage(gallery: Gallery, suggestedPosts: seq<Doc<Gallery>>)

  /** getGalleryById: 404 unless the id has 24 characters, 500 when those are
      not hexadecimal (the cast fails), 404 when there is no such gallery.
      The suggestions are the sixteen newest other galleries. */
  function GetGalleryById(galleries: map<Id, Gallery>, order: seq<Id>, postId: Field): (r: Result<GalleryPage>)
    requires IsNaturalOrder(order, galleries)
    ensures r.Ok? <==> postId.Some? && IsObjectId(postId.value) && postId.value in galleries
    ensures r.Fail? ==> r.status == (if HasIdLength(postId) && !IsObjectId(postId.value) then 500 else 404)
    ensures r.Ok? ==> r.value.gallery == galleries[postId.value]
    ensures r.Ok? ==> |r.value.suggestedPosts| <= 16
    ensures r.Ok? ==> forall d :: d in r.value.suggestedPosts ==> d in Rows(order, galleries) && d.id != postId.value
    ensures r.Ok? ==> forall i, j :: 0 <= i < j < |r.value.suggestedPosts| ==>
      r.value.suggestedPosts[i].body.createdAt >= r.value.suggestedPosts[j].body.createdAt
    ensures r.Ok? && |r.value.suggestedPosts| < 16 ==>
      forall d :: d in Rows(order, galleries) && d.id != postId.value ==> d in r.value.suggestedPosts
    ensures r.Ok? ==> forall d, e ::
      (d in Rows(order, galleries) && d.id != postId.value && d !in r.value.suggestedPosts && e in r.value.suggestedPosts)
      ==> d.body.createdAt <= e.body.createdAt
  {
    if !Truthy(postId) || |postId.value| != 24 then Fail(404)
    else if !IsObjectId(postId.value) then Fail(500)
    else if postId.value !in galleries then Fail(404)
    else
      Ok(GalleryPage(galleries[postId.value], NewestOthers(Rows(order, galleries), postId.value, 16, GalleryAt)))
  }

  // ---------------------------------------------------------------------------
  // editGallery and deleteGallery

  /** The checks editGallery and deleteGallery share once the caller is
      known: the account must exist (500 otherwise), not be an inactive admin
      or writer (404), the id must be an ObjectId (500) of an existing gallery
      (404) that has a poster (`postedBy.toString()` throws otherwise: 500),
      and the caller must be the poster or an admin or writer (403). */
  function OwnerCheck(galleries: map<Id, Gallery>, users: map<Id, User>, id: string, caller: Principal): (s: int)
    ensures s == 200 <==>
      && caller.id in users && !InactiveStaff(Some(users[caller.id]))
      && IsObjectId(id) && id in galleries && galleries[id].postedBy.Some?
      && (galleries[id].postedBy == Some(caller.id) || IsStaff(users[caller.id].role))
    ensures s == 403 <==>
      && caller.id in users && !InactiveStaff(Some(users[caller.id]))
      && IsObjectId(id) && id in galleries && galleries[id].postedBy.Some?
      && galleries[id].postedBy != Some(caller.id) && !IsStaff(users[caller.id].role)
  {
    if caller.id !in users then 500
    else if InactiveStaff(Some(users[caller.id])) then 404
    else if !IsObjectId(id) then 500
    else if id !in galleries then 404
    else if galleries[id].postedBy.None? then 500
    else if galleries[id].postedBy != Some(caller.id) && !IsStaff(users[caller.id].role) then 403
    else 200
  }

  /** The TypeError a handler throws when it reads `role` off a missing account. */
  const NullRole := "Cannot read properties of null (reading 'role')"

  /** The CastError `Gallery.findById` throws for an id that is not an ObjectId. */
  function CastMessage(id: string): string
  {
    "Cast to ObjectId failed for value \"" + id + "\" (type string) at path \"_id\" for model \"Gallery\""
  }

  /** The message that goes with each refusal of `OwnerCheck`: the thrown
      error's own text for a 500, "Gallery not found!" and "Unauthorized
      action!" for the 404 and the 403 after the lookup, and the handler's
      own text `inactive` for inactive staff. */
  function OwnerMessage(galleries: map<Id, Gallery>, users: map<Id, User>, id: string, caller: Principal,
                        inactive: string): (msg: string)
    ensures caller.id !in users ==> msg == NullRole
    ensures caller.id in users && InactiveStaff(Some(users[caller.id])) ==> msg == inactive
    ensures caller.id in users && !InactiveStaff(Some(users[caller.id])) ==>
      && (!IsObjectId(id) ==> msg == CastMessage(id))
      && (IsObjectId(id) && id !in galleries ==> msg == "Gallery not found!")
      && (IsObjectId(id) && id in galleries && galleries[id].postedBy.None? ==>
            msg == "Cannot read properties of undefined (reading 'toString')")
    ensures OwnerCheck(galleries, users, id, caller) == 403 ==> msg == "Unauthorized action!"
  {
    if caller.id !in users then NullRole
    else if InactiveStaff(Some(users[caller.id])) then inactive
    else if !IsObjectId(id) then CastMessage(id)
    else if id !in galleries then "Gallery not found!"
    else if galleries[id].postedBy.None? then "Cannot read properties of undefined (reading 'toString')"
    else "Unauthorized action!"
  }

  /** editGallery: all four fields first (404 "All fields are required!"),
      then the caller (404), then the shared checks; exactly title, name,
      description and category are overwritten. */
  function EditGallery(galleries: map<Id, Gallery>, users: map<Id, User>, id: string, title: Field, name: Field,
                       description: Field, category: Field, caller: Option<Principal>): (r: Reply)
    ensures !(Truthy(title) && Truthy(name) && Truthy(description) && Truthy(category)) ==>
      r.status == 404 && r.message == "All fields are required!"
    ensures r.status == 200 <==>
      Truthy(title) && Truthy(name) && Truthy(description) && Truthy(category)
      && caller.Some? && OwnerCheck(galleries, users, id, caller.value) == 200
    ensures Truthy(title) && Truthy(name) && Truthy(description) && Truthy(category) && caller.Some?
            && OwnerCheck(galleries, users, id, caller.value) != 200 ==>
      && r.status == OwnerCheck(galleries, users, id, caller.value)
      && r.message == OwnerMessage(galleries, users, id, caller.value, "You don't have permission to edit!")
    ensures r.status != 200 ==> r.galleries == galleries
    ensures r.status == 200 ==> id in galleries && r.galleries.Keys == galleries.Keys
    ensures r.status == 200 ==> forall k :: k in galleries && k != id ==> r.galleries[k] == galleries[k]
    ensures r.status == 200 ==>
      && r.galleries[id].(title := galleries[id].title, name := galleries[id].name,
                          description := galleries[id].description, category := galleries[id].category) == galleries[id]
      && r.galleries[id].title == title.value && r.galleries[id].name == name.value
      && r.galleries[id].description == description.value && r.galleries[id].category == category.value
  {
    if !(Truthy(title) && Truthy(name) && Truthy(description) && Truthy(category)) then
      Reply(galleries, 404, "All fields are required!")
    else if caller.None? then Reply(galleries, 404, "User not found!")
    else if OwnerCheck(galleries, users, id, caller.value) != 200 then
      Reply(galleries, OwnerCheck(galleries, users, id, caller.value),
            OwnerMessage(galleries, users, id, caller.value, "You don't have permission to edit!"))
    else
      var g := galleries[id];
      Reply(galleries[id := g.(title := title.value, name := name.value, description := description.value,
                               category := category.value)], 200, "Gallery updated successfully")
  }

  /** Once the caller's account is found and active, a missing gallery and a
      reader editing someone else's gallery are told so, and nothing changes. */
  lemma EditGalleryExplainsRefusal(galleries: map<Id, Gallery>, users: map<Id, User>, id: string, title: string,
                                   name: string, description: string, category: string, caller: Principal)
    requires title != "" && name != "" && description != "" && category != ""
    requires caller.id in users && !InactiveStaff(Some(users[caller.id])) && IsObjectId(id)
    ensures var r := EditGallery(galleries, users, id, Some(title), Some(name), Some(description), Some(category), Some(caller));
            && (id !in galleries ==> r == Reply(galleries, 404, "Gallery not found!"))
            && ((id in galleries && galleries[id].postedBy.Some? && galleries[id].postedBy != Some(caller.id)
                 && !IsStaff(users[caller.id].role)) ==> r == Reply(galleries, 403, "Unauthorized action!"))
  {
  }

  /** Any active admin or writer may edit any gallery, whoever posted it. */
  lemma StaffEditsAnyGallery(galleries: map<Id, Gallery>, users: map<Id, User>, id: string, title: string, name: string,
                             description: string, category: string, caller: Principal)
    requires title != "" && name != "" && description != "" && category != ""
    requires caller.id in users && ActiveStaff(users[caller.id])
    requires IsObjectId(id) && id in galleries && galleries[id].postedBy.Some?
    ensures EditGallery(galleries, users, id, Some(title), Some(name), Some(description), Some(category), Some(caller)).status == 200
  {
  }

  /** deleteGallery: the caller (404), then the shared checks; only the
      gallery document goes, and the assets document and every other
      collection are left as they were, so a home-page reference to the
      gallery stays behind. */
  function DeleteGallery(db: Db, id: string, caller: Option<Principal>): (r: (Db, int))
    ensures r.1 == 200 <==> caller.Some? && OwnerCheck(db.galleries, db.users, id, caller.value) == 200
    ensures r.1 != 200 ==> r.0 == db
    ensures r.1 == 200 ==> r.0 == db.(galleries := db.galleries - {id}) && id in db.galleries
  {
    if caller.None? then (db, 404)
    else if OwnerCheck(db.galleries, db.users, id, caller.value) != 200 then
      (db, OwnerCheck(db.galleries, db.users, id, caller.value))
    else (db.(galleries := db.galleries - {id}), 200)
  }

  /** Deleting the gallery the home page features leaves the reference in
      the assets document. */
  lemma DeleteKeepsAssetsReference(db: Db, id: string, caller: Principal)
    requires db.assets.Some? && db.assets.value.gallery == Some(id)
    requires OwnerCheck(db.galleries, db.users, id, caller) == 200
    ensures var r := DeleteGallery(db, id, Some(caller));
            r.1 == 200 && id !in r.0.galleries && r.0.assets.value.gallery == Some(id)
  {
  }
}

=== FILE: js.dfy ===
/** The pieces of JavaScript's built-in semantics the handlers rely on:
    the white-space class (`\s` in a regular expression, and what `parseInt`
    skips), `parseInt` without a radix, and `toLowerCase` on ASCII. */
module Js {
  import opened Common

  /** The characters of ECMAScript's WhiteSpace and LineTerminator
      productions (ECMA-262, sections 12.2 and 12.3): what `\s` matches. */
  predicate IsSpace(c: char)
  {
    var n := c as int;
    n == 0x09 || n == 0x0B || n == 0x0C || n == 0x20 || n == 0xA0 || n == 0xFEFF
    || n == 0x1680 || (0x2000 <= n <= 0x200A) || n == 0x202F || n == 0x205F || n == 0x3000
    || IsLineTerminator(c)
  }

  /** LF, CR, LINE SEPARATOR and PARAGRAPH SEPARATOR: what `.` does not match. */
  predicate IsLineTerminator(c: char)
  {
    var n := c as int;
    n == 0x0A || n == 0x0D || n == 0x2028 || n == 0x2029
  }

  /** `[A-Z]`. */
  predicate IsUpper(c: char)
  {
    'A' <= c <= 'Z'
  }

  /** `[a-z]`. */
  predicate IsLower(c: char)
  {
    'a' <= c <= 'z'
  }

  /** `\w`: ASCII letters, digits and underscore. */
  predicate IsWordChar(c: char)
  {
    IsUpper(c) || IsLower(c) || ('0' <= c <= '9') || c == '_'
  }

  /** `toLowerCase` on one character, for ASCII letters. */
  function LowerChar(c: char): (r: char)
    ensures IsUpper(c) ==> IsLower(r)
    ensures !IsUpper(c) ==> r == c
  {
    if IsUpper(c) then (c as int + 32) as char else c
  }

  /** `toLowerCase` restricted to ASCII letters. */
  function Lower(s: string): (r: string)
    ensures |r| == |s|
    ensures forall i :: 0 <= i < |s| ==> r[i] == LowerChar(s[i])
  {
    if |s| == 0 then [] else [LowerChar(s[0])] + Lower(s[1..])
  }

  /** Lower-casing twice is the same as lower-casing once. */
  lemma LowerIdempotent(s: string)
    ensures Lower(Lower(s)) == Lower(s)
  {
    var a, b := Lower(Lower(s)), Lower(s);
    assert |a| == |b|;
    forall i | 0 <= i < |a|
      ensures a[i] == b[i]
    {
    }
  }

  // ---------------------------------------------------------------------------
  // parseInt(s), section 19.2.5 of ECMA-262, for radix undefined

  /** `s` without its leading white space. */
  function TrimStart(s: string): (r: string)
    ensures |r| <= |s| && r == s[|s| - |r|..]
    ensures |r| > 0 ==> !IsSpace(r[0])
    ensures forall i :: 0 <= i < |s| - |r| ==> IsSpace(s[i])
  {
    if |s| > 0 && IsSpace(s[0]) then TrimStart(s[1..]) else s
  }

  /** The value of `c` as a digit in base `radix` (10 or 16), if it is one. */
  function DigitValue(c: char, radix: int): (r: Option<int>)
    requires radix == 10 || radix == 16
    ensures r.Some? ==> 0 <= r.value < radix
  {
    if '0' <= c <= '9' then Some(c as int - '0' as int)
    else if radix == 16 && 'a' <= c <= 'f' then Some(c as int - 'a' as int + 10)
    else if radix == 16 && 'A' <= c <= 'F' then Some(c as int - 'A' as int + 10)
    else None
  }

  /** The length of the longest prefix of `s` made of digits. */
  function DigitRun(s: string, radix: int): (n: nat)
    requires radix == 10 || radix == 16
    ensures n <= |s|
    ensures forall i :: 0 <= i < n ==> DigitValue(s[i], radix).Some?
    ensures n < |s| ==> DigitValue(s[n], radix).None?
  {
    if |s| > 0 && DigitValue(s[0], radix).Some? then 1 + DigitRun(s[1..], radix) else 0
  }

  /** The number a string of digits denotes, most significant digit first. */
  function DigitsValue(s: string, radix: int): (v: nat)
    requires radix == 10 || radix == 16
    requires forall i :: 0 <= i < |s| ==> DigitValue(s[i], radix).Some?
  {
    if |s| == 0 then 0
    else if radix == 16 then DigitsValue(s[..|s| - 1], 16) * 16 + DigitValue(s[|s| - 1], 16).value
    else DigitsValue(s[..|s| - 1], 10) * 10 + DigitValue(s[|s| - 1], 10).value
  }

  /** `s` starts with `0x` or `0X`. */
  predicate HexPrefixed(s: string)
  {
    |s| >= 2 && s[0] == '0' && (s[1] == 'x' || s[1] == 'X')
  }

  /** The digits after the sign: hexadecimal after `0x`/`0X`, decimal
      otherwise; `None` when there are none. */
  function ParseMagnitude(u: string): (r: Option<nat>)
  {
    var radix := if HexPrefixed(u) then 16 else 10;
    var body := if HexPrefixed(u) then u[2..] else u;
    var n := DigitRun(body, radix);
    if n == 0 then None else Some(DigitsValue(body[..n], radix))
  }

  /** `parseInt(s)`: skip white space, take an optional sign and an optional
      `0x`/`0X` prefix (hexadecimal), then the longest run of digits; `None`
      is NaN (no digits at all). Magnitudes beyond double precision are not
      modelled. */
  function ParseInt(s: string): (r: Option<int>)
  {
    var t := TrimStart(s);
    var negative := |t| > 0 && t[0] == '-';
    var u := if |t| > 0 && (t[0] == '-' || t[0] == '+') then t[1..] else t;
    match ParseMagnitude(u)
    case None => None
    case Some(m) =>
      var v: int := if negative then 0 - m else m;
      Some(v)
  }

  /** `parseInt(x) || fallback` for a query parameter that may be absent:
      NaN and 0 are falsy, so both give the fallback. */
  function ParseIntOr(f: Option<string>, fallback: int): (r: int)
    ensures f.None? ==> r == fallback
    ensures f.Some? && ParseInt(f.value).None? ==> r == fallback
    ensures f.Some? && ParseInt(f.value) == Some(0) ==> r == fallback
    ensures f.Some? && ParseInt(f.value).Some? && ParseInt(f.value).value != 0 ==> r == ParseInt(f.value).value
  {
    if f.None? then fallback
    else match ParseInt(f.value)
      case None => fallback
      case Some(v) => if v == 0 then fallback else v
  }

  // ---------------------------------------------------------------------------
  // Decimal notation, the partner of parseInt

  function DigitChar(d: int): (c: char)
    requires 0 <= d < 10
    ensures DigitValue(c, 10) == Some(d)
  {
    ('0' as int + d) as char
  }

  /** The decimal notation of `n`, as `String(n)` writes it. */
  function Decimal(n: nat): (s: string)
    ensures |s| > 0
    ensures forall i :: 0 <= i < |s| ==> DigitValue(s[i], 10).Some?
    decreases n
  {
    if n < 10 then [DigitChar(n)] else Decimal(n / 10) + [DigitChar(n % 10)]
  }

  lemma {:induction false} DecimalValue(n: nat)
    ensures DigitsValue(Decimal(n), 10) == n
    decreases n
  {
    if n >= 10 {
      DecimalValue(n / 10);
      var s := Decimal(n);
      assert s[..|s| - 1] == Decimal(n / 10);
    }
  }

  /** A decimal numeral followed by a non-digit is read as that numeral. */
  lemma {:induction false} MagnitudeOfDecimal(m: nat, rest: string)
    requires |rest| > 0 ==> DigitValue(rest[0], 10).None? && rest[0] != 'x' && rest[0] != 'X'
    ensures ParseMagnitude(Decimal(m) + rest) == Some(m)
  {
    var d := Decimal(m);
    var u := d + rest;
    assert !HexPrefixed(u) by {
      if |u| >= 2 && u[0] == '0' {
        if |d| >= 2 {
          assert u[1] == d[1] && DigitValue(d[1], 10).Some?;
        } else {
          assert u[1] == rest[0];
        }
      }
    }
    DigitRunPrefix(d, rest);
    assert u[..|d|] == d;
    DecimalValue(m);
  }

  /** `parseInt` reads back what `String` writes, and stops at the first
      character after the digits that is not a digit (an `x` right after a
      lone `0` would make it hexadecimal instead). */
  lemma {:induction false} ParseIntDecimal(n: nat, rest: string)
    requires |rest| > 0 ==> DigitValue(rest[0], 10).None? && rest[0] != 'x' && rest[0] != 'X'
    ensures ParseInt(Decimal(n) + rest) == Some(n)
  {
    MagnitudeOfDecimal(n, rest);
    FirstDigit(n);
    UnsignedParse(Decimal(n) + rest);
  }

  /** The same for negative numbers, written with a leading minus sign. */
  lemma {:induction false} ParseIntNegative(n: nat, rest: string)
    requires |rest| > 0 ==> DigitValue(rest[0], 10).None? && rest[0] != 'x' && rest[0] != 'X'
    ensures ParseInt("-" + (Decimal(n) + rest)) == Some(0 - n)
  {
    var u := Decimal(n) + rest;
    MagnitudeOfDecimal(n, rest);
    var s := "-" + u;
    assert s[1..] == u;
    NegativeParse(s, n);
  }

  lemma FirstDigit(m: nat)
    ensures '0' <= Decimal(m)[0] <= '9'
  {
    assert DigitValue(Decimal(m)[0], 10).Some?;
  }

  lemma UnsignedParse(s: string)
    requires |s| > 0 && '0' <= s[0] <= '9'
    ensures ParseInt(s) == match ParseMagnitude(s) case None => None case Some(m) => Some(m as int)
  {
    assert !IsSpace(s[0]);
    assert TrimStart(s) == s;
    assert !(s[0] == '-' || s[0] == '+');
  }

  lemma NegativeParse(s: string, m: nat)
    requires |s| > 0 && s[0] == '-'
    requires ParseMagnitude(s[1..]) == Some(m)
    ensures ParseInt(s) == Some(0 - m)
  {
    assert !IsSpace(s[0]);
    assert TrimStart(s) == s;
  }

  lemma {:induction false} DigitRunPrefix(d: string, rest: string)
    requires forall i :: 0 <= i < |d| ==> DigitValue(d[i], 10).Some?
    requires |rest| > 0 ==> DigitValue(rest[0], 10).None?
    ensures DigitRun(d + rest, 10) == |d|
    decreases |d|
  {
    if |d| > 0 {
      assert (d + rest)[1..] == d[1..] + rest;
      DigitRunPrefix(d[1..], rest);
    } else {
      assert d + rest == rest;
    }
  }

  // ---------------------------------------------------------------------------
  // Number(s): StringToNumber, section 7.1.4.1.1 of ECMA-262

  /** `s` without its trailing white space. */
  function TrimEnd(s: string): (r: string)
    ensures |r| <= |s| && r == s[..|r|]
    ensures |r| > 0 ==> !IsSpace(r[|r| - 1])
    ensures forall i :: |r| <= i < |s| ==> IsSpace(s[i])
  {
    if |s| > 0 && IsSpace(s[|s| - 1]) then TrimEnd(s[..|s| - 1]) else s
  }

  /** `c` is a digit of base `radix` (2, 8, 10 or 16). */
  predicate DigitIn(c: char, radix: int)
  {
    if radix == 16 then DigitValue(c, 16).Some? else '0' <= c && (c as int) < '0' as int + radix
  }

  /** A non-empty run of digits of base `radix`. */
  predicate Digits(s: string, radix: int)
  {
    |s| > 0 && forall i :: 0 <= i < |s| ==> DigitIn(s[i], radix)
  }

  /** NonDecimalIntegerLiteral: `0x`, `0o` or `0b` (either case) and digits
      of that base; no sign is allowed. */
  predicate NonDecimalLiteral(t: string)
  {
    && |t| > 2 && t[0] == '0'
    && ((t[1] in "xX" && Digits(t[2..], 16)) || (t[1] in "oO" && Digits(t[2..], 8)) || (t[1] in "bB" && Digits(t[2..], 2)))
  }

  /** An optional ExponentPart: `e` or `E`, an optional sign, digits. */
  predicate ExponentOrEmpty(t: string)
  {
    |t| == 0 || (t[0] in "eE" && Digits(if |t| > 1 && t[1] in "+-" then t[2..] else t[1..], 10))
  }

  /** StrUnsignedDecimalLiteral: `Infinity`, or digits with an optional
      fraction, or a fraction alone, then an optional exponent. */
  predicate UnsignedDecimalLiteral(t: string)
  {
    t == "Infinity" ||
    var a := DigitRun(t, 10);
    var rest := t[a..];
    if |rest| > 0 && rest[0] == '.' then
      var b := DigitRun(rest[1..], 10);
      a + b > 0 && ExponentOrEmpty(rest[1..][b..])
    else a > 0 && ExponentOrEmpty(rest)
  }

  /** StrNumericLiteral. */
  predicate NumericLiteral(t: string)
  {
    || NonDecimalLiteral(t)
    || UnsignedDecimalLiteral(t)
    || (|t| > 0 && t[0] in "+-" && UnsignedDecimalLiteral(t[1..]))
  }

  /** `Number(s)` is a number, not NaN: after trimming white space at both
      ends, nothing is left (0) or a StrNumericLiteral. */
  predicate IsNumeric(s: string)
  {
    var t := TrimStart(TrimEnd(s));
    |t| == 0 || NumericLiteral(t)
  }

  /** A string that neither starts nor ends with white space is its own
      trimmed form. */
  lemma Untrimmed(s: string)
    requires |s| > 0 && !IsSpace(s[0]) && !IsSpace(s[|s| - 1])
    ensures TrimStart(TrimEnd(s)) == s
  {
    assert TrimEnd(s) == s;
  }

  /** A run of decimal digits alone is a StrUnsignedDecimalLiteral. */
  lemma DigitsLiteral(t: string)
    requires |t| > 0 && forall i :: 0 <= i < |t| ==> DigitValue(t[i], 10).Some?
    ensures UnsignedDecimalLiteral(t)
  {
    DigitRunPrefix(t, "");
    assert t + "" == t;
    assert t[|t|..] == "";
  }

  /** What `String(n)` writes, with or without a minus sign, reads back as a
      number. */
  lemma DecimalIsNumeric(n: nat)
    ensures IsNumeric(Decimal(n))
    ensures IsNumeric("-" + Decimal(n))
  {
    DigitsNumeric(Decimal(n));
  }

  /** A run of decimal digits, with or without a minus sign, is a number. */
  lemma DigitsNumeric(t: string)
    requires |t| > 0 && forall i :: 0 <= i < |t| ==> DigitValue(t[i], 10).Some?
    ensures IsNumeric(t) && IsNumeric("-" + t)
  {
    assert DigitValue(t[0], 10).Some? && DigitValue(t[|t| - 1], 10).Some?;
    DigitsLiteral(t);
    Untrimmed(t);
    NegatedNumeric(t);
  }

  /** A minus sign before a StrUnsignedDecimalLiteral keeps it a number. */
  lemma NegatedNumeric(t: string)
    requires |t| > 0 && !IsSpace(t[|t| - 1]) && UnsignedDecimalLiteral(t)
    ensures IsNumeric("-" + t)
  {
    var m := "-" + t;
    assert m[0] == '-' && m[|m| - 1] == t[|t| - 1];
    Untrimmed(m);
    assert m[1..] == t;
  }

  /** White space around a numeric literal is ignored. */
  lemma SpacesAround(t: string)
    requires |t| > 0 && !IsSpace(t[0]) && !IsSpace(t[|t| - 1]) && NumericLiteral(t)
    ensures IsNumeric(" " + t + " ")
  {
    var a, b := " " + t + " ", " " + t;
    assert TrimEnd(a) == b by {
      assert IsSpace(a[|a| - 1]) && a[..|a| - 1] == b;
      assert b[|b| - 1] == t[|t| - 1];
    }
    assert TrimStart(b) == t by {
      assert IsSpace(b[0]) && b[1..] == t;
    }
  }

  /** Strings `Number` reads as numbers: a fraction with white space around
      it, the empty string, a hexadecimal literal, a signed infinity, an
      exponent. */
  lemma NumericExamples()
    ensures IsNumeric(" 4.5 ") && IsNumeric("") && IsNumeric("0x1F") && IsNumeric("-Infinity") && IsNumeric("1e3")
  {
    FractionNumeric();
    HexNumeric();
    InfinityNumeric();
    ExponentNumeric();
  }

  /** A digit, a decimal point and a digit form a StrUnsignedDecimalLiteral. */
  lemma PointLiteral(t: string)
    requires |t| == 3 && '0' <= t[0] <= '9' && t[1] == '.' && '0' <= t[2] <= '9'
    ensures UnsignedDecimalLiteral(t)
  {
    var rest := t[1..];
    assert DigitRun(rest, 10) == 0 by { assert rest[0] == '.'; }
    assert DigitRun(t, 10) == 1;
    assert rest[1..] == t[2..];
    assert DigitRun(t[2..], 10) == 1 by { assert t[2..][1..] == []; }
    assert rest[1..][1..] == [];
  }

  lemma FractionNumeric()
    ensures IsNumeric(" 4.5 ")
  {
    var t := "4.5";
    PointLiteral(t);
    SpacesAround(t);
    assert " " + t + " " == " 4.5 ";
  }

  lemma HexNumeric()
    ensures IsNumeric("0x1F")
  {
    Untrimmed("0x1F");
    assert "0x1F"[2..] == "1F";
  }

  lemma InfinityNumeric()
    ensures IsNumeric("-Infinity")
  {
    Untrimmed("-Infinity");
    assert "-Infinity"[1..] == "Infinity";
  }

  lemma ExponentNumeric()
    ensures IsNumeric("1e3")
  {
    Untrimmed("1e3");
    assert DigitRun("1e3", 10) == 1;
    assert "1e3"[1..] == "e3";
    assert "e3"[1..] == "3";
  }

  /** Strings `Number` turns into NaN: a word, two decimal points, a signed
      hexadecimal literal, an exponent without digits. */
  lemma NotNumericExamples()
    ensures !IsNumeric("abc") && !IsNumeric("4.5.1") && !IsNumeric("-0x1F") && !IsNumeric("1e")
  {
    WordNotNumeric();
    TwoPointsNotNumeric();
    SignedHexNotNumeric();
    BareExponentNotNumeric();
  }

  lemma WordNotNumeric()
    ensures !IsNumeric("abc")
  {
    Untrimmed("abc");
    assert DigitRun("abc", 10) == 0;
  }

  lemma TwoPointsNotNumeric()
    ensures !IsNumeric("4.5.1")
  {
    Untrimmed("4.5.1");
    assert DigitRun("4.5.1", 10) == 1;
    assert "4.5.1"[1..] == ".5.1";
    assert ".5.1"[1..] == "5.1";
    assert DigitRun("5.1", 10) == 1;
    assert "5.1"[1..] == ".1";
  }

  lemma SignedHexNotNumeric()
    ensures !IsNumeric("-0x1F")
  {
    var m, t := "-0x1F", "0x1F";
    Untrimmed(m);
    assert !NonDecimalLiteral(m) by { assert m[0] == '-'; }
    assert !UnsignedDecimalLiteral(m) by { assert DigitRun(m, 10) == 0; assert m[0] != '.'; }
    assert m[1..] == t;
    assert !UnsignedDecimalLiteral(t) by {
      assert t[1..] == "x1F";
      assert DigitRun("x1F", 10) == 0;
      assert DigitRun(t, 10) == 1;
      assert !ExponentOrEmpty("x1F");
    }
  }

  lemma BareExponentNotNumeric()
    ensures !IsNumeric("1e")
  {
    Untrimmed("1e");
    assert DigitRun("1e", 10) == 1;
    assert "1e"[1..] == "e";
  }
}

=== FILE: keywords.dfy ===
/** The keyword extraction of getVideo (controllers/videosController.js:129):
    the global matches of `\b([A-Z][a-z]+(?:\s+[A-Z][a-z]+)*)\b` in a title,
    that is, runs of capitalised words separated by white space. The regular
    expression is given a declarative meaning (`Match`) and the scanner is
    proved to find exactly the matches JavaScript's greedy, leftmost,
    non-overlapping global search returns. */
module Keywords {
  import opened Common
  import Js

  // ---------------------------------------------------------------------------
  // What the expression matches

  /** A word boundary `\b` at position `i`: exactly one of the characters
      around `i` is a word character. */
  predicate Boundary(s: string, i: nat)
    requires i <= |s|
  {
    var before := i > 0 && Js.IsWordChar(s[i - 1]);
    var after := i < |s| && Js.IsWordChar(s[i]);
    before != after
  }

  /** Position `i` of `s[p..e]` is legal in `[A-Z][a-z]+(?:\s+[A-Z][a-z]+)*`:
      a capital starts the text or follows white space and is followed by a
      small letter; a small letter follows a letter; white space follows a
      small letter or white space and is followed by white space or a capital. */
  predicate LocalOk(s: string, p: nat, e: nat, i: nat)
    requires p <= i < e <= |s|
  {
    || (Js.IsUpper(s[i]) && (i == p || Js.IsSpace(s[i - 1])) && i + 1 < e && Js.IsLower(s[i + 1]))
    || (Js.IsLower(s[i]) && i > p && (Js.IsUpper(s[i - 1]) || Js.IsLower(s[i - 1])))
    || (Js.IsSpace(s[i]) && i > p && (Js.IsLower(s[i - 1]) || Js.IsSpace(s[i - 1]))
        && i + 1 < e && (Js.IsSpace(s[i + 1]) || Js.IsUpper(s[i + 1])))
  }

  /** `s[p..e]` is one or more capitalised words separated by white space. */
  predicate Chain(s: string, p: nat, e: nat)
    requires p <= e <= |s|
  {
    p < e && forall i :: p <= i < e ==> LocalOk(s, p, e, i)
  }

  /** The expression matches `s[p..e]` (with the boundaries it demands). */
  predicate Match(s: string, p: nat, e: nat)
  {
    p < e <= |s| && Boundary(s, p) && Boundary(s, e) && Chain(s, p, e)
  }

  lemma ClassesDisjoint(c: char)
    ensures !(Js.IsUpper(c) && Js.IsLower(c))
    ensures Js.IsSpace(c) ==> !Js.IsWordChar(c)
    ensures Js.IsUpper(c) || Js.IsLower(c) ==> Js.IsWordChar(c)
  {
  }

  /** A chain ends in a small letter. */
  lemma ChainEndsSmall(s: string, p: nat, e: nat)
    requires p <= e <= |s| && Chain(s, p, e)
    ensures Js.IsLower(s[e - 1])
  {
    assert LocalOk(s, p, e, e - 1);
  }

  /** Legality of the positions before `e` does not depend on where the
      text ends after them. */
  lemma ChainGrows(s: string, p: nat, e: nat, e2: nat)
    requires p <= e <= e2 <= |s|
    requires forall i :: p <= i < e ==> LocalOk(s, p, e, i)
    ensures forall i :: p <= i < e ==> LocalOk(s, p, e2, i)
  {
    forall i | p <= i < e
      ensures LocalOk(s, p, e2, i)
    {
      assert LocalOk(s, p, e, i);
    }
  }

  /** Every match starts with a capital at a boundary and ends with a small letter. */
  lemma MatchShape(s: string, p: nat, e: nat)
    ensures Match(s, p, e) ==> p < |s| && Js.IsUpper(s[p]) && Js.IsLower(s[e - 1])
  {
    if Match(s, p, e) {
      assert LocalOk(s, p, e, p);
      ChainEndsSmall(s, p, e);
    }
  }

  /** A match opens with a capital followed by a small letter. */
  lemma MatchOpens(s: string, p: nat, e: nat)
    ensures Match(s, p, e) ==> p + 1 < |s| && Js.IsUpper(s[p]) && Js.IsLower(s[p + 1])
  {
    if Match(s, p, e) {
      assert LocalOk(s, p, e, p);
    }
  }

  // ---------------------------------------------------------------------------
  // The scanner

  /** Where the scan is: just after a capital, inside the small letters of a
      word, or inside the white space between words. */
  datatype Phase = Capital | Small | Gap

  /** What the scan knows about `s[p..i]` in each phase; `k` is where the
      last complete word ended. */
  predicate PhaseOk(s: string, p: nat, k: nat, i: nat, ph: Phase)
    requires p < i <= |s|
  {
    match ph
    case Small => Chain(s, p, i)
    case Gap => p < k < i && Chain(s, p, k) && forall j :: k <= j < i ==> Js.IsSpace(s[j])
    case Capital =>
      && Js.IsUpper(s[i - 1])
      && (i - 1 == p || (p < k < i - 1 && Chain(s, p, k) && forall j :: k <= j < i - 1 ==> Js.IsSpace(s[j])))
  }

  /** `best` is the longest match from `p` that ends before `i`. */
  predicate BestBelow(s: string, p: nat, i: nat, best: Option<nat>)
  {
    && (best.Some? ==> p < best.value < i && Match(s, p, best.value))
    && forall e :: p < e < i && Match(s, p, e) ==> best.Some? && e <= best.value
  }

  /** The longest match of the expression that starts at `p` and, while
      scanning, has reached `i` in phase `ph`. */
  function Scan(s: string, p: nat, k: nat, i: nat, ph: Phase, best: Option<nat>): (r: Option<nat>)
    requires p < i <= |s| && Boundary(s, p)
    requires PhaseOk(s, p, k, i, ph)
    requires BestBelow(s, p, i, best)
    ensures r.Some? ==> Longest(s, p, r.value)
    ensures r.None? ==> NoMatchAt(s, p)
    decreases |s| - i
  {
    NothingEndsAtNonSmall(s, p, i, ph, k);
    match ph
    case Capital =>
      BestSkip(s, p, i, best);
      if i < |s| && Js.IsLower(s[i]) then
        CapitalThenSmall(s, p, k, i);
        Scan(s, p, k, i + 1, Small, best)
      else
        CapitalStops(s, p, k, i);
        Conclude(s, p, i, best);
        best
    case Small =>
      var best' := if i == |s| || !Js.IsWordChar(s[i]) then Some(i) else best;
      SmallMatchHere(s, p, i);
      BestSmall(s, p, i, best, best');
      if i < |s| && Js.IsLower(s[i]) then
        SmallThenSmall(s, p, i);
        Scan(s, p, k, i + 1, Small, best')
      else if i < |s| && Js.IsSpace(s[i]) then
        ChainEndsSmall(s, p, i);
        Scan(s, p, i, i + 1, Gap, best')
      else
        SmallStops(s, p, i);
        Conclude(s, p, i, best');
        best'
    case Gap =>
      BestSkip(s, p, i, best);
      if i < |s| && Js.IsSpace(s[i]) then
        Scan(s, p, k, i + 1, Gap, best)
      else if i < |s| && Js.IsUpper(s[i]) then
        Scan(s, p, k, i + 1, Capital, best)
      else
        GapStops(s, p, k, i);
        Conclude(s, p, i, best);
        best
  }

  /** A position where no match ends leaves the best match as it is. */
  lemma BestSkip(s: string, p: nat, i: nat, best: Option<nat>)
    requires BestBelow(s, p, i, best) && !Match(s, p, i)
    ensures BestBelow(s, p, i + 1, best)
  {
  }

  /** In the small letters, a match ending here is the new best. */
  lemma BestSmall(s: string, p: nat, i: nat, best: Option<nat>, best': Option<nat>)
    requires p < i && BestBelow(s, p, i, best)
    requires Match(s, p, i) ==> best' == Some(i)
    requires !Match(s, p, i) ==> best' == best
    ensures BestBelow(s, p, i + 1, best')
  {
  }

  /** Once no longer match is possible, the best so far is the longest. */
  lemma Conclude(s: string, p: nat, i: nat, best: Option<nat>)
    requires BestBelow(s, p, i + 1, best)
    requires forall e :: i < e <= |s| && Match(s, p, e) ==> false
    ensures best.Some? ==> Longest(s, p, best.value)
    ensures best.None? ==> NoMatchAt(s, p)
  {
  }

  /** No match ends right after a capital or white space. */
  lemma NothingEndsAtNonSmall(s: string, p: nat, i: nat, ph: Phase, k: nat)
    requires p < i <= |s| && PhaseOk(s, p, k, i, ph)
    ensures Match(s, p, i) ==> ph == Small
  {
    MatchShape(s, p, i);
    ClassesDisjoint(s[i - 1]);
    if ph == Gap {
      assert Js.IsSpace(s[i - 1]);
    }
  }

  /** In the small letters, the text so far matches exactly when a boundary follows. */
  lemma SmallMatchHere(s: string, p: nat, i: nat)
    requires p < i <= |s| && Boundary(s, p) && Chain(s, p, i)
    ensures Match(s, p, i) <==> i == |s| || !Js.IsWordChar(s[i])
  {
    ChainEndsSmall(s, p, i);
  }

  lemma CapitalThenSmall(s: string, p: nat, k: nat, i: nat)
    requires p < i < |s| && PhaseOk(s, p, k, i, Capital) && Js.IsLower(s[i])
    ensures Chain(s, p, i + 1)
  {
    var e := i + 1;
    if i - 1 != p {
      ChainGrows(s, p, k, e);
      ChainEndsSmall(s, p, k);
      forall j | k <= j < e
        ensures LocalOk(s, p, e, j)
      {
      }
    }
  }

  lemma SmallThenSmall(s: string, p: nat, i: nat)
    requires p < i < |s| && Chain(s, p, i) && Js.IsLower(s[i])
    ensures Chain(s, p, i + 1)
  {
    ChainGrows(s, p, i, i + 1);
    ChainEndsSmall(s, p, i);
  }

  /** After a capital the text can only go on with a small letter. */
  lemma CapitalStops(s: string, p: nat, k: nat, i: nat)
    requires p < i <= |s| && PhaseOk(s, p, k, i, Capital)
    ensures forall e :: i < e <= |s| && Match(s, p, e) ==> i < |s| && Js.IsLower(s[i])
  {
    forall e | i < e <= |s| && Match(s, p, e)
      ensures i < |s| && Js.IsLower(s[i])
    {
      assert LocalOk(s, p, e, i - 1);
      ClassesDisjoint(s[i - 1]);
    }
  }

  /** After a small letter the text can only go on with a small letter or
      white space. */
  lemma SmallStops(s: string, p: nat, i: nat)
    requires p < i <= |s| && Chain(s, p, i)
    ensures forall e :: i < e <= |s| && Match(s, p, e) ==> i < |s| && (Js.IsLower(s[i]) || Js.IsSpace(s[i]))
  {
    ChainEndsSmall(s, p, i);
    ClassesDisjoint(s[i - 1]);
    forall e | i < e <= |s| && Match(s, p, e)
      ensures i < |s| && (Js.IsLower(s[i]) || Js.IsSpace(s[i]))
    {
      assert LocalOk(s, p, e, i);
    }
  }

  /** After white space the text can only go on with white space or a capital. */
  lemma GapStops(s: string, p: nat, k: nat, i: nat)
    requires p < i <= |s| && PhaseOk(s, p, k, i, Gap)
    ensures forall e :: i < e <= |s| && Match(s, p, e) ==> i < |s| && (Js.IsSpace(s[i]) || Js.IsUpper(s[i]))
  {
    assert Js.IsSpace(s[i - 1]);
    ClassesDisjoint(s[i - 1]);
    forall e | i < e <= |s| && Match(s, p, e)
      ensures i < |s| && (Js.IsSpace(s[i]) || Js.IsUpper(s[i]))
    {
      assert LocalOk(s, p, e, i);
    }
  }

  /** The longest match starting at `p`, if there is one: what the regular
      expression engine returns when it tries position `p`. */
  function LongestAt(s: string, p: nat): (r: Option<nat>)
    ensures r.Some? ==> Longest(s, p, r.value)
    ensures r.None? ==> NoMatchAt(s, p)
  {
    MatchStartsCapital(s, p);
    if p < |s| && Boundary(s, p) && Js.IsUpper(s[p]) then
      Scan(s, p, p, p + 1, Capital, None)
    else
      None
  }

  lemma MatchStartsCapital(s: string, p: nat)
    ensures forall e :: Match(s, p, e) ==> p < |s| && Boundary(s, p) && Js.IsUpper(s[p])
  {
    forall e | Match(s, p, e)
      ensures p < |s| && Boundary(s, p) && Js.IsUpper(s[p])
    {
      MatchShape(s, p, e);
    }
  }

  /** `s[p..e]` matches and no longer text from `p` does. */
  ghost predicate Longest(s: string, p: nat, e: nat)
  {
    Match(s, p, e) && forall e2 :: e < e2 <= |s| ==> !Match(s, p, e2)
  }

  /** No match starts at `q`. */
  ghost predicate NoMatchAt(s: string, q: nat)
  {
    forall e :: !Match(s, q, e)
  }

  // ---------------------------------------------------------------------------
  // Global matching

  /** No span of `r` covers position `q`. */
  predicate Uncovered(r: seq<(nat, nat)>, q: nat)
  {
    forall m :: 0 <= m < |r| ==> !(r[m].0 <= q < r[m].1)
  }

  /** `r` is what a global search from `p` returns: longest matches, in
      order and without overlap, and no match starts at any position from `p`
      on that they leave uncovered. */
  ghost predicate GlobalFrom(s: string, p: nat, r: seq<(nat, nat)>)
  {
    && (forall m :: 0 <= m < |r| ==> p <= r[m].0 && Longest(s, r[m].0, r[m].1))
    && (forall m :: 0 < m < |r| ==> r[m - 1].1 <= r[m].0)
    && (forall q :: p <= q && Uncovered(r, q) ==> NoMatchAt(s, q))
  }

  /** `s.match(re)` with the `g` flag: from `p` on, the leftmost match,
      as long as the expression makes it, then the search resumes after it. */
  function Matches(s: string, p: nat): (r: seq<(nat, nat)>)
    ensures GlobalFrom(s, p, r)
    decreases |s| - p
  {
    if p >= |s| then
      assert forall q, e :: p <= q && Match(s, q, e) ==> false;
      []
    else
      match LongestAt(s, p)
      case Some(e) =>
        var rest := Matches(s, e);
        GlobalCons(s, p, e, rest);
        [(p, e)] + rest
      case None =>
        GlobalSkip(s, p, Matches(s, p + 1));
        Matches(s, p + 1)
  }

  lemma GlobalCons(s: string, p: nat, e: nat, rest: seq<(nat, nat)>)
    requires Longest(s, p, e) && GlobalFrom(s, e, rest)
    ensures GlobalFrom(s, p, [(p, e)] + rest)
  {
    var r := [(p, e)] + rest;
    assert forall m :: 0 < m < |r| ==> r[m] == rest[m - 1];
    forall q | p <= q && Uncovered(r, q)
      ensures NoMatchAt(s, q)
    {
      assert !(r[0].0 <= q < r[0].1);
      forall m | 0 <= m < |rest|
        ensures !(rest[m].0 <= q < rest[m].1)
      {
        assert r[m + 1] == rest[m];
      }
    }
  }

  lemma GlobalSkip(s: string, p: nat, rest: seq<(nat, nat)>)
    requires NoMatchAt(s, p) && GlobalFrom(s, p + 1, rest)
    ensures GlobalFrom(s, p, rest)
  {
  }

  /** The texts of the spans. */
  function Texts(s: string, spans: seq<(nat, nat)>): (r: seq<string>)
    requires forall m :: 0 <= m < |spans| ==> spans[m].0 <= spans[m].1 <= |s|
    ensures |r| == |spans|
    ensures forall m :: 0 <= m < |r| ==> r[m] == s[spans[m].0..spans[m].1]
  {
    if |spans| == 0 then [] else [s[spans[0].0..spans[0].1]] + Texts(s, spans[1..])
  }

  /** The matched texts: the keywords of a title. */
  function Extract(s: string): (r: seq<string>)
    ensures |r| == |Matches(s, 0)|
    ensures forall m :: 0 <= m < |r| ==> r[m] == s[Matches(s, 0)[m].0..Matches(s, 0)[m].1]
  {
    Texts(s, Matches(s, 0))
  }

  /** Every keyword is a capitalised run: a capital first, a small letter last. */
  lemma KeywordsCapitalised(s: string)
    ensures forall m :: 0 <= m < |Extract(s)| ==>
      |Extract(s)[m]| >= 2 && Js.IsUpper(Extract(s)[m][0]) && Js.IsLower(Extract(s)[m][|Extract(s)[m]| - 1])
  {
    var spans, r := Matches(s, 0), Extract(s);
    forall m | 0 <= m < |r|
      ensures |r[m]| >= 2 && Js.IsUpper(r[m][0]) && Js.IsLower(r[m][|r[m]| - 1])
    {
      var p, e := spans[m].0, spans[m].1;
      assert Longest(s, p, e);
      MatchShape(s, p, e);
      assert LocalOk(s, p, e, p);
    }
  }

  /** A title without a capital letter followed by a small one has no
      keywords. */
  lemma NoCapitalNoKeywords(s: string)
    requires forall i :: 0 <= i < |s| - 1 ==> !(Js.IsUpper(s[i]) && Js.IsLower(s[i + 1]))
    ensures Extract(s) == []
  {
    var spans := Matches(s, 0);
    if |spans| > 0 {
      var p, e := spans[0].0, spans[0].1;
      MatchOpens(s, p, e);
      assert false;
    }
  }

  const Example: string := "Kalki AD Trailer"

  /** A concrete title: "Kalki AD Trailer" gives "Kalki" and "Trailer"; the
      all-capital "AD" is no keyword. */
  lemma ExampleTitle()
    ensures Extract(Example) == ["Kalki", "Trailer"]
  {
    ExampleSpans();
    ExampleTexts();
  }

  lemma ExampleTexts()
    ensures Texts(Example, [(0, 5), (9, 16)]) == ["Kalki", "Trailer"]
  {
    var r := Texts(Example, [(0, 5), (9, 16)]);
    assert Example[0..5] == "Kalki" && Example[9..16] == "Trailer";
    assert |r| == 2 && r[0] == "Kalki" && r[1] == "Trailer";
  }

  lemma ExampleSpans()
    ensures Matches(Example, 0) == [(0, 5), (9, 16)]
  {
    var s := Example;
    ExampleLastWord();
    ExampleNoMatch();
    assert Matches(s, 16) == [];
    assert Matches(s, 9) == [(9, 16)];
    assert Matches(s, 5) == [(9, 16)];
    assert LongestAt(s, 0) == Some(5);
  }

  lemma ExampleLastWord()
    ensures LongestAt(Example, 9) == Some(16)
  {
    ExampleLastWordFrom12();
    assert Scan(Example, 9, 9, 10, Capital, None) == Some(16);
  }

  lemma ExampleLastWordFrom12()
    ensures Scan(Example, 9, 9, 12, Small, None) == Some(16)
  {
    ExampleLastWordFrom14();
  }

  lemma ExampleLastWordFrom14()
    ensures Scan(Example, 9, 9, 14, Small, None) == Some(16)
  {
    assert Scan(Example, 9, 9, 16, Small, None) == Some(16);
  }

  lemma ExampleNoMatch()
    ensures LongestAt(Example, 5) == None && LongestAt(Example, 6) == None
    ensures LongestAt(Example, 7) == None && LongestAt(Example, 8) == None
  {
  }
}

=== FILE: news.dfy ===
/** The news handlers of controllers/newsController.js: posting, editing
    and deleting an article with their validation orders and role checks,
    reading one by id, and the three listings (by category, by search term,
    by filter). */
module NewsPosts {
  import opened Common
  import opened Store
  import opened Ordering
  import Js
  import Dashboard

  /** The news collection and the assets document a handler leaves behind,
      with the status and message of its response. */
  datatype Reply = Reply(news: map<Id, News>, assets: Option<Assets>, status: int, message: string)

  // ---------------------------------------------------------------------------
  // addNews

  /** What addNews answers, in order, for each missing field. */
  const AddNewsPrompts: seq<string> := ["Write title!", "Write something in description!", "Select category!", "Add tags!"]

  /** Mongoose casts `movieRating` to a Number when the post is saved: an
      absent value is left out, any other string must not read as NaN. */
  predicate RatingCasts(movieRating: Field)
  {
    movieRating.None? || Js.IsNumeric(movieRating.value)
  }

  /** addNews. `upload` is the URL the file upload returns, `None` when the
      request carries no file (the upload throws: 500). A `movieRating` that
      does not cast fails the save (500). `freshId` and `now` are the new
      document's id and creation time. The notification mail to the other
      staff is not modelled. This is the handler as evidently intended: the
      unique index on `newsId`, which no handler ever sets, is left out here
      and modelled by `AddNewsAsWritten`. */
  function AddNews(news: map<Id, News>, users: map<Id, User>, title: Field, description: Field, category: Field,
                   subCategory: Field, tags: Field, movieRating: Field, caller: Option<Principal>,
                   upload: Option<string>, freshId: Id, now: int): (r: Reply)
    requires freshId !in news
    ensures r.status == 404 <==>
      FirstMissing([title, description, category, tags], AddNewsPrompts, caller).Some? || InactiveStaff(CurrentUser(users, caller))
    ensures FirstMissing([title, description, category, tags], AddNewsPrompts, caller).Some? ==>
      r.message == FirstMissing([title, description, category, tags], AddNewsPrompts, caller).value
    ensures r.status == 200 <==>
      && FirstMissing([title, description, category, tags], AddNewsPrompts, caller).None? && !InactiveStaff(CurrentUser(users, caller))
      && upload.Some? && RatingCasts(movieRating)
    ensures r.status == 500 <==>
      && FirstMissing([title, description, category, tags], AddNewsPrompts, caller).None? && !InactiveStaff(CurrentUser(users, caller))
      && (upload.None? || !RatingCasts(movieRating))
    ensures r.status == 200 ==> Truthy(title) && Truthy(description) && Truthy(category) && Truthy(tags) && caller.Some?
    ensures r.status != 200 ==> r.news == news
    ensures r.status == 200 ==>
      r.news == news[freshId := News(Some(caller.value.id), title.value, upload.value, description.value, category.value,
                                     subCategory, tags, movieRating, [], now)]
  {
    var fields := [title, description, category, tags];
    assert fields[0] == title && fields[1] == description && fields[2] == category && fields[3] == tags;
    match FirstMissing(fields, AddNewsPrompts, caller)
    case Some(why) => Reply(news, None, 404, why)
    case None =>
      if InactiveStaff(CurrentUser(users, caller)) then Reply(news, None, 404, "You don't have permission to post!")
      else if upload.None? then Reply(news, None, 500, "File buffer is missing")
      else if !RatingCasts(movieRating) then Reply(news, None, 500, "Cast to Number failed")
      else
        var post := News(Some(caller.value.id), title.value, upload.value, description.value, category.value,
                         subCategory, tags, movieRating, [], now);
        Reply(news[freshId := post], None, 200, "News added successfully")
  }

  /** A missing item is refused with its prompt and 404, storing nothing. */
  lemma AddNewsRefusesMissing(news: map<Id, News>, users: map<Id, User>, title: Field, description: Field, category: Field,
                        subCategory: Field, tags: Field, movieRating: Field, caller: Option<Principal>,
                        upload: Option<string>, freshId: Id, now: int, why: string)
    requires freshId !in news
    requires FirstMissing([title, description, category, tags], AddNewsPrompts, caller) == Some(why)
    ensures AddNews(news, users, title, description, category, subCategory, tags, movieRating, caller, upload, freshId, now) == Reply(news, None, 404, why)
  {
  }

  /** addNews asks for the missing fields in the order title, description,
      category, tags, then for the caller, each with its own message. */
  lemma AddNewsAsksInOrder(news: map<Id, News>, users: map<Id, User>, title: Field, description: Field, category: Field,
                           subCategory: Field, tags: Field, movieRating: Field, caller: Option<Principal>,
                           upload: Option<string>, freshId: Id, now: int)
    requires freshId !in news
    ensures var r := AddNews(news, users, title, description, category, subCategory, tags, movieRating, caller, upload, freshId, now);
      && (!Truthy(title) ==> r.status == 404 && r.message == "Write title!")
      && (Truthy(title) && !Truthy(description) ==> r.status == 404 && r.message == "Write something in description!")
      && (Truthy(title) && Truthy(description) && !Truthy(category) ==> r.status == 404 && r.message == "Select category!")
      && (Truthy(title) && Truthy(description) && Truthy(category) && !Truthy(tags) ==>
            r.status == 404 && r.message == "Add tags!")
      && (Truthy(title) && Truthy(description) && Truthy(category) && Truthy(tags) && caller.None? ==>
            r.status == 404 && r.message == "User not found!")
  {
    FirstMissingOfFour(title, description, category, tags, AddNewsPrompts, caller);
    var w := FirstMissing([title, description, category, tags], AddNewsPrompts, caller);
    if w.Some? {
      AddNewsRefusesMissing(news, users, title, description, category, subCategory, tags, movieRating, caller, upload, freshId, now, w.value);
    }
    assert AddNewsPrompts[0] == "Write title!" && AddNewsPrompts[1] == "Write something in description!";
    assert AddNewsPrompts[2] == "Select category!" && AddNewsPrompts[3] == "Add tags!";
  }

  /** addNews as written. models/newsModel.js declares `newsId` unique, and
      no handler ever sets it, so every stored article lacks it and the
      unique index counts it as null: once one article exists, every further
      save is a duplicate key (500) and nothing is stored. */
  function AddNewsAsWritten(news: map<Id, News>, users: map<Id, User>, title: Field, description: Field, category: Field,
                            subCategory: Field, tags: Field, movieRating: Field, caller: Option<Principal>,
                            upload: Option<string>, freshId: Id, now: int): (r: Reply)
    requires freshId !in news
    ensures r.status == 200 <==>
      AddNews(news, users, title, description, category, subCategory, tags, movieRating, caller, upload, freshId, now).status == 200
      && |news| == 0
    ensures r.status != 200 ==> r.news == news
    ensures |news| == 0 ==>
      r == AddNews(news, users, title, description, category, subCategory, tags, movieRating, caller, upload, freshId, now)
  {
    var intended := AddNews(news, users, title, description, category, subCategory, tags, movieRating, caller, upload, freshId, now);
    if intended.status == 200 && |news| > 0 then
      Reply(news, None, 500, "E11000 duplicate key error")
    else intended
  }

  /** The discrepancy: a valid post to a collection that already holds an
      article is refused as written, and stored by the intended handler. */
  lemma SecondArticleRefused(news: map<Id, News>, users: map<Id, User>, title: string, description: string,
                             category: string, tags: string, caller: Principal, url: string, freshId: Id, now: int)
    requires freshId !in news && |news| > 0
    requires title != "" && description != "" && category != "" && tags != ""
    requires !InactiveStaff(CurrentUser(users, Some(caller)))
    ensures var r := AddNewsAsWritten(news, users, Some(title), Some(description), Some(category), None, Some(tags), None,
                                      Some(caller), Some(url), freshId, now);
            r.status == 500 && r.news == news
    ensures AddNews(news, users, Some(title), Some(description), Some(category), None, Some(tags), None,
                    Some(caller), Some(url), freshId, now).status == 200
  {
    var intended := AddNews(news, users, Some(title), Some(description), Some(category), None, Some(tags), None,
                            Some(caller), Some(url), freshId, now);
    assert FirstMissing([Some(title), Some(description), Some(category), Some(tags)], AddNewsPrompts, Some(caller)).None?;
    assert intended.status == 200;
  }

  /** The intended behaviour: two valid posts in a row are both stored, each
      under its own id. */
  lemma TwoPostsBothStored(news: map<Id, News>, users: map<Id, User>, title: string, description: string,
                           category: string, tags: string, caller: Principal, url: string,
                           id1: Id, id2: Id, now1: int, now2: int)
    requires id1 !in news && id2 !in news && id1 != id2
    requires title != "" && description != "" && category != "" && tags != ""
    requires !InactiveStaff(CurrentUser(users, Some(caller)))
    ensures var first := AddNews(news, users, Some(title), Some(description), Some(category), None, Some(tags), None,
                                 Some(caller), Some(url), id1, now1);
            && first.status == 200
            && id2 !in first.news
            && var second := AddNews(first.news, users, Some(title), Some(description), Some(category), None, Some(tags), None,
                                     Some(caller), Some(url), id2, now2);
            && second.status == 200
            && second.news.Keys == news.Keys + {id1, id2}
            && second.news[id1].createdAt == now1 && second.news[id2].createdAt == now2
  {
    var first := AddNews(news, users, Some(title), Some(description), Some(category), None, Some(tags), None,
                         Some(caller), Some(url), id1, now1);
    assert id2 !in first.news;
  }

  /** Any caller but an inactive admin or writer may post: a reader account,
      or a token whose account no longer exists, is accepted. As written,
      this holds for the first article only. */
  lemma OnlyInactiveStaffTurnedAway(news: map<Id, News>, users: map<Id, User>, title: string, description: string,
                                    category: string, tags: string, caller: Principal, url: string, freshId: Id, now: int)
    requires freshId !in news
    requires title != "" && description != "" && category != "" && tags != ""
    ensures AddNews(news, users, Some(title), Some(description), Some(category), None, Some(tags), None,
                    Some(caller), Some(url), freshId, now).status
            == if caller.id in users && IsStaff(users[caller.id].role) && !users[caller.id].isActive then 404 else 200
    ensures AddNewsAsWritten(map[], users, Some(title), Some(description), Some(category), None, Some(tags), None,
                             Some(caller), Some(url), freshId, now).status
            == if caller.id in users && IsStaff(users[caller.id].role) && !users[caller.id].isActive then 404 else 200
  {
  }

  /** A rating that does not read as a number fails the save, and nothing is
      stored; one that does is stored as sent. */
  lemma RatingMustCast(news: map<Id, News>, users: map<Id, User>, title: string, description: string,
                       category: string, tags: string, caller: Principal, url: string, freshId: Id, now: int)
    requires freshId !in news
    requires title != "" && description != "" && category != "" && tags != ""
    requires !InactiveStaff(CurrentUser(users, Some(caller)))
    ensures AddNews(news, users, Some(title), Some(description), Some(category), None, Some(tags), Some("abc"),
                    Some(caller), Some(url), freshId, now).status == 500
    ensures var r := AddNews(news, users, Some(title), Some(description), Some(category), None, Some(tags), Some(" 4.5 "),
                             Some(caller), Some(url), freshId, now);
            r.status == 200 && r.news[freshId].movieRating == Some(" 4.5 ")
  {
    var fields := [Some(title), Some(description), Some(category), Some(tags)];
    assert forall i :: 0 <= i < |fields| ==> Truthy(fields[i]);
    assert FirstMissing(fields, AddNewsPrompts, Some(caller)).None?;
    Js.WordNotNumeric();
    Js.FractionNumeric();
  }

  // ---------------------------------------------------------------------------
  // getNewsById

  /** getNewsById: 404 unless the id has 24 characters, 500 when those are
      not hexadecimal (the cast fails), 404 when no such post exists. The
      random suggestions (`$sample`) are not modelled. */
  function GetNewsById(news: map<Id, News>, postId: Field): (r: Result<News>)
    ensures r.Ok? <==> postId.Some? && IsObjectId(postId.value) && postId.value in news
    ensures r.Ok? ==> r.value == news[postId.value]
    ensures r.Fail? ==> r.status == (if HasIdLength(postId) && !IsObjectId(postId.value) then 500 else 404)
  {
    if !Truthy(postId) || |postId.value| != 24 then Fail(404)
    else if !IsObjectId(postId.value) then Fail(500)
    else if postId.value !in news then Fail(404)
    else Ok(news[postId.value])
  }

  /** An id of any other length is "not found" without a lookup. */
  lemma WrongLengthIsNotFound(news: map<Id, News>, postId: string)
    requires |postId| != 24
    ensures GetNewsById(news, Some(postId)) == Fail(404)
  {
  }

  // ---------------------------------------------------------------------------
  // Listings

  /** An article's creation time, the key of the newest-first listings. */
  function NewsAt(n: News): int
  {
    n.createdAt
  }

  /** The query of getFilteredNews: a truthy `category` and `subcategory`
      must match exactly; absent or empty ones do not constrain. */
  predicate CategoryMatch(d: Doc<News>, category: Field, subcategory: Field)
  {
    && (Truthy(category) ==> d.body.category == category.value)
    && (Truthy(subcategory) ==> d.body.subCategory == subcategory)
  }

  /** getFilteredNews: the matching articles, newest first. `order` is the
      collection's natural order. */
  function GetFilteredNews(news: map<Id, News>, order: seq<Id>, category: Field, subcategory: Field): (r: seq<Doc<News>>)
    requires IsNaturalOrder(order, news)
    ensures forall d :: d in r <==> d.id in news && d.body == news[d.id] && CategoryMatch(d, category, subcategory)
    ensures forall d :: multiset(r)[d] == if d in Rows(order, news) && CategoryMatch(d, category, subcategory) then 1 else 0
    ensures forall i, j :: 0 <= i < j < |r| ==> r[i].body.createdAt >= r[j].body.createdAt
  {
    var rows := Rows(order, news);
    assert forall d :: d in rows <==> d.id in news && d.body == news[d.id] by {
      forall d: Doc<News> | d.id in news && d.body == news[d.id]
        ensures d in rows
      {
        var i :| 0 <= i < |order| && order[i] == d.id;
        assert rows[i] == d;
      }
    }
    var keep := (d: Doc<News>) => CategoryMatch(d, category, subcategory);
    ListedOnce(order, news, keep, NewsAt);
    ListNewest(rows, keep, NewsAt)
  }

  /** Without a category, every article is listed. */
  lemma UnfilteredListsAll(news: map<Id, News>, order: seq<Id>)
    requires IsNaturalOrder(order, news)
    ensures |GetFilteredNews(news, order, None, None)| == |news|
  {
    var rows := Rows(order, news);
    var keep := (d: Doc<News>) => CategoryMatch(d, None, None);
    FilterKeepsAll(rows, keep);
    NaturalOrderCounts(order, news);
  }

  /** A natural order lists each document once. */
  lemma NaturalOrderCounts<T>(order: seq<Id>, m: map<Id, T>)
    requires IsNaturalOrder(order, m)
    ensures |order| == |m|
  {
    var ids := set i | 0 <= i < |order| :: order[i];
    assert ids == m.Keys;
    DistinctCount(order);
  }

  lemma {:induction false} DistinctCount(s: seq<Id>)
    requires forall i, j :: 0 <= i < j < |s| ==> s[i] != s[j]
    ensures |set i | 0 <= i < |s| :: s[i]| == |s|
    decreases |s|
  {
    if |s| > 0 {
      var t := s[..|s| - 1];
      DistinctCount(t);
      var a := set i | 0 <= i < |t| :: t[i];
      var b := set i | 0 <= i < |s| :: s[i];
      assert b == a + {s[|s| - 1]};
      assert s[|s| - 1] !in a;
    }
  }

  // ---------------------------------------------------------------------------
  // getSearchedNews

  /** The categories getSearchedNews groups by. */
  const SearchKeys: seq<string> :=
    ["news", "politics", "movies", "videos", "gallery", "ott", "shows", "collections", "reviews", "gossips"]

  /** The grouped search result: one list of articles per key but "gallery",
      whose list holds the matching galleries instead. */
  datatype Grouped = Grouped(buckets: map<string, seq<Doc<News>>>, gallery: seq<Doc<Gallery>>)

  /** The articles of `found` whose lower-cased category is `key`, in order. */
  function Bucket(found: seq<Doc<News>>, key: string): (r: seq<Doc<News>>)
    ensures forall d :: d in r <==> d in found && Js.Lower(d.body.category) == key
    ensures Subseq(r, found)
  {
    Filter(found, (d: Doc<News>) => Js.Lower(d.body.category) == key)
  }

  /** The articles whose title or description matches, in order. */
  function NewsHits(rows: seq<Doc<News>>, hit: string -> bool): (r: seq<Doc<News>>)
    ensures forall d :: d in r <==> d in rows && (hit(d.body.title) || hit(d.body.description))
    ensures Subseq(r, rows)
  {
    Filter(rows, (d: Doc<News>) => hit(d.body.title) || hit(d.body.description))
  }

  /** The galleries whose name, title or description matches, in order. */
  function GalleryHits(rows: seq<Doc<Gallery>>, hit: string -> bool): (r: seq<Doc<Gallery>>)
    ensures forall g :: g in r <==> g in rows && (hit(g.body.name) || hit(g.body.title) || hit(g.body.description))
  {
    Filter(rows, (g: Doc<Gallery>) => hit(g.body.name) || hit(g.body.title) || hit(g.body.description))
  }

  /** getSearchedNews. `hit(text)` is the oracle for the case-insensitive
      `$regex` match of the search term against `text`; an article matches on
      its title or description, a gallery on its name, title or description.
      Results come in natural order. The articles are grouped by lower-cased
      category into the ten keys (other categories are dropped), and then the
      "gallery" group is overwritten with the galleries. */
  function GetSearchedNews(news: map<Id, News>, newsOrder: seq<Id>, galleries: map<Id, Gallery>, galleryOrder: seq<Id>,
                           q: Field, hit: string -> bool): (r: Result<Grouped>)
    requires IsNaturalOrder(newsOrder, news) && IsNaturalOrder(galleryOrder, galleries)
    ensures r.Fail? <==> !Truthy(q)
    ensures r.Fail? ==> r.status == 400
    ensures r.Ok? ==> r.value.buckets.Keys == (set k | k in SearchKeys && k != "gallery")
    ensures r.Ok? ==> forall k, d :: k in r.value.buckets && d in r.value.buckets[k] <==>
      && k in r.value.buckets && d in Rows(newsOrder, news)
      && (hit(d.body.title) || hit(d.body.description)) && Js.Lower(d.body.category) == k
    ensures r.Ok? ==> forall g :: g in r.value.gallery <==>
      g in Rows(galleryOrder, galleries) && (hit(g.body.name) || hit(g.body.title) || hit(g.body.description))
  {
    if !Truthy(q) then Fail(400)
    else
      var found := NewsHits(Rows(newsOrder, news), hit);
      var buckets := map k | k in SearchKeys && k != "gallery" :: Bucket(found, k);
      var pics := GalleryHits(Rows(galleryOrder, galleries), hit);
      Ok(Grouped(buckets, pics))
  }

  /** An article filed under "gallery", or under a category outside the ten
      keys, matches the search and still appears in no group. */
  lemma UngroupedArticlesVanish(news: map<Id, News>, newsOrder: seq<Id>, galleries: map<Id, Gallery>, galleryOrder: seq<Id>,
                                q: string, hit: string -> bool, d: Doc<News>)
    requires IsNaturalOrder(newsOrder, news) && IsNaturalOrder(galleryOrder, galleries) && q != ""
    requires Js.Lower(d.body.category) !in SearchKeys || Js.Lower(d.body.category) == "gallery"
    ensures var r := GetSearchedNews(news, newsOrder, galleries, galleryOrder, Some(q), hit);
            r.Ok? && forall k :: k in r.value.buckets ==> d !in r.value.buckets[k]
  {
  }

  /** Within a group the articles keep the order the query returned them in. */
  lemma GroupsKeepQueryOrder(news: map<Id, News>, newsOrder: seq<Id>, galleries: map<Id, Gallery>, galleryOrder: seq<Id>,
                             q: string, hit: string -> bool, k: string)
    requires IsNaturalOrder(newsOrder, news) && IsNaturalOrder(galleryOrder, galleries) && q != ""
    ensures var r := GetSearchedNews(news, newsOrder, galleries, galleryOrder, Some(q), hit);
            r.Ok? && (k in r.value.buckets ==> Subseq(r.value.buckets[k], Rows(newsOrder, news)))
  {
    var found := NewsHits(Rows(newsOrder, news), hit);
    SubseqTrans(Bucket(found, k), found, Rows(newsOrder, news));
  }

  // ---------------------------------------------------------------------------
  // editNews and deleteNews

  /** The checks editNews and deleteNews share once the post exists: 404
      without a user, 500 when the caller's account is gone (`currentUser.role`
      throws), 403 unless it is an active admin or writer. */
  function StaffCheck(users: map<Id, User>, caller: Option<Principal>): (s: int)
    ensures s == 200 <==> CurrentUser(users, caller).Some? && ActiveStaff(CurrentUser(users, caller).value)
  {
    if caller.None? then 404
    else if CurrentUser(users, caller).None? then 500
    else if !ActiveStaff(CurrentUser(users, caller).value) then 403
    else 200
  }

  /** Looks the post up: 404 without an id, 500 for a malformed one, 404
      when there is no such post. */
  function LookupStatus(news: map<Id, News>, id: string): (s: int)
    ensures s == 200 <==> IsObjectId(id) && id in news
  {
    if id == "" then 404 else if !IsObjectId(id) then 500 else if id !in news then 404 else 200
  }

  /** The article with the five editable fields replaced. */
  function Edited(p: News, title: string, description: string, category: string, subCategory: Field, tags: Field): (r: News)
    ensures r.(title := p.title, description := p.description, category := p.category,
               subCategory := p.subCategory, tags := p.tags) == p
  {
    p.(title := title, description := description, category := category, subCategory := subCategory, tags := tags)
  }

  /** editNews: the post must exist before the fields are checked; then
      title, description and category (404 each), then the caller. The five
      fields are overwritten, an absent `subCategory` or `tags` clearing the
      stored one. */
  function EditNews(news: map<Id, News>, users: map<Id, User>, id: string, title: Field, description: Field,
                    category: Field, subCategory: Field, tags: Field, caller: Option<Principal>): (r: Reply)
    ensures r.status == 200 <==>
      && IsObjectId(id) && id in news && Truthy(title) && Truthy(description) && Truthy(category)
      && StaffCheck(users, caller) == 200
    ensures LookupStatus(news, id) != 200 ==> r.status == LookupStatus(news, id)
    ensures LookupStatus(news, id) == 200 && !Truthy(title) ==> r.status == 404 && r.message == "Write title!"
    ensures r.status != 200 ==> r.news == news
    ensures r.status == 200 ==>
      r.news == news[id := Edited(news[id], title.value, description.value, category.value, subCategory, tags)]
  {
    if LookupStatus(news, id) != 200 then
      Reply(news, None, LookupStatus(news, id), if id == "" then "News ID is required!" else "News not found!")
    else if !Truthy(title) then Reply(news, None, 404, "Write title!")
    else if !Truthy(description) then Reply(news, None, 404, "Write something in description!")
    else if !Truthy(category) then Reply(news, None, 404, "Select category!")
    else if StaffCheck(users, caller) != 200 then Reply(news, None, StaffCheck(users, caller), "You don't have permission to edit this news!")
    else Reply(news[id := Edited(news[id], title.value, description.value, category.value, subCategory, tags)], None, 200, "News updated successfully")
  }

  /** Sending the same edit twice leaves the post as one edit does. */
  lemma EditNewsIdempotent(news: map<Id, News>, users: map<Id, User>, id: string, title: Field, description: Field,
                           category: Field, subCategory: Field, tags: Field, caller: Option<Principal>)
    ensures var once := EditNews(news, users, id, title, description, category, subCategory, tags, caller);
            EditNews(once.news, users, id, title, description, category, subCategory, tags, caller).news == once.news
  {
  }

  /** deleteNews: the same lookups and role check as editNews (without the
      field checks); the post is deleted and its id pulled from the assets
      document. */
  function DeleteNews(news: map<Id, News>, assets: Option<Assets>, users: map<Id, User>, id: string,
                      caller: Option<Principal>): (r: Reply)
    ensures r.status == 200 <==> IsObjectId(id) && id in news && StaffCheck(users, caller) == 200
    ensures r.status != 200 ==> r.news == news && r.assets == assets
    ensures r.status == 200 ==> r.news == news - {id} && r.assets == PullFromAssets(assets, id)
  {
    if LookupStatus(news, id) != 200 then
      Reply(news, assets, LookupStatus(news, id), if id == "" then "News ID is required!" else "News not found!")
    else if StaffCheck(users, caller) != 200 then
      Reply(news, assets, StaffCheck(users, caller), "You don't have permission to delete this news!")
    else Reply(news - {id}, PullFromAssets(assets, id), 200, "News deleted successfully")
  }

  /** Deleting an article that the home grid shows leaves the grid entry in
      place, so reading the grid afterwards fails with 500. */
  lemma DeleteBreaksHomeGrid(news: map<Id, News>, a: Assets, users: map<Id, User>, id: string, caller: Principal)
    requires IsObjectId(id) && id in news && StaffCheck(users, Some(caller)) == 200
    requires exists i :: 0 <= i < |a.topFiveGrid| && a.topFiveGrid[i].news == id
    ensures var r := DeleteNews(news, Some(a), users, id, Some(caller));
            && r.status == 200
            && Dashboard.GetPlacements(r.assets, Dashboard.TopFiveGrid, r.news).result == Fail(500)
  {
    var r := DeleteNews(news, Some(a), users, id, Some(caller));
    assert !Dashboard.AllResolve(a.topFiveGrid, r.news);
  }

  // ---------------------------------------------------------------------------
  // filterNews

  /** The `time` presets of filterNews, in the order `PresetBound` reads
      them: "older" is the complement of "6month". */
  const TimePresets: seq<string> := ["1day", "1week", "1month", "6month", "older"]

  /** The whole filterNews query: category and writer match exactly when
      given, the search text (`hit`) matches title or description, and the
      date bound holds. */
  predicate FilterMatch(d: Doc<News>, category: Field, bound: DateBound, searchText: Field, writer: Field,
                        hit: string -> bool, cutoff: Span -> int)
  {
    && (Truthy(category) ==> d.body.category == category.value)
    && (Truthy(writer) ==> d.body.postedBy == writer)
    && (Truthy(searchText) ==> hit(d.body.title) || hit(d.body.description))
    && WithinBound(d.body.createdAt, bound, cutoff)
  }

  /** filterNews: the matching articles, newest first. A writer id that is
      not an ObjectId fails the cast (500). */
  function FilterNews(news: map<Id, News>, order: seq<Id>, category: Field, time: Field, searchText: Field, writer: Field,
                      hit: string -> bool, cutoff: Span -> int): (r: Result<seq<Doc<News>>>)
    requires IsNaturalOrder(order, news)
    ensures r.Fail? <==> Truthy(writer) && !IsObjectId(writer.value)
    ensures r.Fail? ==> r.status == 500
    ensures r.Ok? ==> forall d :: d in r.value <==>
      d in Rows(order, news) && FilterMatch(d, category, PresetBound(time, TimePresets), searchText, writer, hit, cutoff)
    ensures r.Ok? ==> forall d ::
      multiset(r.value)[d] == if d in Rows(order, news) && FilterMatch(d, category, PresetBound(time, TimePresets), searchText, writer, hit, cutoff) then 1 else 0
    ensures r.Ok? ==> forall i, j :: 0 <= i < j < |r.value| ==> r.value[i].body.createdAt >= r.value[j].body.createdAt
  {
    if Truthy(writer) && !IsObjectId(writer.value) then Fail(500)
    else
      var bound := PresetBound(time, TimePresets);
      var keep := (d: Doc<News>) => FilterMatch(d, category, bound, searchText, writer, hit, cutoff);
      ListedOnce(order, news, keep, NewsAt);
      Ok(ListNewest(Rows(order, news), keep, NewsAt))
  }

  /** "6month" and "older" split every otherwise-matching article between
      them: each is listed by exactly one of the two. */
  lemma SixMonthsAndOlderPartition(news: map<Id, News>, order: seq<Id>, category: Field, searchText: Field, writer: Field,
                                   hit: string -> bool, cutoff: Span -> int, d: Doc<News>)
    requires IsNaturalOrder(order, news)
    requires !Truthy(writer) || IsObjectId(writer.value)
    requires d in Rows(order, news) && FilterMatch(d, category, NoBound, searchText, writer, hit, cutoff)
    ensures var recent := FilterNews(news, order, category, Some("6month"), searchText, writer, hit, cutoff);
            var older := FilterNews(news, order, category, Some("older"), searchText, writer, hit, cutoff);
            recent.Ok? && older.Ok? && (d in recent.value <==> d !in older.value)
  {
    var recent := FilterNews(news, order, category, Some("6month"), searchText, writer, hit, cutoff);
    var older := FilterNews(news, order, category, Some("older"), searchText, writer, hit, cutoff);
    var six, above := PresetBound(Some("6month"), TimePresets), PresetBound(Some("older"), TimePresets);
    assert six == AtLeast(HalfYear) by { assert TimePresets[3] == "6month"; }
    assert above == Before(HalfYear) by { assert TimePresets[4] == "older"; }
    Listed(news, order, category, Some("6month"), searchText, writer, hit, cutoff, d, six, recent);
    Listed(news, order, category, Some("older"), searchText, writer, hit, cutoff, d, above, older);
    HalfYearSplits(d, category, searchText, writer, hit, cutoff, six, above);
  }

  /** An article that passes every other condition passes exactly one of the
      half-year bounds. */
  lemma HalfYearSplits(d: Doc<News>, category: Field, searchText: Field, writer: Field,
                       hit: string -> bool, cutoff: Span -> int, six: DateBound, above: DateBound)
    requires FilterMatch(d, category, NoBound, searchText, writer, hit, cutoff)
    requires six == AtLeast(HalfYear) && above == Before(HalfYear)
    ensures FilterMatch(d, category, six, searchText, writer, hit, cutoff)
        <==> !FilterMatch(d, category, above, searchText, writer, hit, cutoff)
  {
  }

  /** Whether a listed-or-not article is in a successful filterNews answer. */
  lemma Listed(news: map<Id, News>, order: seq<Id>, category: Field, time: Field, searchText: Field, writer: Field,
               hit: string -> bool, cutoff: Span -> int, d: Doc<News>, bound: DateBound, r: Result<seq<Doc<News>>>)
    requires IsNaturalOrder(order, news)
    requires !Truthy(writer) || IsObjectId(writer.value)
    requires bound == PresetBound(time, TimePresets)
    requires r == FilterNews(news, order, category, time, searchText, writer, hit, cutoff)
    ensures r.Ok? && (d in r.value <==> d in Rows(order, news) && FilterMatch(d, category, bound, searchText, writer, hit, cutoff))
  {
  }

  /** An unknown `time` value filters exactly as no `time` at all. */
  lemma UnknownTimeIgnored(news: map<Id, News>, order: seq<Id>, category: Field, time: string, searchText: Field, writer: Field,
                           hit: string -> bool, cutoff: Span -> int)
    requires IsNaturalOrder(order, news)
    requires time !in ["1day", "1week", "1month", "6month", "older"]
    ensures FilterNews(news, order, category, Some(time), searchText, writer, hit, cutoff)
         == FilterNews(news, order, category, None, searchText, writer, hit, cutoff)
  {
    assert PresetBound(Some(time), TimePresets) == PresetBound(None, TimePresets);
  }
}

=== FILE: ordering.dfy ===
/** Sequence operations the handlers share: order-preserving filtering (the
    database's `find` with a predicate, JavaScript's `Array.prototype.filter`
    and Mongo's `$pull`), JavaScript's stable `Array.prototype.sort` with a
    numeric comparator, and `skip`/`limit` windows. */
module Ordering {

  /** `a` is `b` with some elements left out, the rest in their original order. */
  ghost predicate Subseq<T(!new)>(a: seq<T>, b: seq<T>)
    decreases |b|
  {
    if |a| == 0 then true
    else if |b| == 0 then false
    else if a[0] == b[0] then Subseq(a[1..], b[1..])
    else Subseq(a, b[1..])
  }

  lemma {:induction false} SubseqRefl<T(!new)>(a: seq<T>)
    ensures Subseq(a, a)
    decreases |a|
  {
    if |a| > 0 {
      SubseqRefl(a[1..]);
    }
  }

  /** A subsequence of the tail is a subsequence of the whole. */
  lemma {:induction false} SubseqTail<T(!new)>(a: seq<T>, b: seq<T>)
    requires |b| > 0
    requires Subseq(a, b[1..])
    ensures Subseq(a, b)
    decreases |b|, 0
  {
    if |a| > 0 && a[0] == b[0] {
      SubseqDropFirst(a, b[1..]);
    }
  }

  /** Leaving out the first element of a subsequence keeps it a subsequence. */
  lemma {:induction false} SubseqDropFirst<T(!new)>(a: seq<T>, b: seq<T>)
    requires |a| > 0
    requires Subseq(a, b)
    ensures Subseq(a[1..], b)
    decreases |b|, 1
  {
    if a[0] == b[0] {
      SubseqTail(a[1..], b);
    } else {
      SubseqDropFirst(a, b[1..]);
      SubseqTail(a[1..], b);
    }
  }

  /** A subsequence of a subsequence is a subsequence. */
  lemma {:induction false} SubseqTrans<T(!new)>(a: seq<T>, b: seq<T>, c: seq<T>)
    requires Subseq(a, b) && Subseq(b, c)
    ensures Subseq(a, c)
    decreases |c|
  {
    if |a| > 0 {
      if b[0] == c[0] {
        if a[0] == b[0] {
          SubseqTrans(a[1..], b[1..], c[1..]);
        } else {
          SubseqTrans(a, b[1..], c[1..]);
          SubseqTail(a, c);
        }
      } else {
        SubseqTrans(a, b, c[1..]);
        SubseqTail(a, c);
      }
    }
  }

  /** Every element of a subsequence occurs in the sequence it was taken from. */
  lemma {:induction false} SubseqMembers<T(!new)>(a: seq<T>, b: seq<T>)
    requires Subseq(a, b)
    ensures forall x :: x in a ==> x in b
    decreases |b|
  {
    if |a| == 0 {
    } else if a[0] == b[0] {
      SubseqMembers(a[1..], b[1..]);
      assert forall x :: x in a ==> x == a[0] || x in a[1..];
    } else {
      SubseqMembers(a, b[1..]);
    }
  }

  /** The elements of `s` that satisfy `p`, in their original order. */
  function Filter<T(!new)>(s: seq<T>, p: T -> bool): (r: seq<T>)
    ensures forall x :: x in r <==> x in s && p(x)
    ensures forall x :: multiset(r)[x] == if p(x) then multiset(s)[x] else 0
    ensures forall i :: 0 <= i < |r| ==> p(r[i])
    ensures |r| <= |s|
    ensures Subseq(r, s)
    decreases |s|
  {
    if |s| == 0 then []
    else
      var rest := Filter(s[1..], p);
      FilterStepMembers(s, p, rest);
      FilterStepCounts(s, p, rest);
      FilterStepSubseq(s, p, rest);
      if p(s[0]) then [s[0]] + rest else rest
  }

  /** One step of `Filter`: what the filtered tail knows, the filtered
      sequence knows about its members. */
  lemma FilterStepMembers<T(!new)>(s: seq<T>, p: T -> bool, rest: seq<T>)
    requires |s| > 0
    requires forall x :: x in rest <==> x in s[1..] && p(x)
    requires forall i :: 0 <= i < |rest| ==> p(rest[i])
    ensures var r := if p(s[0]) then [s[0]] + rest else rest;
            && (forall x :: x in r <==> x in s && p(x))
            && (forall i :: 0 <= i < |r| ==> p(r[i]))
  {
    assert forall x :: x in s <==> x == s[0] || x in s[1..];
    if p(s[0]) {
      var r := [s[0]] + rest;
      assert forall i :: 0 < i < |r| ==> r[i] == rest[i - 1];
    }
  }

  /** One step of `Filter`, on occurrence counts. */
  lemma FilterStepCounts<T(!new)>(s: seq<T>, p: T -> bool, rest: seq<T>)
    requires |s| > 0
    requires forall x :: multiset(rest)[x] == if p(x) then multiset(s[1..])[x] else 0
    ensures var r := if p(s[0]) then [s[0]] + rest else rest;
            forall x :: multiset(r)[x] == if p(x) then multiset(s)[x] else 0
  {
    assert s == [s[0]] + s[1..];
    assert multiset(s) == multiset{s[0]} + multiset(s[1..]);
  }

  /** One step of `Filter`, on order. */
  lemma FilterStepSubseq<T(!new)>(s: seq<T>, p: T -> bool, rest: seq<T>)
    requires |s| > 0 && |rest| < |s| && Subseq(rest, s[1..])
    ensures var r := if p(s[0]) then [s[0]] + rest else rest;
            |r| <= |s| && Subseq(r, s)
  {
    if p(s[0]) {
      assert ([s[0]] + rest)[1..] == rest;
    } else {
      SubseqTail(rest, s);
    }
  }

  /** Filtering with a predicate every element satisfies changes nothing. */
  lemma {:induction false} FilterKeepsAll<T(!new)>(s: seq<T>, p: T -> bool)
    requires forall i :: 0 <= i < |s| ==> p(s[i])
    ensures Filter(s, p) == s
    decreases |s|
  {
    if |s| > 0 {
      assert forall i :: 0 <= i < |s[1..]| ==> p(s[1..][i]) by {
        forall i | 0 <= i < |s[1..]|
          ensures p(s[1..][i])
        {
          assert s[1..][i] == s[i + 1];
        }
      }
      FilterKeepsAll(s[1..], p);
      assert p(s[0]);
      assert Filter(s, p) == [s[0]] + Filter(s[1..], p);
      HeadTail(s);
    }
  }

  lemma TailAppend<T>(a: seq<T>, b: seq<T>)
    requires |a| > 0
    ensures (a + b)[0] == a[0] && (a + b)[1..] == a[1..] + b
  {
  }

  lemma ConsAppend<T>(x: T, a: seq<T>, b: seq<T>)
    ensures ([x] + a) + b == [x] + (a + b)
  {
  }

  lemma HeadTail<T>(s: seq<T>)
    requires |s| > 0
    ensures s == [s[0]] + s[1..]
  {
  }

  /** Filtering distributes over concatenation. */
  lemma {:induction false} FilterAppend<T(!new)>(a: seq<T>, b: seq<T>, p: T -> bool)
    ensures Filter(a + b, p) == Filter(a, p) + Filter(b, p)
    decreases |a|
  {
    if |a| > 0 {
      TailAppend(a, b);
      FilterAppend(a[1..], b, p);
      ConsAppend(a[0], Filter(a[1..], p), Filter(b, p));
    } else {
      assert a + b == b;
    }
  }

  /** Filtering out any element makes the sequence shorter. */
  lemma {:induction false} FilterDropsRejected<T(!new)>(s: seq<T>, p: T -> bool)
    ensures forall x :: x in s && !p(x) ==> |Filter(s, p)| < |s|
    decreases |s|
  {
    if |s| > 0 {
      FilterDropsRejected(s[1..], p);
      assert forall x :: x in s ==> x == s[0] || x in s[1..];
    }
  }

  /** No element occurs twice. */
  ghost predicate NoDup<T(!new)>(s: seq<T>)
  {
    forall x :: multiset(s)[x] <= 1
  }

  /** `s` without any occurrence of `x` (Mongoose's `array.pull(x)` and Mongo's `$pull`). */
  function Without<T(==,!new)>(s: seq<T>, x: T): (r: seq<T>)
    ensures x !in r
    ensures forall y :: y != x ==> multiset(r)[y] == multiset(s)[y]
    ensures Subseq(r, s)
    ensures x !in s ==> r == s
    decreases |s|
  {
    if |s| == 0 then []
    else
      var rest := Without(s[1..], x);
      assert s == [s[0]] + s[1..];
      assert multiset(s) == multiset{s[0]} + multiset(s[1..]);
      if s[0] == x then
        SubseqTail(rest, s);
        rest
      else
        assert ([s[0]] + rest)[1..] == rest;
        [s[0]] + rest
  }

  /** Pulling distributes over concatenation. */
  lemma {:induction false} WithoutAppend<T(!new)>(a: seq<T>, b: seq<T>, x: T)
    ensures Without(a + b, x) == Without(a, x) + Without(b, x)
    decreases |a|
  {
    if |a| > 0 {
      assert (a + b)[1..] == a[1..] + b;
      WithoutAppend(a[1..], b, x);
    } else {
      assert a + b == b;
    }
  }

  // ---------------------------------------------------------------------------
  // Stable sorting by an integer key

  /** The keys of `s` never decrease. */
  ghost predicate SortedBy<T(!new)>(s: seq<T>, key: T -> int)
  {
    forall i, j :: 0 <= i < j < |s| ==> key(s[i]) <= key(s[j])
  }

  /** The elements of `s` whose key is `k`, in their original order. */
  function WithKey<T(!new)>(s: seq<T>, key: T -> int, k: int): seq<T>
    decreases |s|
  {
    if |s| == 0 then []
    else if key(s[0]) == k then [s[0]] + WithKey(s[1..], key, k)
    else WithKey(s[1..], key, k)
  }

  /** `r` is what a stable sort of `s` by `key` produces: keys ascending, and
      elements with equal keys in the order they had in `s`. */
  ghost predicate IsStableSortOf<T(!new)>(r: seq<T>, s: seq<T>, key: T -> int)
  {
    && SortedBy(r, key)
    && multiset(r) == multiset(s)
    && forall k :: WithKey(r, key, k) == WithKey(s, key, k)
  }

  /** Inserts `x` before the first element whose key is at least `key(x)`. */
  function Insert<T(!new)>(x: T, s: seq<T>, key: T -> int): seq<T>
    decreases |s|
  {
    if |s| == 0 || key(x) <= key(s[0]) then [x] + s
    else [s[0]] + Insert(x, s[1..], key)
  }

  lemma {:induction false} InsertMultiset<T(!new)>(x: T, s: seq<T>, key: T -> int)
    ensures multiset(Insert(x, s, key)) == multiset{x} + multiset(s)
    ensures |Insert(x, s, key)| == |s| + 1
    decreases |s|
  {
    if |s| > 0 && key(x) > key(s[0]) {
      InsertMultiset(x, s[1..], key);
      assert s == [s[0]] + s[1..];
    }
  }

  lemma {:induction false} InsertSorted<T(!new)>(x: T, s: seq<T>, key: T -> int)
    requires SortedBy(s, key)
    ensures SortedBy(Insert(x, s, key), key)
    decreases |s|
  {
    if |s| > 0 && key(x) > key(s[0]) {
      var t := Insert(x, s[1..], key);
      InsertSorted(x, s[1..], key);
      assert forall i :: 0 <= i < |s[1..]| ==> key(s[0]) <= key(s[1..][i]) by {
        forall i | 0 <= i < |s[1..]|
          ensures key(s[0]) <= key(s[1..][i])
        {
          assert s[1..][i] == s[i + 1];
        }
      }
      InsertAbove(x, s[1..], key, key(s[0]));
      ConsSorted(s[0], t, key);
    }
  }

  /** Inserting an element no smaller than a bound into elements no smaller
      than it keeps every element above the bound. */
  lemma {:induction false} InsertAbove<T(!new)>(x: T, s: seq<T>, key: T -> int, b: int)
    requires b <= key(x) && forall i :: 0 <= i < |s| ==> b <= key(s[i])
    ensures forall j :: 0 <= j < |Insert(x, s, key)| ==> b <= key(Insert(x, s, key)[j])
    decreases |s|
  {
    var r := Insert(x, s, key);
    if |s| == 0 || key(x) <= key(s[0]) {
      forall j | 0 <= j < |r|
        ensures b <= key(r[j])
      {
        if j > 0 {
          assert r[j] == s[j - 1];
        }
      }
    } else {
      var t := Insert(x, s[1..], key);
      assert forall i :: 0 <= i < |s[1..]| ==> b <= key(s[1..][i]) by {
        forall i | 0 <= i < |s[1..]|
          ensures b <= key(s[1..][i])
        {
          assert s[1..][i] == s[i + 1];
        }
      }
      InsertAbove(x, s[1..], key, b);
      forall j | 0 <= j < |r|
        ensures b <= key(r[j])
      {
        if j > 0 {
          assert r[j] == t[j - 1];
        }
      }
    }
  }

  /** A sorted sequence stays sorted under an element no larger than any of it. */
  lemma ConsSorted<T(!new)>(a: T, t: seq<T>, key: T -> int)
    requires SortedBy(t, key)
    requires forall j :: 0 <= j < |t| ==> key(a) <= key(t[j])
    ensures SortedBy([a] + t, key)
  {
    var u := [a] + t;
    forall i, j | 0 <= i < j < |u|
      ensures key(u[i]) <= key(u[j])
    {
      if i > 0 {
        assert u[i] == t[i - 1] && u[j] == t[j - 1];
      } else {
        assert u[j] == t[j - 1];
      }
    }
  }

  /** Inserting `x` puts it first among the elements with its own key, and
      leaves the other keys' subsequences alone. */
  lemma {:induction false} InsertWithKey<T(!new)>(x: T, s: seq<T>, key: T -> int, k: int)
    ensures WithKey(Insert(x, s, key), key, k) == WithKey([x] + s, key, k)
    decreases |s|
  {
    if |s| == 0 || key(x) <= key(s[0]) {
    } else {
      InsertWithKey(x, s[1..], key, k);
      assert ([x] + s)[1..] == s;
      assert ([x] + s[1..])[1..] == s[1..];
      assert ([s[0]] + Insert(x, s[1..], key))[1..] == Insert(x, s[1..], key);
    }
  }

  /** Inserting the head of `s` into a stable sort of its tail gives a stable
      sort of `s`. */
  lemma InsertStable<T(!new)>(s: seq<T>, rest: seq<T>, key: T -> int)
    requires |s| > 0
    requires IsStableSortOf(rest, s[1..], key)
    ensures IsStableSortOf(Insert(s[0], rest, key), s, key)
  {
    InsertSorted(s[0], rest, key);
    InsertMultiset(s[0], rest, key);
    assert s == [s[0]] + s[1..];
    forall k
      ensures WithKey(Insert(s[0], rest, key), key, k) == WithKey(s, key, k)
    {
      InsertWithKey(s[0], rest, key, k);
      assert ([s[0]] + rest)[1..] == rest;
    }
  }

  /** Insertion sort, processing the input from the back so that equal keys
      keep their relative order. */
  function SortBy<T(!new)>(s: seq<T>, key: T -> int): (r: seq<T>)
    ensures |r| == |s|
    ensures IsStableSortOf(r, s, key)
    decreases |s|
  {
    if |s| == 0 then []
    else
      var rest := SortBy(s[1..], key);
      InsertStable(s, rest, key);
      InsertMultiset(s[0], rest, key);
      Insert(s[0], rest, key)
  }

  /** Sorting a sequence that is already in key order leaves it unchanged. */
  lemma SortBySorted<T(!new)>(s: seq<T>, key: T -> int)
    requires SortedBy(s, key)
    ensures SortBy(s, key) == s
  {
    StableSortUnique(SortBy(s, key), s, s, key);
  }

  /** A stable sort is determined by its input: any two stable sorts of the
      same sequence are equal, so `SortBy` is exactly the order that
      JavaScript's (stable) `Array.prototype.sort` produces. */
  lemma {:induction false} StableSortUnique<T(!new)>(r1: seq<T>, r2: seq<T>, s: seq<T>, key: T -> int)
    requires IsStableSortOf(r1, s, key)
    requires IsStableSortOf(r2, s, key)
    ensures r1 == r2
  {
    SortedKeyRunsDetermine(r1, r2, key);
  }

  lemma {:induction false} SortedKeyRunsDetermine<T(!new)>(r1: seq<T>, r2: seq<T>, key: T -> int)
    requires SortedBy(r1, key) && SortedBy(r2, key)
    requires forall k :: WithKey(r1, key, k) == WithKey(r2, key, k)
    ensures r1 == r2
    decreases |r1| + |r2|
  {
    WithKeyHead(r1, key);
    WithKeyHead(r2, key);
    if |r1| > 0 && |r2| > 0 {
      var k1, k2 := key(r1[0]), key(r2[0]);
      WithKeyAbsentBelow(r2, key, k1);
      WithKeyAbsentBelow(r1, key, k2);
      assert k1 == k2;
      assert r1[0] == r2[0];
      forall k
        ensures WithKey(r1[1..], key, k) == WithKey(r2[1..], key, k)
      {
        var w1, w2 := WithKey(r1, key, k), WithKey(r2, key, k);
        assert w1 == w2;
        if k == k1 {
          assert w1[1..] == WithKey(r1[1..], key, k);
          assert w2[1..] == WithKey(r2[1..], key, k);
        }
      }
      SortedTail(r1, key);
      SortedTail(r2, key);
      SortedKeyRunsDetermine(r1[1..], r2[1..], key);
      assert r1 == [r1[0]] + r1[1..];
      assert r2 == [r2[0]] + r2[1..];
    }
  }

  lemma SortedTail<T(!new)>(s: seq<T>, key: T -> int)
    requires |s| > 0 && SortedBy(s, key)
    ensures SortedBy(s[1..], key)
  {
  }

  /** The first element of a non-empty sequence heads its own key's run. */
  lemma WithKeyHead<T(!new)>(s: seq<T>, key: T -> int)
    ensures |s| > 0 ==> WithKey(s, key, key(s[0])) != [] && WithKey(s, key, key(s[0]))[0] == s[0]
  {
  }

  /** In a sorted sequence no element has a key below the first element's. */
  lemma {:induction false} WithKeyAbsentBelow<T(!new)>(s: seq<T>, key: T -> int, k: int)
    ensures |s| > 0 && SortedBy(s, key) && k < key(s[0]) ==> WithKey(s, key, k) == []
    decreases |s|
  {
    if |s| > 1 && SortedBy(s, key) && k < key(s[0]) {
      SortedTail(s, key);
      WithKeyAbsentBelow(s[1..], key, k);
    }
  }

  // ---------------------------------------------------------------------------
  // skip / limit

  /** At most the first `n` elements (`.limit(n)`, `slice(0, n)`). */
  function Take<T(!new)>(s: seq<T>, n: nat): (r: seq<T>)
    ensures |r| == if |s| < n then |s| else n
    ensures forall i :: 0 <= i < |r| ==> r[i] == s[i]
  {
    if |s| <= n then s else s[..n]
  }

  /** What `Take` keeps comes from the sequence, and a short result is all
      of it. */
  lemma TakeFrom<T(!new)>(s: seq<T>, n: nat)
    ensures forall x :: x in Take(s, n) ==> x in s
    ensures |Take(s, n)| < n ==> Take(s, n) == s
  {
  }

  /** A prefix is a subsequence. */
  lemma {:induction false} PrefixSubseq<T(!new)>(s: seq<T>, n: nat)
    requires n <= |s|
    ensures Subseq(s[..n], s)
    decreases n
  {
    if n > 0 {
      PrefixSubseq(s[1..], n - 1);
      assert s[..n][1..] == s[1..][..n - 1];
    }
  }

  /** `.skip(skip).limit(limit)` on a result list. */
  function Window<T(!new)>(s: seq<T>, skip: nat, limit: nat): (r: seq<T>)
    ensures |r| <= limit
    ensures forall i :: 0 <= i < |r| ==> skip + i < |s| && r[i] == s[skip + i]
    ensures |r| == if skip >= |s| then 0 else if |s| - skip < limit then |s| - skip else limit
  {
    if skip >= |s| then [] else Take(s[skip..], limit)
  }

  /** Consecutive pages of a paginated listing join up without gaps or
      overlaps: two pages of sizes `a` and `b` make one page of size `a + b`. */
  lemma {:induction false} WindowsTile<T(!new)>(s: seq<T>, skip: nat, a: nat, b: nat)
    ensures Window(s, skip, a) + Window(s, skip + a, b) == Window(s, skip, a + b)
  {
    var w1, w2, w := Window(s, skip, a), Window(s, skip + a, b), Window(s, skip, a + b);
    assert |w1| + |w2| == |w|;
    forall i | 0 <= i < |w|
      ensures (w1 + w2)[i] == w[i]
    {
      if i < |w1| {
      } else {
        assert (w1 + w2)[i] == w2[i - |w1|];
      }
    }
  }

  /** The last `n` elements (`slice(-n)`), all of `s` when it is shorter. */
  function LastN<T(!new)>(s: seq<T>, n: nat): (r: seq<T>)
    ensures |r| == if |s| < n then |s| else n
    ensures forall i :: 0 <= i < |r| ==> r[i] == s[|s| - |r| + i]
  {
    if |s| <= n then s else s[|s| - n..]
  }

  /** `s` in reverse order (`slice().reverse()`). */
  function Reverse<T(!new)>(s: seq<T>): (r: seq<T>)
    ensures |r| == |s|
    ensures forall i :: 0 <= i < |s| ==> r[i] == s[|s| - 1 - i]
  {
    if |s| == 0 then [] else Reverse(s[1..]) + [s[0]]
  }

  /** Reversing twice gives the original sequence back. */
  lemma ReverseInvolution<T(!new)>(s: seq<T>)
    ensures Reverse(Reverse(s)) == s
  {
  }
}

=== FILE: speech.dfy ===
/** `htmlToSsml` of controllers/speechController.js: eleven regular-expression
    rewrites that turn editor HTML into speech markup, then one that deletes
    every remaining tag. The expressions are modelled by a small backtracking
    matcher with the semantics of JavaScript's `String.prototype.replace`
    with the `g` flag: leftmost match, greedy and lazy repetition tried in
    the engine's order, capture groups and back-references. */
module Speech {
  import opened Common
  import opened Ordering
  import Js

  // ---------------------------------------------------------------------------
  // Characters

  /** ASCII upper case; every literal in the expressions is ASCII, and under
      the `i` flag without `u` a non-ASCII character never matches an ASCII
      one, so this is all the case folding the expressions see. */
  function Upper(c: char): char
  {
    if 'a' <= c <= 'z' then (c as int - 32) as char else c
  }

  predicate SameLetter(a: char, b: char)
  {
    Upper(a) == Upper(b)
  }

  datatype CharClass =
    | Is(c: char)           // one character, either case
    | NotChar(c: char)      // [^c]
    | HeadingDigit          // [1-6]
    | Space                 // \s
    | AnyButNewline         // .

  predicate InClass(c: char, k: CharClass)
  {
    match k
    case Is(d) => SameLetter(c, d)
    case NotChar(d) => c != d
    case HeadingDigit => '1' <= c <= '6'
    case Space => Js.IsSpace(c)
    case AnyButNewline => !Js.IsLineTerminator(c)
  }

  /** `w` occurs at `i` in `s`, letters compared without case. */
  predicate StartsWithAt(s: string, i: nat, w: string)
  {
    i + |w| <= |s| && forall j :: 0 <= j < |w| ==> SameLetter(s[i + j], w[j])
  }

  /** How many characters of class `k` follow position `i`. */
  function Run(s: string, i: nat, k: CharClass): (n: nat)
    requires i <= |s|
    ensures i + n <= |s|
    ensures forall j :: i <= j < i + n ==> InClass(s[j], k)
    ensures i + n == |s| || !InClass(s[i + n], k)
    decreases |s| - i
  {
    if i == |s| || !InClass(s[i], k) then 0 else 1 + Run(s, i + 1, k)
  }

  // ---------------------------------------------------------------------------
  // Expressions

  /** One element of an expression; every expression is a sequence of these. */
  datatype Item =
    | Text(w: string)                                  // a literal
    | One(k: CharClass)                                // a single character
    | Greedy(k: CharClass, min: nat, max: Option<nat>) // k*, k+ or k?
    | Lazy(k: CharClass, group: nat)                   // (k*?)
    | Choice(group: nat, alts: seq<string>)            // (a|b|…)
    | Ref(group: nat)                                  // \n
    | GtOrEnd                                          // (>|$)

  /** Capture groups: group number to the span it matched. */
  type Captures = map<nat, (nat, nat)>

  /** The text a group captured; an unset group reads as empty. */
  function Captured(s: string, caps: Captures, g: nat): string
  {
    if g in caps && caps[g].0 <= caps[g].1 <= |s| then s[caps[g].0..caps[g].1] else ""
  }

  function Capped(n: nat, max: Option<nat>): nat
  {
    if max.Some? && max.value < n then max.value else n
  }

  /** The first match of `p` at `i`, as the backtracking engine finds it: the
      end of the match and the groups captured. */
  function MatchFrom(p: seq<Item>, s: string, i: nat, caps: Captures): (r: Option<(nat, Captures)>)
    requires i <= |s|
    ensures r.Some? ==> i <= r.value.0 <= |s|
    decreases |p|, 1, 0
  {
    if |p| == 0 then Some((i, caps))
    else match p[0]
      case Text(w) =>
        if StartsWithAt(s, i, w) then MatchFrom(p[1..], s, i + |w|, caps) else None
      case One(k) =>
        if i < |s| && InClass(s[i], k) then MatchFrom(p[1..], s, i + 1, caps) else None
      case Greedy(k, min, max) =>
        var n := Capped(Run(s, i, k), max);
        if n < min then None else Longest(p, s, i, n, caps)
      case Lazy(k, g) =>
        Shortest(p, s, i, 0, Run(s, i, k), caps)
      case Choice(g, alts) =>
        FirstAlt(p, s, i, 0, caps)
      case Ref(g) =>
        var t := Captured(s, caps, g);
        if StartsWithAt(s, i, t) then MatchFrom(p[1..], s, i + |t|, caps) else None
      case GtOrEnd =>
        if i < |s| && s[i] == '>' then MatchFrom(p[1..], s, i + 1, caps)
        else if i == |s| then MatchFrom(p[1..], s, i, caps)
        else None
  }

  /** Greedy repetition: `k` repetitions first, then one fewer, down to the
      minimum. */
  function Longest(p: seq<Item>, s: string, i: nat, k: nat, caps: Captures): (r: Option<(nat, Captures)>)
    requires |p| > 0 && p[0].Greedy? && p[0].min <= k && i + k <= |s|
    ensures r.Some? ==> i <= r.value.0 <= |s|
    decreases |p|, 0, k
  {
    match MatchFrom(p[1..], s, i + k, caps)
    case Some(m) => Some(m)
    case None => if k == p[0].min then None else Longest(p, s, i, k - 1, caps)
  }

  /** Lazy repetition: `k` repetitions first, then one more, up to `n`. */
  function Shortest(p: seq<Item>, s: string, i: nat, k: nat, n: nat, caps: Captures): (r: Option<(nat, Captures)>)
    requires |p| > 0 && p[0].Lazy? && k <= n && i + n <= |s|
    ensures r.Some? ==> i <= r.value.0 <= |s|
    decreases |p|, 0, n - k
  {
    match MatchFrom(p[1..], s, i + k, caps[p[0].group := (i, i + k)])
    case Some(m) => Some(m)
    case None => if k == n then None else Shortest(p, s, i, k + 1, n, caps)
  }

  /** Alternation: the alternatives from `a` on, in order. */
  function FirstAlt(p: seq<Item>, s: string, i: nat, a: nat, caps: Captures): (r: Option<(nat, Captures)>)
    requires |p| > 0 && p[0].Choice? && i <= |s|
    ensures r.Some? ==> i <= r.value.0 <= |s|
    decreases |p|, 0, |p[0].alts| - a
  {
    if a >= |p[0].alts| then None
    else
      var w := p[0].alts[a];
      if !StartsWithAt(s, i, w) then FirstAlt(p, s, i, a + 1, caps)
      else match MatchFrom(p[1..], s, i + |w|, caps[p[0].group := (i, i + |w|)])
        case Some(m) => Some(m)
        case None => FirstAlt(p, s, i, a + 1, caps)
  }

  // ---------------------------------------------------------------------------
  // Replacement

  /** A replacement string: literal text and `$n` group references. */
  datatype Part = Lit(text: string) | Group(n: nat)

  function Expand(t: seq<Part>, s: string, caps: Captures): string
  {
    if |t| == 0 then ""
    else (match t[0] case Lit(x) => x case Group(g) => Captured(s, caps, g)) + Expand(t[1..], s, caps)
  }

  datatype Rule = Rule(pattern: seq<Item>, template: seq<Part>)

  /** Global replacement from `i`: each leftmost match is replaced by the
      expanded template and the search resumes after it; characters where no
      match starts are copied. */
  function ReplaceFrom(r: Rule, s: string, i: nat): (out: string)
    requires i <= |s|
    decreases |s| - i
  {
    match MatchFrom(r.pattern, s, i, map[])
    case Some(m) =>
      Expand(r.template, s, m.1)
      + (if m.0 > i then ReplaceFrom(r, s, m.0)
         else if i < |s| then [s[i]] + ReplaceFrom(r, s, i + 1)
         else "")
    case None =>
      if i < |s| then [s[i]] + ReplaceFrom(r, s, i + 1) else ""
  }

  function ReplaceAll(r: Rule, s: string): string
  {
    ReplaceFrom(r, s, 0)
  }

  // ---------------------------------------------------------------------------
  // The rewrites, in the order the controller applies them

  const AnyTag := Greedy(NotChar('>'), 0, None)
  const InQuotes := Greedy(NotChar('"'), 0, None)
  const Spaces := Greedy(Space, 0, None)

  /** `<span|strong … style="…font-weight: bold…">X</…>` */
  const BoldStyle := Rule(
    [Text("<"), Choice(1, ["span", "strong"]), AnyTag, Text("style=\""), InQuotes, Text("font-weight:"), Spaces,
     Choice(2, ["bold", "700", "800", "900"]), InQuotes, Text("\""), AnyTag, Text(">"), Lazy(AnyButNewline, 3),
     Text("</"), Ref(1), Text(">")],
    [Lit("<emphasis level=\"strong\">"), Group(3), Lit("</emphasis>")])

  /** `<b>X</b>`, `<strong>X</strong>` */
  const Bold := Rule(
    [Text("<"), Choice(1, ["b", "strong"]), Text(">"), Lazy(AnyButNewline, 2), Text("</"), Ref(1), Text(">")],
    [Lit("<emphasis level=\"strong\">"), Group(2), Lit("</emphasis>")])

  /** `<span|em|i … style="…font-style: italic…">X</…>` */
  const ItalicStyle := Rule(
    [Text("<"), Choice(1, ["span", "em", "i"]), AnyTag, Text("style=\""), InQuotes, Text("font-style:"), Spaces,
     Text("italic"), InQuotes, Text("\""), AnyTag, Text(">"), Lazy(AnyButNewline, 2), Text("</"), Ref(1), Text(">")],
    [Lit("<emphasis level=\"moderate\">"), Group(2), Lit("</emphasis>")])

  /** `<i>X</i>`, `<em>X</em>` */
  const Italic := Rule(
    [Text("<"), Choice(1, ["i", "em"]), Text(">"), Lazy(AnyButNewline, 2), Text("</"), Ref(1), Text(">")],
    [Lit("<emphasis level=\"moderate\">"), Group(2), Lit("</emphasis>")])

  /** `<span|u … style="…text-decoration: underline…">X</…>` */
  const UnderlineStyle := Rule(
    [Text("<"), Choice(1, ["span", "u"]), AnyTag, Text("style=\""), InQuotes, Text("text-decoration:"), Spaces,
     Text("underline"), InQuotes, Text("\""), AnyTag, Text(">"), Lazy(AnyButNewline, 2), Text("</"), Ref(1), Text(">")],
    [Lit("<prosody pitch=\"+10%\">"), Group(2), Lit("</prosody>")])

  /** `<u>X</u>` */
  const Underline := Rule(
    [Text("<u>"), Lazy(AnyButNewline, 1), Text("</u>")],
    [Lit("<prosody pitch=\"+10%\">"), Group(1), Lit("</prosody>")])

  /** `<h1 …>X</h6>`: the closing level need not match the opening one. */
  const Heading := Rule(
    [Text("<h"), One(HeadingDigit), AnyTag, Text(">"), Lazy(AnyButNewline, 1), Text("</h"), One(HeadingDigit), Text(">")],
    [Lit("<break time=\"500ms\"/><prosody rate=\"slow\">"), Group(1), Lit("</prosody><break time=\"500ms\"/>")])

  const Pause300 := "<break time=\"300ms\"/>"

  /** `<li …>X</li>` becomes a bullet between two pauses. */
  const ListItem := Rule(
    [Text("<li"), AnyTag, Text(">"), Lazy(AnyButNewline, 1), Text("</li>")],
    [Lit(Pause300 + "• "), Group(1), Lit(Pause300)])

  /** `<br>`, `<br/>`, `<br />` */
  const LineBreak := Rule(
    [Text("<br"), Spaces, Greedy(Is('/'), 0, Some(1)), Text(">")],
    [Lit("<break time=\"800ms\"/>")])

  const ParagraphEnd := Rule([Text("</p>")], [Lit("<break time=\"1200ms\"/>")])

  /** `<p …>`, which also matches any tag whose name starts with p. */
  const ParagraphStart := Rule([Text("<p"), AnyTag, Text(">")], [Lit("<break time=\"400ms\"/>")])

  const Rewrites := [BoldStyle, Bold, ItalicStyle, Italic, UnderlineStyle, Underline, Heading, ListItem,
                     LineBreak, ParagraphEnd, ParagraphStart]

  /** The clean-up pass, `<`, an optional `/`, at least one character other
      than `>`, then `>` or the end of the input; each match is deleted. */
  const StripTail := [Greedy(NotChar('>'), 1, None), GtOrEnd]
  const StripPattern := [Text("<"), Greedy(Is('/'), 0, Some(1))] + StripTail
  const Cleanup := Rule(StripPattern, [])

  function ApplyAll(rules: seq<Rule>, s: string): string
    decreases |rules|
  {
    if |rules| == 0 then s else ApplyAll(rules[1..], ReplaceAll(rules[0], s))
  }

  // ---------------------------------------------------------------------------
  // What the clean-up pass does, stated without the matcher

  /** Just past the first `>` at or after `j`, or the end of `s`. */
  function PastGt(s: string, j: nat): (k: nat)
    requires j <= |s|
    ensures j <= k <= |s|
    ensures forall x :: j <= x < k - 1 ==> s[x] != '>'
    ensures k == |s| || (k > j && s[k - 1] == '>')
    ensures k < |s| ==> k > j && s[k - 1] == '>'
    decreases |s| - j
  {
    if j == |s| then |s| else if s[j] == '>' then j + 1 else PastGt(s, j + 1)
  }

  /** A tag the clean-up deletes starts at `i`: a `<` followed by something
      other than `>`. */
  predicate OpensTag(s: string, i: nat)
  {
    i + 1 < |s| && s[i] == '<' && s[i + 1] != '>'
  }

  /** The clean-up from `i`: every `<` followed by a character other than
      `>` is deleted through the next `>`, or through the end when there is
      none; everything else is kept. */
  function StripFrom(s: string, i: nat): (r: string)
    requires i <= |s|
    decreases |s| - i
  {
    if i == |s| then ""
    else if OpensTag(s, i) then StripFrom(s, PastGt(s, i + 1))
    else [s[i]] + StripFrom(s, i + 1)
  }

  /** No `<` is left that the clean-up would delete: each is last or is
      followed by `>`. */
  predicate Clean(s: string)
  {
    forall i :: 0 <= i < |s| ==> !OpensTag(s, i)
  }

  /** The whole transformation: the rewrites, then the clean-up. Nothing is
      wrapped around the result. */
  function HtmlToSsml(html: string): (r: string)
    ensures Clean(r)
    ensures Subseq(r, ApplyAll(Rewrites, html))
  {
    var marked := ApplyAll(Rewrites, html);
    CleanupMeaning(marked);
    StripClean(marked, 0);
    StripSubseq(marked, 0);
    ReplaceAll(Cleanup, marked)
  }

  // ---------------------------------------------------------------------------
  // The matcher runs the clean-up as stated

  lemma StripTailMatch(s: string, j: nat, caps: Captures)
    requires j <= |s|
    ensures MatchFrom(StripTail, s, j, caps) ==
      if j < |s| && s[j] != '>' then Some((PastGt(s, j), caps)) else None
  {
    var n := Run(s, j, NotChar('>'));
    assert Capped(n, None) == n;
    if n >= 1 {
      assert StripTail[1..] == [GtOrEnd];
      assert [GtOrEnd][1..] == [];
      RunToGt(s, j);
      assert MatchFrom([GtOrEnd], s, j + n, caps) == Some((PastGt(s, j), caps));
    }
  }

  /** The run of non-`>` characters ends where `PastGt` says. */
  lemma {:induction false} RunToGt(s: string, j: nat)
    requires j <= |s|
    ensures var n := Run(s, j, NotChar('>'));
            PastGt(s, j) == if j + n < |s| then j + n + 1 else j + n
    decreases |s| - j
  {
    if j < |s| && s[j] != '>' {
      RunToGt(s, j + 1);
    }
  }

  lemma StripMatch(s: string, i: nat)
    requires i <= |s|
    ensures MatchFrom(StripPattern, s, i, map[]).Some? <==> OpensTag(s, i)
    ensures OpensTag(s, i) ==> MatchFrom(StripPattern, s, i, map[]).value.0 == PastGt(s, i + 1)
  {
    var p := StripPattern;
    var c: Captures := map[];
    assert p[1..] == [Greedy(Is('/'), 0, Some(1))] + StripTail;
    assert p[1..][1..] == StripTail;
    if StartsWithAt(s, i, "<") {
      assert s[i] == '<' by { assert SameLetter(s[i + 0], "<"[0]); }
      var q := p[1..];
      assert MatchFrom(p, s, i, c) == MatchFrom(q, s, i + 1, c);
      var n := Capped(Run(s, i + 1, Is('/')), Some(1));
      assert MatchFrom(q, s, i + 1, c) == Longest(q, s, i + 1, n, c);
      StripTailMatch(s, i + 1, c);
      assert Longest(q, s, i + 1, 0, c) == MatchFrom(StripTail, s, i + 1, c);
      if n == 1 {
        assert s[i + 1] == '/';
        StripTailMatch(s, i + 2, c);
        if i + 2 < |s| && s[i + 2] != '>' {
          assert PastGt(s, i + 1) == PastGt(s, i + 2);
        }
      }
    }
  }

  /** The clean-up pass is `StripFrom`. */
  lemma {:induction false} CleanupMeaningFrom(s: string, i: nat)
    requires i <= |s|
    ensures ReplaceFrom(Cleanup, s, i) == StripFrom(s, i)
    decreases |s| - i
  {
    StripMatch(s, i);
    if OpensTag(s, i) {
      CleanupMeaningFrom(s, PastGt(s, i + 1));
    } else if i < |s| {
      CleanupMeaningFrom(s, i + 1);
    }
  }

  lemma CleanupMeaning(s: string)
    ensures ReplaceAll(Cleanup, s) == StripFrom(s, 0)
  {
    CleanupMeaningFrom(s, 0);
  }

  // ---------------------------------------------------------------------------
  // Properties of the clean-up

  /** What the clean-up leaves is clean, and keeps a leading `>`. */
  lemma {:induction false} StripClean(s: string, i: nat)
    requires i <= |s|
    ensures Clean(StripFrom(s, i))
    ensures i < |s| && s[i] == '>' ==> |StripFrom(s, i)| > 0 && StripFrom(s, i)[0] == '>'
    decreases |s| - i
  {
    if i < |s| {
      if OpensTag(s, i) {
        StripClean(s, PastGt(s, i + 1));
      } else {
        StripClean(s, i + 1);
        var rest := StripFrom(s, i + 1);
        var r := [s[i]] + rest;
        forall x | 0 <= x < |r|
          ensures !OpensTag(r, x)
        {
          if x > 0 {
            assert r[x] == rest[x - 1];
            if x + 1 < |r| {
              assert r[x + 1] == rest[x];
            }
            assert !OpensTag(rest, x - 1);
          }
        }
      }
    }
  }

  /** A clean string passes the clean-up unchanged. */
  lemma {:induction false} StripKeepsClean(s: string, i: nat)
    requires i <= |s| && Clean(s)
    ensures StripFrom(s, i) == s[i..]
    decreases |s| - i
  {
    if i < |s| {
      assert !OpensTag(s, i);
      StripKeepsClean(s, i + 1);
    }
  }

  /** The clean-up is idempotent. */
  lemma StripIdempotent(s: string)
    ensures ReplaceAll(Cleanup, ReplaceAll(Cleanup, s)) == ReplaceAll(Cleanup, s)
  {
    CleanupMeaning(s);
    var t := StripFrom(s, 0);
    StripClean(s, 0);
    CleanupMeaning(t);
    StripKeepsClean(t, 0);
  }

  /** The clean-up only deletes: what is left keeps its order. */
  lemma {:induction false} StripSubseq(s: string, i: nat)
    requires i <= |s|
    ensures Subseq(StripFrom(s, i), s[i..])
    decreases |s| - i
  {
    if i < |s| {
      if OpensTag(s, i) {
        var k := PastGt(s, i + 1);
        StripSubseq(s, k);
        DropPrefixSubseq(StripFrom(s, k), s, i, k);
      } else {
        StripSubseq(s, i + 1);
        assert s[i..][1..] == s[i + 1..];
      }
    }
  }

  /** A subsequence of a suffix is a subsequence of a longer suffix. */
  lemma {:induction false} DropPrefixSubseq(a: string, s: string, i: nat, k: nat)
    requires i <= k <= |s|
    requires Subseq(a, s[k..])
    ensures Subseq(a, s[i..])
    decreases k - i
  {
    if i < k {
      DropPrefixSubseq(a, s, i + 1, k);
      assert s[i..][1..] == s[i + 1..];
      SubseqTail(a, s[i..]);
    }
  }

  // ---------------------------------------------------------------------------
  // Text without tags passes through

  /** The expression opens with a literal `<`, as every one here does. */
  predicate OpensWithLt(p: seq<Item>)
  {
    |p| > 0 && p[0].Text? && |p[0].w| > 0 && p[0].w[0] == '<'
  }

  lemma NoMatchWithoutLt(p: seq<Item>, s: string, i: nat)
    requires OpensWithLt(p) && i <= |s|
    requires i == |s| || s[i] != '<'
    ensures MatchFrom(p, s, i, map[]).None?
  {
    if i < |s| {
      assert !SameLetter(s[i + 0], p[0].w[0]);
    }
  }

  /** Where the expression matches nowhere, the replacement copies. */
  lemma {:induction false} UntouchedFrom(r: Rule, s: string, i: nat)
    requires i <= |s|
    requires forall j :: i <= j <= |s| ==> MatchFrom(r.pattern, s, j, map[]).None?
    ensures ReplaceFrom(r, s, i) == s[i..]
    decreases |s| - i
  {
    if i < |s| {
      UntouchedFrom(r, s, i + 1);
      assert s[i..] == [s[i]] + s[i + 1..];
    }
  }

  lemma RuleKeepsPlain(r: Rule, s: string)
    requires OpensWithLt(r.pattern) && '<' !in s
    ensures ReplaceAll(r, s) == s
  {
    forall j | 0 <= j <= |s|
      ensures MatchFrom(r.pattern, s, j, map[]).None?
    {
      NoMatchWithoutLt(r.pattern, s, j);
    }
    UntouchedFrom(r, s, 0);
  }

  /** Rules that each leave `s` alone leave it alone together. */
  lemma {:induction false} ApplyAllKeeps(rules: seq<Rule>, s: string, m: nat)
    requires m <= |rules|
    requires forall k :: 0 <= k < m ==> ReplaceAll(rules[k], s) == s
    ensures ApplyAll(rules, s) == ApplyAll(rules[m..], s)
    decreases m
  {
    if m > 0 {
      ApplyAllKeeps(rules[1..], s, m - 1);
      assert rules[1..][m - 1..] == rules[m..];
    }
  }

  lemma EveryRuleOpensWithLt()
    ensures forall k :: 0 <= k < |Rewrites| ==> OpensWithLt(Rewrites[k].pattern)
    ensures OpensWithLt(Cleanup.pattern)
  {
  }

  /** Input without a `<` comes out unchanged: every expression needs one. */
  lemma PlainTextUnchanged(html: string)
    requires '<' !in html
    ensures HtmlToSsml(html) == html
  {
    EveryRuleOpensWithLt();
    forall k | 0 <= k < |Rewrites|
      ensures ReplaceAll(Rewrites[k], html) == html
    {
      RuleKeepsPlain(Rewrites[k], html);
    }
    ApplyAllKeeps(Rewrites, html, |Rewrites|);
    RuleKeepsPlain(Cleanup, html);
  }

  // ---------------------------------------------------------------------------
  // A list item is read as a bullet

  /** The character after `<` already rules the expression out: it differs
      from the literal's second character, or from the first character of
      every alternative of an opening choice. */
  predicate SecondBlocks(p: seq<Item>, c: char)
  {
    || (|p| > 0 && p[0].Text? && |p[0].w| >= 2 && !SameLetter(c, p[0].w[1]))
    || (|p| > 1 && p[0] == Text("<") && p[1].Choice?
        && forall a :: 0 <= a < |p[1].alts| ==> |p[1].alts[a]| > 0 && !SameLetter(c, p[1].alts[a][0]))
  }

  lemma {:induction false} NoAlternative(q: seq<Item>, s: string, i: nat, a: nat, caps: Captures)
    requires |q| > 0 && q[0].Choice? && i < |s|
    requires forall b :: a <= b < |q[0].alts| ==> |q[0].alts[b]| > 0 && !SameLetter(s[i], q[0].alts[b][0])
    ensures FirstAlt(q, s, i, a, caps).None?
    decreases |q[0].alts| - a
  {
    if a < |q[0].alts| {
      var w := q[0].alts[a];
      assert !SameLetter(s[i + 0], w[0]);
      NoAlternative(q, s, i, a + 1, caps);
    }
  }

  lemma SecondBlocksMatch(p: seq<Item>, s: string, j: nat)
    requires j + 1 < |s| && SecondBlocks(p, s[j + 1])
    ensures MatchFrom(p, s, j, map[]).None?
  {
    if |p| > 0 && p[0].Text? && |p[0].w| >= 2 && !SameLetter(s[j + 1], p[0].w[1]) {
      assert !SameLetter(s[j + 1], p[0].w[1]);
    } else {
      if StartsWithAt(s, j, "<") {
        NoAlternative(p[1..], s, j + 1, 0, map[]);
      }
    }
  }

  /** A rule leaves `s` alone when every `<` in it is followed by a
      character that rules the expression out. */
  lemma UntouchedBySecond(r: Rule, s: string, cs: set<char>)
    requires OpensWithLt(r.pattern)
    requires forall c :: c in cs ==> SecondBlocks(r.pattern, c)
    requires forall j :: 0 <= j < |s| && s[j] == '<' ==> j + 1 < |s| && s[j + 1] in cs
    ensures ReplaceAll(r, s) == s
  {
    forall j | 0 <= j <= |s|
      ensures MatchFrom(r.pattern, s, j, map[]).None?
    {
      if j < |s| && s[j] == '<' {
        SecondBlocksMatch(r.pattern, s, j);
      } else {
        NoMatchWithoutLt(r.pattern, s, j);
      }
    }
    UntouchedFrom(r, s, 0);
  }

  /** The formatting rules are ruled out by `<l` and `</`. */
  lemma FormattingSkipsListTags()
    ensures forall k :: 0 <= k < 7 ==> SecondBlocks(Rewrites[k].pattern, 'l') && SecondBlocks(Rewrites[k].pattern, '/')
  {
    var rules := [BoldStyle, Bold, ItalicStyle, Italic, UnderlineStyle, Underline, Heading];
    forall k | 0 <= k < 7
      ensures SecondBlocks(rules[k].pattern, 'l') && SecondBlocks(rules[k].pattern, '/')
    {
      if k == 0 {
        OpensWithChoice(BoldStyle.pattern);
      } else if k == 1 {
        OpensWithChoice(Bold.pattern);
      } else if k == 2 {
        OpensWithChoice(ItalicStyle.pattern);
      } else if k == 3 {
        OpensWithChoice(Italic.pattern);
      } else if k == 4 {
        OpensWithChoice(UnderlineStyle.pattern);
      } else if k == 5 {
        assert SecondBlocks(Underline.pattern, 'l') && SecondBlocks(Underline.pattern, '/');
      } else {
        assert SecondBlocks(Heading.pattern, 'l') && SecondBlocks(Heading.pattern, '/');
      }
    }
    assert forall k :: 0 <= k < 7 ==> Rewrites[k] == rules[k];
  }

  /** A pattern opening with `<` and a choice of tag names that start with one
      of `s`, `b`, `e`, `i`, `u` cannot match at `<l` or `</`. */
  lemma OpensWithChoice(p: seq<Item>)
    requires |p| > 1 && p[0] == Text("<") && p[1].Choice?
    requires forall a :: 0 <= a < |p[1].alts| ==> |p[1].alts[a]| > 0 && p[1].alts[a][0] in "sbeiu"
    ensures SecondBlocks(p, 'l') && SecondBlocks(p, '/')
  {
  }

  /** The paragraph rules are ruled out by `<b`. */
  lemma ParagraphsSkipBreaks()
    ensures SecondBlocks(ParagraphEnd.pattern, 'b') && SecondBlocks(ParagraphStart.pattern, 'b')
  {
  }

  /** `<br` matches the start of `<break` but the rest fails. */
  lemma LineBreakMissesBreak(s: string, j: nat)
    requires j + 4 <= |s| && s[j] == '<' && s[j + 1] == 'b' && s[j + 2] == 'r' && s[j + 3] == 'e'
    ensures MatchFrom(LineBreak.pattern, s, j, map[]).None?
  {
    var p := LineBreak.pattern;
    var c: Captures := map[];
    assert StartsWithAt(s, j, "<br");
    var p1 := p[1..];
    assert p1 == [Spaces, Greedy(Is('/'), 0, Some(1)), Text(">")];
    assert Run(s, j + 3, Space) == 0;
    var p2 := p1[1..];
    assert p2 == [Greedy(Is('/'), 0, Some(1)), Text(">")];
    assert Run(s, j + 3, Is('/')) == 0;
    var p3 := p2[1..];
    assert p3 == [Text(">")];
    assert !SameLetter(s[j + 3 + 0], ">"[0]);
    assert MatchFrom(p3, s, j + 3, c).None?;
    assert Longest(p2, s, j + 3, 0, c).None?;
    assert Longest(p1, s, j + 3, 0, c).None?;
  }

  lemma {:induction false} RunCovers(s: string, i: nat, k: CharClass, e: nat)
    requires i <= e <= |s|
    requires forall j :: i <= j < e ==> InClass(s[j], k)
    ensures Run(s, i, k) >= e - i
    decreases e - i
  {
    if i < e {
      RunCovers(s, i + 1, k, e);
    }
  }

  /** Text that `.` can cross and that holds no `<`. */
  predicate ItemText(x: string)
  {
    forall k :: 0 <= k < |x| ==> x[k] != '<' && !Js.IsLineTerminator(x[k])
  }

  /** The lazy item text stops at the first `</li>`. */
  lemma {:induction false} ItemTextLazy(x: string, k: nat, n: nat)
    requires ItemText(x) && k <= |x| <= n && 4 + n <= |x| + 9
    ensures var s := "<li>" + x + "</li>";
            var q := [Lazy(AnyButNewline, 1), Text("</li>")];
            Shortest(q, s, 4, k, n, map[]) == Some((|s|, map[1 := (4, 4 + |x|)]))
    decreases |x| - k
  {
    var s := "<li>" + x + "</li>";
    var q := [Lazy(AnyButNewline, 1), Text("</li>")];
    assert q[1..] == [Text("</li>")];
    if k < |x| {
      CloseTagNotAt(x, k, map[1 := (4, 4 + k)]);
      ItemTextLazy(x, k + 1, n);
    } else {
      CloseTagAt(x, map[1 := (4, 4 + |x|)]);
    }
  }

  /** Inside the item text the closing tag cannot start. */
  lemma CloseTagNotAt(x: string, k: nat, caps: Captures)
    requires ItemText(x) && k < |x|
    ensures MatchFrom([Text("</li>")], "<li>" + x + "</li>", 4 + k, caps).None?
  {
    var s := "<li>" + x + "</li>";
    assert s[4 + k + 0] == x[k];
    assert !SameLetter(s[4 + k + 0], "</li>"[0]);
    assert !StartsWithAt(s, 4 + k, "</li>");
  }

  /** Right after the item text the closing tag ends the match. */
  lemma CloseTagAt(x: string, caps: Captures)
    ensures var s := "<li>" + x + "</li>";
            MatchFrom([Text("</li>")], s, 4 + |x|, caps) == Some((|s|, caps))
  {
    var s := "<li>" + x + "</li>";
    assert StartsWithAt(s, 4 + |x|, "</li>");
    assert [Text("</li>")][1..] == [];
  }

  lemma ListItemMatch(x: string)
    requires ItemText(x)
    ensures var s := "<li>" + x + "</li>";
            MatchFrom(ListItem.pattern, s, 0, map[]) == Some((|s|, map[1 := (4, 4 + |x|)]))
  {
    var s := "<li>" + x + "</li>";
    var c: Captures := map[];
    var p := ListItem.pattern;
    assert StartsWithAt(s, 0, "<li");
    var p1 := p[1..];
    assert p1 == [AnyTag, Text(">"), Lazy(AnyButNewline, 1), Text("</li>")];
    assert Run(s, 3, NotChar('>')) == 0;
    var p2 := p1[1..];
    assert p2 == [Text(">"), Lazy(AnyButNewline, 1), Text("</li>")];
    assert Longest(p1, s, 3, 0, c) == MatchFrom(p2, s, 3, c);
    assert StartsWithAt(s, 3, ">");
    var p3 := p2[1..];
    assert p3 == [Lazy(AnyButNewline, 1), Text("</li>")];
    var n := Run(s, 4, AnyButNewline);
    RunCovers(s, 4, AnyButNewline, |s|);
    ItemTextLazy(x, 0, n);
  }

  /** The formatting rules leave `<li>X</li>` alone. */
  lemma ListItemSkipsFormatting(x: string)
    requires ItemText(x)
    ensures var s := "<li>" + x + "</li>";
            ApplyAll(Rewrites, s) == ApplyAll(Rewrites[7..], s)
  {
    var s := "<li>" + x + "</li>";
    forall j | 4 <= j < 4 + |x|
      ensures s[j] != '<'
    {
      assert s[j] == x[j - 4];
    }
    assert forall j :: 0 <= j < |s| && s[j] == '<' ==> j + 1 < |s| && s[j + 1] in {'l', '/'};
    FormattingSkipsListTags();
    EveryRuleOpensWithLt();
    forall k | 0 <= k < 7
      ensures ReplaceAll(Rewrites[k], s) == s
    {
      UntouchedBySecond(Rewrites[k], s, {'l', '/'});
    }
    ApplyAllKeeps(Rewrites, s, 7);
  }

  /** The list-item rule puts a pause on either side of the bullet. */
  lemma ListItemReplaced(x: string)
    requires ItemText(x)
    ensures ReplaceAll(ListItem, "<li>" + x + "</li>") == Pause300 + "• " + x + Pause300
  {
    var s := "<li>" + x + "</li>";
    var caps: Captures := map[1 := (4, 4 + |x|)];
    ListItemMatch(x);
    NoMatchWithoutLt(ListItem.pattern, s, |s|);
    assert ReplaceFrom(ListItem, s, |s|) == "";
    assert Captured(s, caps, 1) == x by { assert s[4..4 + |x|] == x; }
    var tl := ListItem.template;
    assert tl[1..] == [Group(1), Lit(Pause300)];
    assert tl[1..][1..] == [Lit(Pause300)];
    assert Expand([Lit(Pause300)], s, caps) == Pause300;
    assert Expand(tl[1..], s, caps) == x + Pause300;
    assert Expand(tl, s, caps) == Pause300 + "• " + x + Pause300;
    assert ReplaceFrom(ListItem, s, 0) == Expand(tl, s, caps) + ReplaceFrom(ListItem, s, |s|);
  }

  /** Each `<` of the paused item opens a `<break`. */
  predicate LtOpensBreak(t: string)
  {
    forall j :: 0 <= j < |t| && t[j] == '<' ==>
      j + 4 <= |t| && t[j + 1] == 'b' && t[j + 2] == 'r' && t[j + 3] == 'e'
  }

  lemma PausedItemBreaks(x: string)
    requires ItemText(x)
    ensures LtOpensBreak(Pause300 + "• " + x + Pause300)
  {
    var w := "• " + x;
    var t := Pause300 + w + Pause300;
    assert t == Pause300 + "• " + x + Pause300;
    PauseShape();
    BulletPlain(x);
    forall j | 0 <= j < |t|
      ensures t[j] == '<' ==> j + 4 <= |t| && t[j + 1] == 'b' && t[j + 2] == 'r' && t[j + 3] == 'e'
    {
      if j < 21 {
        assert t[j] == Pause300[j];
      } else if j < 21 + |w| {
        assert t[j] == w[j - 21];
      } else {
        assert t[j] == Pause300[j - 21 - |w|];
      }
    }
  }

  /** The break and paragraph rules leave a text alone whose tags are all
      `<break`s. */
  lemma BreaksSkipped(t: string)
    requires LtOpensBreak(t)
    ensures ApplyAll([LineBreak, ParagraphEnd, ParagraphStart], t) == t
  {
    forall j | 0 <= j <= |t|
      ensures MatchFrom(LineBreak.pattern, t, j, map[]).None?
    {
      if j < |t| && t[j] == '<' {
        LineBreakMissesBreak(t, j);
      } else {
        NoMatchWithoutLt(LineBreak.pattern, t, j);
      }
    }
    UntouchedFrom(LineBreak, t, 0);
    ParagraphsSkipBreaks();
    UntouchedBySecond(ParagraphEnd, t, {'b'});
    UntouchedBySecond(ParagraphStart, t, {'b'});
    ApplyAllKeeps([LineBreak, ParagraphEnd, ParagraphStart], t, 3);
  }

  /** Only the list-item rule changes `<li>X</li>`. */
  lemma ListItemRewritten(x: string)
    requires ItemText(x)
    ensures ApplyAll(Rewrites, "<li>" + x + "</li>") == Pause300 + "• " + x + Pause300
  {
    var s := "<li>" + x + "</li>";
    ListItemSkipsFormatting(x);
    assert Rewrites[7..] == [ListItem, LineBreak, ParagraphEnd, ParagraphStart];
    ListItemReplaced(x);
    assert [ListItem, LineBreak, ParagraphEnd, ParagraphStart][1..] == [LineBreak, ParagraphEnd, ParagraphStart];
    PausedItemBreaks(x);
    BreaksSkipped(Pause300 + "• " + x + Pause300);
  }

  lemma PauseShape()
    ensures |Pause300| == 21 && Pause300[0] == '<' && Pause300[1] == 'b' && Pause300[2] == 'r' && Pause300[3] == 'e'
    ensures Pause300[20] == '>'
    ensures forall k :: 1 <= k < 20 ==> Pause300[k] != '>' && Pause300[k] != '<'
  {
  }

  lemma {:induction false} PastGtAt(s: string, j: nat, e: nat)
    requires j <= e < |s| && s[e] == '>'
    requires forall k :: j <= k < e ==> s[k] != '>'
    ensures PastGt(s, j) == e + 1
    decreases e - j
  {
    if j < e {
      PastGtAt(s, j + 1, e);
    }
  }

  /** A stretch without `<` survives the clean-up as it is. */
  lemma {:induction false} StripKeepsPlainRun(s: string, i: nat, e: nat)
    requires i <= e <= |s|
    requires forall k :: i <= k < e ==> s[k] != '<'
    ensures StripFrom(s, i) == s[i..e] + StripFrom(s, e)
    decreases e - i
  {
    if i < e {
      StripStep(s, i);
      StripKeepsPlainRun(s, i + 1, e);
      ConsRun(s, i, e, StripFrom(s, e));
    }
  }

  /** A character that opens no tag is kept. */
  lemma StripStep(s: string, i: nat)
    requires i < |s| && s[i] != '<'
    ensures StripFrom(s, i) == [s[i]] + StripFrom(s, i + 1)
  {
    assert !OpensTag(s, i);
  }

  lemma ConsRun(s: string, i: nat, e: nat, rest: string)
    requires i < e <= |s|
    ensures [s[i]] + (s[i + 1..e] + rest) == s[i..e] + rest
  {
    assert s[i..e] == [s[i]] + s[i + 1..e];
  }

  /** A single-line `<li>X</li>` is read as "• X": the pauses put around it
      are deleted again by the clean-up. */
  lemma ListItemSpoken(x: string)
    requires ItemText(x)
    ensures HtmlToSsml("<li>" + x + "</li>") == "• " + x
  {
    var t := Pause300 + "• " + x + Pause300;
    ListItemRewritten(x);
    CleanupMeaning(t);
    PausedBulletCleaned(x);
  }

  /** The clean-up of the paused bullet leaves the bullet and the text. */
  lemma PausedBulletCleaned(x: string)
    requires ItemText(x)
    ensures StripFrom(Pause300 + "• " + x + Pause300, 0) == "• " + x
  {
    var w := "• " + x;
    var t := Pause300 + w + Pause300;
    assert t == Pause300 + "• " + x + Pause300;
    ThreeParts(Pause300, w, Pause300);
    PauseStripped(t, 0);
    BulletPlain(x);
    PlainKept(t, 21, w);
    PauseStripped(t, 21 + |w|);
  }

  lemma BulletPlain(x: string)
    requires ItemText(x)
    ensures forall k :: 0 <= k < |"• " + x| ==> ("• " + x)[k] != '<'
  {
    var w := "• " + x;
    forall k | 0 <= k < |w|
      ensures w[k] != '<'
    {
      if k >= 2 {
        assert w[k] == x[k - 2];
      }
    }
  }

  lemma ThreeParts<T>(a: seq<T>, b: seq<T>, c: seq<T>)
    ensures (a + b + c)[..|a|] == a
    ensures (a + b + c)[|a|..|a| + |b|] == b
    ensures (a + b + c)[|a| + |b|..|a| + |b| + |c|] == c
  {
  }

  /** The clean-up deletes a pause wherever it stands. */
  lemma PauseStripped(s: string, i: nat)
    requires i + 21 <= |s| && s[i..i + 21] == Pause300
    ensures StripFrom(s, i) == StripFrom(s, i + 21)
  {
    PauseShape();
    assert s[i] == Pause300[0] && s[i + 1] == Pause300[1];
    assert OpensTag(s, i);
    forall k | i + 1 <= k < i + 20
      ensures s[k] != '>'
    {
      assert s[k] == Pause300[k - i];
    }
    assert s[i + 20] == Pause300[20];
    PastGtAt(s, i + 1, i + 20);
  }

  /** Text without `<` survives the clean-up as it is. */
  lemma PlainKept(s: string, i: nat, w: string)
    requires i + |w| <= |s| && s[i..i + |w|] == w
    requires forall k :: 0 <= k < |w| ==> w[k] != '<'
    ensures StripFrom(s, i) == w + StripFrom(s, i + |w|)
  {
    forall k | i <= k < i + |w|
      ensures s[k] != '<'
    {
      assert s[k] == w[k - i];
    }
    StripKeepsPlainRun(s, i, i + |w|);
  }
}

=== FILE: store.dfy ===
/** The documents of the site's database (users, news, videos, galleries,
    comments) and the single "assets" document that holds the home-page
    curation, following the Mongoose schemas under models/. Collections are
    finite maps from document id to record; `createdAt` is an abstract
    timestamp (larger is newer). */
module Store {
  import opened Common
  import opened Ordering

  /** A registered account (models/userModel.js). `password` is the bcrypt hash. */
  datatype User = User(
    fullName: string,
    email: string,
    number: Option<string>,
    role: string,
    password: Option<string>,
    profileUrl: string,
    isActive: bool)

  /** The profile picture a new account gets. */
  const DefaultProfileUrl: string := "https://res.cloudinary.com/demmiusik/image/upload/v1711703262/s66xmxvaoqky3ipbxskj.jpg"

  /** A fresh account as `Users.create` stores it: role "user" unless one is given. */
  function NewUser(fullName: string, email: string, role: Option<string>, password: string): (u: User)
    ensures u.isActive && u.profileUrl == DefaultProfileUrl
    ensures u.role == (if role.Some? then role.value else "user")
  {
    User(fullName, email, None, if role.Some? then role.value else "user", Some(password), DefaultProfileUrl, true)
  }

  /** One user's reaction to a post: `{ userId, type }`. */
  datatype Reaction = Reaction(userId: Id, kind: string)

  /** A news post (models/newsModel.js). `tags` and `movieRating` are kept as
      the request sent them; Mongoose's casting of them is not modelled. */
  datatype News = News(
    postedBy: Option<Id>,
    title: string,
    mainUrl: string,
    description: string,
    category: string,
    subCategory: Option<string>,
    tags: Option<string>,
    movieRating: Option<string>,
    reactions: seq<Reaction>,
    createdAt: int)

  /** A YouTube video post (models/videoModel.js). */
  datatype Video = Video(
    postedBy: Option<Id>,
    title: string,
    mainUrl: string,
    videoUrl: string,
    category: string,
    subCategory: Option<string>,
    createdAt: int)

  /** A photo gallery (models/galleryModel.js). The schema declares no
      `reactions` array; the field is here for the corrected reaction handler
      and is always empty for a gallery the original schema stores. */
  datatype Gallery = Gallery(
    postedBy: Option<Id>,
    name: string,
    title: string,
    description: string,
    category: string,
    galleryPics: seq<string>,
    reactions: seq<Reaction>,
    createdAt: int)

  /** A comment or a reply (models/commentsModel.js). */
  datatype Comment = Comment(
    newsId: string,
    postedBy: Id,
    text: string,
    parent: Option<Id>,
    replies: seq<Id>,
    likes: seq<Id>,
    dislikes: seq<Id>,
    createdAt: int)

  // ---------------------------------------------------------------------------
  // The assets singleton (models/assetsModel.js:3-219)

  /** A curated slot: a news id and the position it should be shown at. */
  datatype Placement = Placement(news: Id, position: int)

  /** A movie release (`{id, movie, date, category}`) or a box-office collection
      (`{id, movie, amount, category}`); `detail` is the date or the amount. */
  datatype MovieEntry = MovieEntry(id: string, movie: string, detail: string, category: string)

  /** An image with a click-through link; both default to "". */
  datatype Banner = Banner(img: string, link: string)

  const EmptyBanner := Banner("", "")

  datatype Posters = Posters(popupPoster: Banner, moviePoster: Banner, navbarAd: Banner)

  datatype Ads = Ads(
    homeLongAd: Banner,
    homeShortAd: Banner,
    categoryLongAd: Banner,
    categoryShortAd: Banner,
    newsLongAd: Banner,
    newsShortAd: Banner)

  datatype Assets = Assets(
    gallery: Option<Id>,
    andhra: seq<Id>,
    telangana: seq<Id>,
    movies: seq<Id>,
    reviews: seq<Id>,
    gossips: seq<Id>,
    latestStories: seq<Id>,
    trailers: seq<Id>,
    trends: seq<Placement>,
    topFiveGrid: seq<Placement>,
    hotTopics: seq<Placement>,
    topNine: seq<Placement>,
    filesLinks: seq<string>,
    movieReleases: seq<MovieEntry>,
    posters: Posters,
    ads: Ads,
    movieCollections: seq<MovieEntry>)

  /** A freshly created assets document: every list empty, every banner blank. */
  const EmptyAssets: Assets := Assets(
    None, [], [], [], [], [], [], [], [], [], [], [], [], [],
    Posters(EmptyBanner, EmptyBanner, EmptyBanner),
    Ads(EmptyBanner, EmptyBanner, EmptyBanner, EmptyBanner, EmptyBanner, EmptyBanner),
    [])

  /** The singleton as `findOne` followed by `new Assets(...)` sees it. */
  function AssetsOrEmpty(a: Option<Assets>): Assets
  {
    if a.Some? then a.value else EmptyAssets
  }

  /** A document together with its id, as a query returns it. */
  datatype Doc<T> = Doc(id: Id, body: T)

  /** `order` lists every document of `m` exactly once: the collection's
      natural (insertion) order, in which a query visits documents. */
  ghost predicate IsNaturalOrder<T>(order: seq<Id>, m: map<Id, T>)
  {
    && (forall i :: 0 <= i < |order| ==> order[i] in m)
    && (forall id :: id in m ==> id in order)
    && (forall i, j :: 0 <= i < j < |order| ==> order[i] != order[j])
  }

  /** The documents of `m` in the order `order` gives. */
  function Rows<T>(order: seq<Id>, m: map<Id, T>): (r: seq<Doc<T>>)
    requires forall i :: 0 <= i < |order| ==> order[i] in m
    ensures |r| == |order|
    ensures forall i :: 0 <= i < |r| ==> r[i] == Doc(order[i], m[order[i]])
  {
    if |order| == 0 then [] else [Doc(order[0], m[order[0]])] + Rows(order[1..], m)
  }

  /** Every document of the collection occurs once in its natural order. */
  lemma {:induction false} RowsOnce<T>(order: seq<Id>, m: map<Id, T>)
    requires forall i :: 0 <= i < |order| ==> order[i] in m
    requires forall i, j :: 0 <= i < j < |order| ==> order[i] != order[j]
    ensures forall d :: multiset(Rows(order, m))[d] == if d in Rows(order, m) then 1 else 0
    decreases |order|
  {
    if |order| > 0 {
      var rows, rest := Rows(order, m), Rows(order[1..], m);
      RowsOnce(order[1..], m);
      assert rows == [rows[0]] + rest;
      assert rows[0] !in rest;
    }
  }

  /** A newest-first listing of a whole collection holds each passing
      document exactly once. */
  lemma ListedOnce<T(!new)>(order: seq<Id>, m: map<Id, T>, keep: Doc<T> -> bool, at: T -> int)
    requires IsNaturalOrder(order, m)
    ensures forall d :: multiset(ListNewest(Rows(order, m), keep, at))[d] == if d in Rows(order, m) && keep(d) then 1 else 0
  {
    RowsOnce(order, m);
  }

  /** `.find(query).sort({ createdAt: -1 })`: the rows that pass `keep`,
      newest first, ties in natural order; `at` is a body's creation time. */
  function ListNewest<T(!new)>(rows: seq<Doc<T>>, keep: Doc<T> -> bool, at: T -> int): (r: seq<Doc<T>>)
    ensures |r| == |Filter(rows, keep)|
    ensures forall d :: d in r <==> d in rows && keep(d)
    ensures forall d :: multiset(r)[d] == if keep(d) then multiset(rows)[d] else 0
    ensures forall i, j :: 0 <= i < j < |r| ==> at(r[i].body) >= at(r[j].body)
  {
    var kept := Filter(rows, keep);
    var key := (d: Doc<T>) => -at(d.body);
    var sorted := SortBy(kept, key);
    assert SortedBy(sorted, key);
    assert forall d :: d in sorted <==> d in multiset(kept);
    sorted
  }

  /** `.find({ _id: { $ne: id } }).sort({ createdAt: -1 }).limit(n)`: the `n`
      newest documents other than `id`. */
  function NewestOthers<T(!new)>(rows: seq<Doc<T>>, id: Id, n: nat, at: T -> int): (r: seq<Doc<T>>)
    ensures |r| <= n
    ensures forall d :: d in r ==> d in rows && d.id != id
    ensures forall i, j :: 0 <= i < j < |r| ==> at(r[i].body) >= at(r[j].body)
    ensures |r| < n ==> forall d :: d in rows && d.id != id ==> d in r
    ensures forall d, e :: d in rows && d.id != id && d !in r && e in r ==> at(d.body) <= at(e.body)
  {
    var all := ListNewest(rows, (d: Doc<T>) => d.id != id, at);
    TakeFrom(all, n);
    PrefixIsNewest(all, n, at);
    Take(all, n)
  }

  /** The first `n` of a newest-first listing are at least as new as any
      document left out. */
  lemma PrefixIsNewest<T(!new)>(all: seq<Doc<T>>, n: nat, at: T -> int)
    requires forall i, j :: 0 <= i < j < |all| ==> at(all[i].body) >= at(all[j].body)
    ensures forall d, e :: d in all && d !in Take(all, n) && e in Take(all, n) ==> at(d.body) <= at(e.body)
  {
    var r := Take(all, n);
    forall d, e | d in all && d !in r && e in r
      ensures at(d.body) <= at(e.body)
    {
      var i :| 0 <= i < |all| && all[i] == d;
      var j :| 0 <= j < |r| && r[j] == e;
      assert i >= |r|;
      assert all[j] == e;
    }
  }

  /** `Users.findById(user?._id)`: the stored account of the caller, if any. */
  function CurrentUser(users: map<Id, User>, caller: Option<Principal>): (r: Option<User>)
    ensures r.Some? <==> caller.Some? && caller.value.id in users
    ensures r.Some? ==> r.value == users[caller.value.id]
  {
    if caller.Some? && caller.value.id in users then Some(users[caller.value.id]) else None
  }

  /** `(u?.role === "admin" || u?.role === "writer") && u?.isActive === false`:
      the only accounts the create handlers turn away. */
  predicate InactiveStaff(u: Option<User>)
  {
    u.Some? && IsStaff(u.value.role) && !u.value.isActive
  }

  /** `(u.role !== "admin" && u.role !== "writer") || u.isActive === false`,
      negated: an active admin or writer. */
  predicate ActiveStaff(u: User)
  {
    IsStaff(u.role) && u.isActive
  }

  /** The seven plain id lists of the assets document. */
  datatype IdList = Andhra | Telangana | Movies | Reviews | Gossips | LatestStories | Trailers

  function IdsIn(a: Assets, l: IdList): seq<Id>
  {
    match l
    case Andhra => a.andhra
    case Telangana => a.telangana
    case Movies => a.movies
    case Reviews => a.reviews
    case Gossips => a.gossips
    case LatestStories => a.latestStories
    case Trailers => a.trailers
  }

  /** The `$pull` of a post id that deleteNews and deleteVideo send to every
      assets document. Of the eleven paths named, the seven plain id lists
      lose every occurrence of the id. `trends`, `topFiveGrid` and `topNine`
      hold `{news, position}` records, which never equal a bare id, and
      `featuredSlides` is not in the schema, so those are left as they are;
      `hotTopics` and `gallery` are not named at all. */
  function PullEverywhere(a: Assets, id: Id): (r: Assets)
    ensures forall l :: IdsIn(r, l) == Without(IdsIn(a, l), id)
    ensures r.trends == a.trends && r.topFiveGrid == a.topFiveGrid && r.topNine == a.topNine
    ensures r.hotTopics == a.hotTopics && r.gallery == a.gallery
    ensures r.(andhra := a.andhra, telangana := a.telangana, movies := a.movies, reviews := a.reviews,
               gossips := a.gossips, latestStories := a.latestStories, trailers := a.trailers) == a
  {
    var r := a.(andhra := Without(a.andhra, id),
                telangana := Without(a.telangana, id),
                movies := Without(a.movies, id),
                reviews := Without(a.reviews, id),
                gossips := Without(a.gossips, id),
                latestStories := Without(a.latestStories, id),
                trailers := Without(a.trailers, id));
    ListsPulled(a, r, id);
    r
  }

  /** Each of the seven lists of `r` is that of `a` without `id`. */
  lemma ListsPulled(a: Assets, r: Assets, id: Id)
    requires r.andhra == Without(a.andhra, id) && r.telangana == Without(a.telangana, id)
    requires r.movies == Without(a.movies, id) && r.reviews == Without(a.reviews, id)
    requires r.gossips == Without(a.gossips, id) && r.latestStories == Without(a.latestStories, id)
    requires r.trailers == Without(a.trailers, id)
    ensures forall l :: IdsIn(r, l) == Without(IdsIn(a, l), id)
  {
    forall l
      ensures IdsIn(r, l) == Without(IdsIn(a, l), id)
    {
      match l
      case Andhra =>
      case Telangana =>
      case Movies =>
      case Reviews =>
      case Gossips =>
      case LatestStories =>
      case Trailers =>
    }
  }

  /** `updateMany({}, ...)`: no assets document, nothing to update. */
  function PullFromAssets(assets: Option<Assets>, id: Id): (r: Option<Assets>)
    ensures r.Some? <==> assets.Some?
    ensures r.Some? ==> r.value == PullEverywhere(assets.value, id)
  {
    if assets.Some? then Some(PullEverywhere(assets.value, id)) else None
  }

  /** After the pull no plain list mentions the id, and every other id keeps
      its number of occurrences in every list. */
  lemma PullRemovesOnlyId(a: Assets, id: Id, l: IdList)
    ensures id !in IdsIn(PullEverywhere(a, id), l)
    ensures forall x :: x != id ==> multiset(IdsIn(PullEverywhere(a, id), l))[x] == multiset(IdsIn(a, l))[x]
  {
  }

  /** Pulling the same id twice is pulling it once. */
  lemma PullIdempotent(a: Assets, id: Id)
    ensures PullEverywhere(PullEverywhere(a, id), id) == PullEverywhere(a, id)
  {
  }

  /** A list that does not mention the id is left exactly as it was. */
  lemma PullLeavesUnrelated(a: Assets, id: Id, l: IdList)
    requires id !in IdsIn(a, l)
    ensures IdsIn(PullEverywhere(a, id), l) == IdsIn(a, l)
  {
  }

  // ---------------------------------------------------------------------------
  // Date conditions of the listing queries

  /** A relative point in time: the start of the last day, week, month or
      six months. */
  datatype Span = Day | Week | Month | HalfYear

  /** The `createdAt` condition a time preset builds. */
  datatype DateBound = NoBound | AtLeast(span: Span) | Before(span: Span)

  /** `createdAt` satisfies the bound; `cutoff(s)` is the timestamp `s` ago,
      as the handler computes it from the clock. */
  predicate WithinBound(createdAt: int, b: DateBound, cutoff: Span -> int)
  {
    match b
    case NoBound => true
    case AtLeast(s) => createdAt >= cutoff(s)
    case Before(s) => createdAt < cutoff(s)
  }

  /** The date condition of a five-preset time filter. The presets name, in
      order, the last day, week, month and half year, and the time before the
      last half year; a falsy or unknown value adds no condition. */
  function PresetBound(f: Field, presets: seq<string>): (b: DateBound)
    requires |presets| == 5
    requires presets[0] != "" && presets[1] != "" && presets[2] != "" && presets[3] != "" && presets[4] != ""
    requires presets[0] != presets[1] && presets[0] != presets[2] && presets[0] != presets[3] && presets[0] != presets[4]
    requires presets[1] != presets[2] && presets[1] != presets[3] && presets[1] != presets[4]
    requires presets[2] != presets[3] && presets[2] != presets[4] && presets[3] != presets[4]
    ensures f == Some(presets[0]) ==> b == AtLeast(Day)
    ensures f == Some(presets[1]) ==> b == AtLeast(Week)
    ensures f == Some(presets[2]) ==> b == AtLeast(Month)
    ensures f == Some(presets[3]) ==> b == AtLeast(HalfYear)
    ensures f == Some(presets[4]) ==> b == Before(HalfYear)
    ensures b.Before? ==> f == Some(presets[4])
    ensures b == NoBound <==> !(f.Some? && f.value in presets)
  {
    if !Truthy(f) then NoBound
    else if f.value == presets[0] then AtLeast(Day)
    else if f.value == presets[1] then AtLeast(Week)
    else if f.value == presets[2] then AtLeast(Month)
    else if f.value == presets[3] then AtLeast(HalfYear)
    else if f.value == presets[4] then Before(HalfYear)
    else NoBound
  }

  // ---------------------------------------------------------------------------

  /** The whole database. `assets` is absent until some handler creates it. */
  datatype Db = Db(
    users: map<Id, User>,
    news: map<Id, News>,
    videos: map<Id, Video>,
    galleries: map<Id, Gallery>,
    comments: map<Id, Comment>,
    assets: Option<Assets>)
}

=== FILE: videos.dfy ===
/** The video handlers of controllers/videosController.js: posting a YouTube
    video, the per-shelf listing, one video with its related lists, and
    deletion with its assets cascade. */
module Videos {
  import opened Common
  import opened Store
  import opened Ordering
  import Js
  import Keywords

  /** The video collection and the assets document a handler leaves behind,
      with the status and message of its response. */
  datatype Reply = Reply(videos: map<Id, Video>, assets: Option<Assets>, status: int, message: string)

  // ---------------------------------------------------------------------------
  // addVideo

  const EmbedPrefix: string := "https://www.youtube.com/embed/"
  const ThumbPrefix: string := "https://img.youtube.com/vi/"
  const ThumbSuffix: string := "/mqdefault.jpg"

  /** The player URL of a YouTube video id. */
  function EmbedUrl(ytId: string): string
  {
    EmbedPrefix + ytId
  }

  /** The medium-quality thumbnail URL of a YouTube video id. */
  function ThumbnailUrl(ytId: string): string
  {
    ThumbPrefix + ytId + ThumbSuffix
  }

  /** The video id a player URL names, if it is one. */
  function EmbedId(url: string): (r: Option<string>)
    ensures r.Some? ==> EmbedUrl(r.value) == url
  {
    if |url| >= |EmbedPrefix| && url[..|EmbedPrefix|] == EmbedPrefix then
      assert EmbedPrefix + url[|EmbedPrefix|..] == url;
      Some(url[|EmbedPrefix|..])
    else None
  }

  /** The video id a thumbnail URL names, if it is one. */
  function ThumbnailId(url: string): (r: Option<string>)
    ensures r.Some? ==> ThumbnailUrl(r.value) == url
  {
    var n, m := |ThumbPrefix|, |ThumbSuffix|;
    if |url| >= n + m && url[..n] == ThumbPrefix && url[|url| - m..] == ThumbSuffix then
      var id := url[n..|url| - m];
      assert ThumbPrefix + id + ThumbSuffix == url;
      Some(id)
    else None
  }

  /** Both URLs give back the id they were built from, so the stored video
      determines the YouTube id. */
  lemma UrlsRoundTrip(ytId: string)
    ensures EmbedId(EmbedUrl(ytId)) == Some(ytId)
    ensures ThumbnailId(ThumbnailUrl(ytId)) == Some(ytId)
  {
    var e := EmbedUrl(ytId);
    assert e[..|EmbedPrefix|] == EmbedPrefix && e[|EmbedPrefix|..] == ytId;
    var t := ThumbnailUrl(ytId);
    assert t[..|ThumbPrefix|] == ThumbPrefix;
    assert t[|t| - |ThumbSuffix|..] == ThumbSuffix;
    assert t[|ThumbPrefix|..|t| - |ThumbSuffix|] == ytId;
  }

  /** The video addVideo stores: posted by the caller, in category "videos"
      (the schema default), with the two YouTube URLs. */
  function NewVideo(caller: Principal, title: string, ytId: string, subCategory: Field, now: int): (v: Video)
    ensures EmbedId(v.videoUrl) == Some(ytId) && ThumbnailId(v.mainUrl) == Some(ytId)
    ensures v.postedBy == Some(caller.id) && v.title == title && v.category == "videos"
    ensures v.subCategory == subCategory && v.createdAt == now
  {
    UrlsRoundTrip(ytId);
    Video(Some(caller.id), title, ThumbnailUrl(ytId), EmbedUrl(ytId), "videos", subCategory, now)
  }

  /** addVideo: title, then the YouTube id (500 each); the caller's account
      must exist (otherwise `currentUser.role` throws: 500); an inactive admin
      or writer is turned away (404); anyone else may post. */
  function AddVideo(videos: map<Id, Video>, users: map<Id, User>, title: Field, subCategory: Field, ytId: Field,
                    caller: Option<Principal>, freshId: Id, now: int): (r: Reply)
    requires freshId !in videos
    ensures !Truthy(title) ==> r.status == 500 && r.message == "Enter title!"
    ensures Truthy(title) && !Truthy(ytId) ==> r.status == 500 && r.message == "Enter YouTube Video ID!"
    ensures r.status == 404 <==> Truthy(title) && Truthy(ytId) && InactiveStaff(CurrentUser(users, caller))
    ensures r.status == 200 <==>
      Truthy(title) && Truthy(ytId) && CurrentUser(users, caller).Some? && !InactiveStaff(CurrentUser(users, caller))
    ensures r.status != 200 ==> r.videos == videos
    ensures r.status == 200 ==> r.videos == videos[freshId := NewVideo(caller.value, title.value, ytId.value, subCategory, now)]
  {
    if !Truthy(title) then Reply(videos, None, 500, "Enter title!")
    else if !Truthy(ytId) then Reply(videos, None, 500, "Enter YouTube Video ID!")
    else if CurrentUser(users, caller).None? then
      Reply(videos, None, 500, "Cannot read properties of null (reading 'role')")
    else if InactiveStaff(CurrentUser(users, caller)) then Reply(videos, None, 404, "You don't have permission to post!")
    else Reply(videos[freshId := NewVideo(caller.value, title.value, ytId.value, subCategory, now)], None, 200,
               "Video added successfully")
  }

  /** A reader account may post videos; only inactive staff are refused. */
  lemma ReadersMayPost(videos: map<Id, Video>, users: map<Id, User>, title: string, ytId: string,
                       caller: Principal, freshId: Id, now: int)
    requires freshId !in videos && title != "" && ytId != ""
    requires caller.id in users && !IsStaff(users[caller.id].role)
    ensures AddVideo(videos, users, Some(title), None, Some(ytId), Some(caller), freshId, now).status == 200
  {
  }

  // ---------------------------------------------------------------------------
  // Listings

  /** A video's creation time, the key of the newest-first listings. */
  function VideoAt(v: Video): int
  {
    v.createdAt
  }

  /** `.find(query).limit(n)`: the first `n` matching videos in natural order. */
  function First(rows: seq<Doc<Video>>, keep: Doc<Video> -> bool, n: nat): (r: seq<Doc<Video>>)
    ensures |r| <= n
    ensures forall d :: d in r ==> d in rows && keep(d)
    ensures Subseq(r, rows)
    ensures |r| < n ==> forall d :: d in rows && keep(d) ==> d in r
  {
    var kept := Filter(rows, keep);
    var r := Take(kept, n);
    assert forall d :: d in r ==> d in kept;
    assert Subseq(r, kept) by {
      if |kept| > n {
        PrefixSubseq(kept, n);
      } else {
        SubseqRefl(kept);
      }
    }
    SubseqTrans(r, kept, rows);
    r
  }

  // ---------------------------------------------------------------------------
  // getCategoryVideos

  /** The seven lists of the videos page. */
  datatype Shelf = Trailers | Latest | VideoSongs | LyricalSongs | Shows | Ott | Events

  /** The query each shelf runs on a video in category "videos": an exact
      subCategory, or for the latest videos a missing or empty one. */
  predicate OnShelf(v: Video, s: Shelf)
  {
    v.category == "videos" &&
    match s
    case Trailers => v.subCategory == Some("trailers")
    case Latest => v.subCategory.None? || v.subCategory == Some("")
    case VideoSongs => v.subCategory == Some("video songs")
    case LyricalSongs => v.subCategory == Some("lyrical videos")
    case Shows => v.subCategory == Some("shows")
    case Ott => v.subCategory == Some("ott")
    case Events => v.subCategory == Some("events")
  }

  /** The subCategories that have a shelf of their own. */
  const ShelvedSubCategories: set<string> := {"", "trailers", "video songs", "lyrical videos", "shows", "ott", "events"}

  const AllShelves: set<Shelf> := {Shelf.Trailers, Latest, VideoSongs, LyricalSongs, Shows, Ott, Events}

  lemma EveryShelf(s: Shelf)
    ensures s in AllShelves
  {
    match s
    case Trailers =>
    case Latest =>
    case VideoSongs =>
    case LyricalSongs =>
    case Shows =>
    case Ott =>
    case Events =>
  }

  /** One shelf of getCategoryVideos, newest first. */
  function ShelfListing(rows: seq<Doc<Video>>, s: Shelf): seq<Doc<Video>>
  {
    ListNewest(rows, (d: Doc<Video>) => OnShelf(d.body, s), VideoAt)
  }

  /** getCategoryVideos: every shelf, newest first. */
  function GetCategoryVideos(videos: map<Id, Video>, order: seq<Id>): (r: map<Shelf, seq<Doc<Video>>>)
    requires IsNaturalOrder(order, videos)
    ensures forall s: Shelf :: s in r
    ensures forall s, d :: s in r ==> (d in r[s] <==> d in Rows(order, videos) && OnShelf(d.body, s))
    ensures forall s, d :: s in r ==> multiset(r[s])[d] == if d in Rows(order, videos) && OnShelf(d.body, s) then 1 else 0
    ensures forall s, i, j :: s in r && 0 <= i < j < |r[s]| ==> r[s][i].body.createdAt >= r[s][j].body.createdAt
  {
    var rows := Rows(order, videos);
    assert forall s: Shelf :: s in AllShelves by {
      forall s: Shelf
        ensures s in AllShelves
      {
        EveryShelf(s);
      }
    }
    forall s: Shelf
      ensures forall d :: multiset(ShelfListing(rows, s))[d] == if d in rows && OnShelf(d.body, s) then 1 else 0
    {
      ListedOnce(order, videos, (d: Doc<Video>) => OnShelf(d.body, s), VideoAt);
    }
    map s | s in AllShelves :: ShelfListing(rows, s)
  }

  /** The shelves partition the videos of category "videos" whose
      subCategory is missing or one of the seven values: each such video is on
      exactly one shelf, and every other video is on none. */
  lemma ShelvesPartition(v: Video)
    ensures forall a: Shelf, b: Shelf :: OnShelf(v, a) && OnShelf(v, b) ==> a == b
    ensures (exists s: Shelf :: OnShelf(v, s)) <==>
      v.category == "videos" && (v.subCategory.None? || v.subCategory.value in ShelvedSubCategories)
  {
    if v.category == "videos" && (v.subCategory.None? || v.subCategory.value in ShelvedSubCategories) {
      var sub := ValueOr(v.subCategory, "");
      var s :=
        if sub == "" then Latest
        else if sub == "trailers" then Shelf.Trailers
        else if sub == "video songs" then VideoSongs
        else if sub == "lyrical videos" then LyricalSongs
        else if sub == "shows" then Shows
        else if sub == "ott" then Ott
        else Events;
      assert OnShelf(v, s);
    }
  }

  // ---------------------------------------------------------------------------
  // getVideo

  /** `text` occurs in `s`. */
  predicate Contains(s: string, text: string)
  {
    exists i :: 0 <= i <= |s| && text <= s[i..]
  }

  /** The case-insensitive `$regex` built by joining the keywords with `|`:
      the title contains one of them, ignoring the case of ASCII letters.
      The keywords hold only letters and white space, so no character of the
      pattern is special. */
  predicate Similar(title: string, keywords: seq<string>)
  {
    exists k :: k in keywords && Contains(Js.Lower(title), Js.Lower(k))
  }

  /** `_id: { $ne: videoId }` together with a title containing a keyword;
      none at all without keywords (the pattern is then empty). */
  function SimilarPosts(rows: seq<Doc<Video>>, id: Id, keywords: seq<string>): (r: seq<Doc<Video>>)
    ensures |r| <= 6
    ensures forall d :: d in r ==> d in rows && d.id != id && Similar(d.body.title, keywords)
    ensures |keywords| == 0 ==> r == []
    ensures |keywords| > 0 && |r| < 6 ==> forall d :: d in rows && d.id != id && Similar(d.body.title, keywords) ==> d in r
  {
    if |keywords| == 0 then [] else First(rows, (d: Doc<Video>) => d.id != id && Similar(d.body.title, keywords), 6)
  }

  /** The filter `{ _id: { $ne: id }, subCategory: sub }`. Mongoose drops a
      key whose value is `undefined` from a query filter, so for a video with
      no subCategory only the `$ne` condition remains. */
  predicate RelatedTo(d: Doc<Video>, id: Id, sub: Field)
  {
    d.id != id && (sub.None? || d.body.subCategory == sub)
  }

  /** The other videos with the same subCategory; every other video when the
      video has none. */
  function RelatedPosts(rows: seq<Doc<Video>>, id: Id, sub: Field): (r: seq<Doc<Video>>)
    ensures |r| <= 6
    ensures forall d :: d in r ==> d in rows && d.id != id
    ensures sub.Some? ==> forall d :: d in r ==> d.body.subCategory == sub
    ensures |r| < 6 ==> forall d :: d in rows && d.id != id && (sub.None? || d.body.subCategory == sub) ==> d in r
  {
    First(rows, (d: Doc<Video>) => RelatedTo(d, id, sub), 6)
  }

  /** Song subCategories. */
  const SongKinds: set<Field> := {Some("video songs"), Some("lyrical videos")}

  /** The other videos that are songs. */
  function SongPosts(rows: seq<Doc<Video>>, id: Id): (r: seq<Doc<Video>>)
    ensures |r| <= 6
    ensures forall d :: d in r ==> d in rows && d.id != id && d.body.subCategory in SongKinds
    ensures |r| < 6 ==> forall d :: d in rows && d.id != id && d.body.subCategory in SongKinds ==> d in r
  {
    First(rows, (d: Doc<Video>) => d.id != id && d.body.subCategory in SongKinds, 6)
  }

  /** What getVideo answers with. */
  datatype VideoPage = VideoPage(
    video: Video,
    similarPosts: seq<Doc<Video>>,
    relatedPosts: seq<Doc<Video>>,
    suggestedPosts: seq<Doc<Video>>,
    videoSongs: seq<Doc<Video>>)

  /** No list of the page holds the video `id`, none has more than six
      entries, and every entry is a stored video. */
  ghost predicate ListsExclude(p: VideoPage, rows: seq<Doc<Video>>, id: Id)
  {
    forall d :: d in p.similarPosts + p.relatedPosts + p.suggestedPosts + p.videoSongs ==> d in rows && d.id != id
  }

  /** getVideo: 404 unless the id has 24 characters, 500 when those are not
      hexadecimal (the cast fails), 404 when there is no such video. Then
      four lists of at most six other videos: those whose title contains a
      keyword of this one (none at all when the title has no keyword), those
      with the same subCategory, the newest, and the songs. The first, second
      and fourth come in natural order. */
  function GetVideo(videos: map<Id, Video>, order: seq<Id>, videoId: Field): (r: Result<VideoPage>)
    requires IsNaturalOrder(order, videos)
    ensures r.Ok? <==> videoId.Some? && IsObjectId(videoId.value) && videoId.value in videos
    ensures r.Fail? ==> r.status == (if HasIdLength(videoId) && !IsObjectId(videoId.value) then 500 else 404)
    ensures r.Ok? ==> r.value.video == videos[videoId.value]
    ensures r.Ok? ==> ListsExclude(r.value, Rows(order, videos), videoId.value)
    ensures r.Ok? ==> |r.value.similarPosts| <= 6 && |r.value.relatedPosts| <= 6
                      && |r.value.suggestedPosts| <= 6 && |r.value.videoSongs| <= 6
    ensures r.Ok? && Keywords.Extract(r.value.video.title) == [] ==> r.value.similarPosts == []
    ensures r.Ok? ==> forall d :: d in r.value.similarPosts ==> Similar(d.body.title, Keywords.Extract(r.value.video.title))
    ensures r.Ok? && r.value.video.subCategory.Some? ==>
      forall d :: d in r.value.relatedPosts ==> d.body.subCategory == r.value.video.subCategory
    ensures r.Ok? ==> forall d :: d in r.value.videoSongs ==> d.body.subCategory in SongKinds
    ensures r.Ok? ==> forall i, j :: 0 <= i < j < |r.value.suggestedPosts| ==>
      r.value.suggestedPosts[i].body.createdAt >= r.value.suggestedPosts[j].body.createdAt
    ensures r.Ok? ==> forall d, e ::
      (d in Rows(order, videos) && d.id != videoId.value && d !in r.value.suggestedPosts && e in r.value.suggestedPosts)
      ==> d.body.createdAt <= e.body.createdAt
    ensures r.Ok? ==>
      var rows, id := Rows(order, videos), videoId.value;
      && r.value.similarPosts == SimilarPosts(rows, id, Keywords.Extract(r.value.video.title))
      && r.value.relatedPosts == RelatedPosts(rows, id, r.value.video.subCategory)
      && r.value.suggestedPosts == NewestOthers(rows, id, 6, VideoAt)
      && r.value.videoSongs == SongPosts(rows, id)
  {
    if !Truthy(videoId) || |videoId.value| != 24 then Fail(404)
    else if !IsObjectId(videoId.value) then Fail(500)
    else if videoId.value !in videos then Fail(404)
    else
      var id := videoId.value;
      var video := videos[id];
      var rows := Rows(order, videos);
      var page := VideoPage(video, SimilarPosts(rows, id, Keywords.Extract(video.title)), RelatedPosts(rows, id, video.subCategory),
                            NewestOthers(rows, id, 6, VideoAt), SongPosts(rows, id));
      assert ListsExclude(page, rows, id);
      Ok(page)
  }

  // ---------------------------------------------------------------------------
  // deleteVideo

  /** deleteVideo: the caller's account must exist (500 otherwise) and not be
      an inactive admin or writer (404). A malformed id fails the cast (500).
      Otherwise the video is deleted if it exists, by anyone, and its id is
      pulled from the assets document whether or not it existed. */
  function DeleteVideo(videos: map<Id, Video>, assets: Option<Assets>, users: map<Id, User>, videoId: string,
                       caller: Option<Principal>): (r: Reply)
    ensures r.status == 200 <==>
      CurrentUser(users, caller).Some? && !InactiveStaff(CurrentUser(users, caller)) && IsObjectId(videoId)
    ensures r.status == 404 <==> InactiveStaff(CurrentUser(users, caller))
    ensures r.status != 200 ==> r.videos == videos && r.assets == assets
    ensures r.status == 200 ==> r.videos == videos - {videoId} && r.assets == PullFromAssets(assets, videoId)
  {
    if CurrentUser(users, caller).None? then
      Reply(videos, assets, 500, "Failed to fetch videos.")
    else if InactiveStaff(CurrentUser(users, caller)) then
      Reply(videos, assets, 404, "You don't have permission to delete!")
    else if !IsObjectId(videoId) then
      Reply(videos, assets, 500, "Failed to fetch videos.")
    else
      Reply(videos - {videoId}, PullFromAssets(assets, videoId), 200, "Video deleted successfully")
  }

  /** Any reader account may delete any video, and an unknown id still
      succeeds and still cleans the assets lists. */
  lemma ReaderDeletesAnything(videos: map<Id, Video>, a: Assets, users: map<Id, User>, videoId: string, caller: Principal)
    requires IsObjectId(videoId) && videoId !in videos
    requires caller.id in users && !IsStaff(users[caller.id].role)
    ensures var r := DeleteVideo(videos, Some(a), users, videoId, Some(caller));
            r.status == 200 && r.videos == videos && r.assets == Some(PullEverywhere(a, videoId))
  {
  }
}
